=== FILE: README.md ===
# Akolade Aggregator content sync, modelled in Dafny

Akolade Aggregator is a WordPress plugin. It copies posts from one site of a
network (the exporter) to the others (the importers).

**Exporter side.** On save, a post that qualifies is turned into a document:
- the post itself;
- its meta;
- its author;
- its terms, flattened with their ancestors;
- its attached images.

Two passes rewrite image references in the content into *sentinels*:
- `src="url"` becomes `src="%akagsrcstart%url%akagsrcend%"`;
- `ids|image|images="1,2"` becomes a comma list of `%akagidstart%url%akagidend%`.

The document is then posted to each importer.

**Importer side.** The importer's `handle` does the following:
- checks the access token;
- upserts the document into the staging table, keyed by post name and post type;
- unless imports are scheduled, runs `import` as a draft, as published, or both.

`import` rebuilds the post in order:
1. the author;
2. the post, with its content sentinels decoded;
3. the tracking meta and the channel term;
4. the meta;
5. the terms;
6. the images.

A shared cache maps each remote URL to a local attachment id, so no image is
fetched twice. The scheduled batch import runs imports over the pending
staging rows.

**How it is modelled.** The model is functional:
- the importer site's state is a `Site` value: staging rows, local posts, users, terms, term assignments, meta and the image cache;
- every WordPress call the code cannot see is an oracle field of a `World` or `Env` record: media sideloading, attachment URLs, `wp_insert_user`, `wp_insert_term`, thumbnails, and the exporter's `get_post`/`get_term`;
- PHP truthiness (`""` and `"0"` are false) is modelled explicitly;
- the regular expressions are modelled as left-to-right scanners with PCRE's lazy `.*?` semantics: the first end marker wins and no match crosses a line feed.

**Defects modelled as written.** Four defects of the code are kept as the
code has them, each with a lemma that exhibits it:
- `handle` hands the row *count* on as the staging id when it updates;
- the batch's skip test `!== '1' || !== '2'` always holds;
- the exporter wraps the serialized image's `id` around the already wrapped `url`;
- the id pass silently drops ids whose attachment URL is missing.

Modules follow the program's structure:

| module | file | what |
|---|---|---|
| `Text` | text.dfy | PHP truthiness, integer to string, `explode`/`implode` |
| `Staging` | staging.dfy | the staging table of `class-akolade-aggregator-db.php` |
| `AssetCache` | asset_cache.dfy | the imported-image cache |
| `Sentinel` | sentinel.dfy | sentinel scanning shared by both ends |
| `Decoder` | decoder.dfy | `replace_embeded_special_content` and `save_image_to_post` |
| `Encoder` | encoder.dfy | `replace_embeded_images_with_placeholder` |
| `Exporter` | exporter.dfy | `handle`, `parse_domain_from_url`, meta encoding, `prepare_data` |
| `TermFlatten` | flatten.dfy | the exporter's ancestor walk |
| `TermImport` | terms.dfy | `import_terms`, `find_term_using_id` and the grouping of `assign_post_terms` |
| `FieldFilter` | fields.dfy | `filter_fields` and `import_author` |
| `Materializer` | materializer.dfy | `import` and its steps |
| `Intake` | intake.dfy | the importer's `handle` |
| `Batch` | batch.dfy | `import_posts_in_batch` |

## Model

| member | source | states |
|---|---|---|
| Staging.StatusValue | includes/class-akolade-aggregator-db.php:34-57 | "new", "update" and "cancelled" map to their own codes; every other word maps to up-to-date |
| Staging.StatusRoundTrip | includes/class-akolade-aggregator-db.php:34-57 | each of the four status codes is recovered from its name |
| Staging.CountAkPosts | includes/class-akolade-aggregator-db.php:64-71 | the count is the number of rows with that post name and type; it is zero exactly when no row has them |
| Staging.InsertAkPost | includes/class-akolade-aggregator-db.php:81-87 | appends the row under the next auto-increment id; that id is returned; the count of that key rises by one and the others are unchanged; ids stay unique |
| Staging.UpdateAkPost | includes/class-akolade-aggregator-db.php:100-110 | exactly the rows of the name and type take the patch; the others are untouched; ids and row count are kept |
| Staging.UpdateKeepsValid | includes/class-akolade-aggregator-db.php:100-110 | an update by name and type keeps ids unique and below the auto-increment counter |
| Staging.UpdateKeepsCounts | includes/class-akolade-aggregator-db.php:100-110 | a patch that keeps name and type leaves every key's count unchanged |
| Staging.UpdateAkPostUsingId | includes/class-akolade-aggregator-db.php:89-98 | exactly the row with the id takes the patch; the others are untouched |
| Staging.GetAkPost | includes/class-akolade-aggregator-db.php:73-79 | the answer is a row with that id; there is none exactly when no row carries it |
| Staging.DeletePost | includes/class-akolade-aggregator-db.php:343-351 | the rows remaining are exactly those without the id; validity is kept |
| Staging.ListWithFilter | includes/class-akolade-aggregator-db.php:170-179 | "pending" keeps new and update rows, "completed" keeps up-to-date rows, anything else keeps all |
| Staging.CountMatchesList | includes/class-akolade-aggregator-db.php:263-296 | the filtered count equals the length of the filtered list |
| Staging.Page | includes/class-akolade-aggregator-db.php:193-194 | LIMIT/OFFSET: the page is the slice from `(page-1)*per_page` of at most `per_page` rows; a negative limit or offset is rejected |
| Staging.PagesCoverRows | includes/class-akolade-aggregator-db.php:193-194 | every row appears on page `i / per_page + 1` at position `i % per_page` |
| AssetCache.GetImportedImage | includes/class-akolade-aggregator-db.php:216-235 | the first cached row for the URL answers "id" with its id and "src" with its attachment URL; it answers nothing when uncached or for another mode |
| AssetCache.Remember | includes/class-akolade-aggregator-db.php:245-256 | adds one row; a URL already cached keeps its first id; other URLs are unaffected |
| AssetCache.RememberThenGet | includes/class-akolade-aggregator-db.php:216-256 | after remembering a new URL, lookups by id and by src return the remembered attachment |
| Decoder.CacheHit | includes/class-akolade-aggregator-importer.php:552-554 | a hit is a truthy cached answer; for ids, a hit means a cached id other than 0 |
| Decoder.Resolve | includes/class-akolade-aggregator-importer.php:551-566 | a hit is substituted without a fetch; a miss fetches once; an integer result is remembered and substituted; a failed fetch leaves the whole sentinel in place |
| Decoder.ResolveTwiceFetchesOnce | includes/class-akolade-aggregator-importer.php:551-586 | resolving the same URL again after a successful fetch yields the same text and fetches nothing |
| Decoder.Decode | includes/class-akolade-aggregator-importer.php:547-588 | the cache and the fetch log only grow |
| Decoder.PlainTextUntouched | includes/class-akolade-aggregator-importer.php:547-588 | content with no start marker comes back unchanged, with no fetch |
| Decoder.FailedFetchesLeaveText | includes/class-akolade-aggregator-importer.php:559-562 | when every fetch fails, every sentinel stays as it was, so the content is unchanged and nothing is cached |
| Decoder.SaveImage | includes/class-akolade-aggregator-importer.php:522-536 | a cached non-zero id is returned without a fetch; otherwise the URL is fetched once and an integer result is cached |
| Sentinel.FindEnd | includes/class-akolade-aggregator-importer.php:550 | the lazy match ends at the first end marker; no line feed lies before it; none is found when every marker lies past a line feed |
| Sentinel.ParseRendersBack | includes/class-akolade-aggregator-importer.php:549-588 | splitting text into literal runs and matched sentinels loses nothing: rendering the pieces gives the text back |
| Sentinel.WrapRecognised | admin/class-akolade-aggregator-exporter.php:179 | a wrapped value without a line feed or an early end marker is read back as one sentinel holding that value |
| Sentinel.ParseRender | includes/class-akolade-aggregator-importer.php:549-588 | pieces that hide no stray start marker are recovered by the importer's scan, up to merging adjacent literals |
| Sentinel.LitNoPercentTransparent | admin/class-akolade-aggregator-exporter.php:179 | literals without '%' around clean sentinels can never be misread |
| Encoder.SrcAttrRewritten | admin/class-akolade-aggregator-exporter.php:175-184 | `src = "x"` (optional single spaces) becomes `src="` + the src sentinel of x + `"`, and the scan continues after the closing quote |
| Encoder.SrcPassThrough | admin/class-akolade-aggregator-exporter.php:175-184 | text with no `src=".."` match is unchanged |
| Encoder.SrcSentinelsRecognised | admin/class-akolade-aggregator-exporter.php:175-184 | for '%'-free content, the importer's scan of the src pass's output finds exactly the sentinels the pass wrote |
| Encoder.IdSources | admin/class-akolade-aggregator-exporter.php:190-200 | the URLs of the listed ids in order; an id is kept exactly when its URL is truthy; nothing marks a dropped id |
| Encoder.UnresolvableIdsDropped | admin/class-akolade-aggregator-exporter.php:187-208 | when no id resolves, the attribute becomes an empty string |
| Encoder.IdPassThrough | admin/class-akolade-aggregator-exporter.php:187-208 | text with no id attribute match is unchanged |
| Encoder.IdMarksResolvable | admin/class-akolade-aggregator-exporter.php:187-208 | every sentinel the id pass writes holds the URL of some resolvable id |
| Encoder.IdSentinelsRecognised | admin/class-akolade-aggregator-exporter.php:187-208 | for '%'-free content with clean URLs, the importer's scan finds exactly the sentinels the id pass wrote |
| Exporter.ShouldExport | admin/class-akolade-aggregator-exporter.php:45-67 | exports exactly when not autosaving, the name is truthy, the type is exportable, and the screen is not the plugin's own |
| Exporter.ParseDomain | admin/class-akolade-aggregator-exporter.php:116-127 | the leftmost `label.tld` match anchored at the end of the host, up to its first dot; empty when nothing matches or there is no host |
| Exporter.EncodeMetaValue | admin/class-akolade-aggregator-exporter.php:258-302 | each meta-key class gets its encoding: image ids become id sentinels, serialized images are rewrapped, linked posts and terms become natural keys, others pass through |
| Exporter.SerializedIdDoubleWrapped | admin/class-akolade-aggregator-exporter.php:276-277 | the serialized image's `id` is the id sentinel around the already src-wrapped `url` |
| Exporter.EncodeMeta | admin/class-akolade-aggregator-exporter.php:258-302 | keys and order are kept; each value is encoded; the posts re-exported are exactly the linked ones that exist |
| Exporter.SelfLinkReexports | admin/class-akolade-aggregator-exporter.php:284-293 | a post linking to itself is exported again from inside its own export |
| Exporter.PrepareData | admin/class-akolade-aggregator-exporter.php:129-170 | the key is kept; the content is encoded; the channel is the parsed domain; each meta value is encoded under its key, and the linked posts that exist are re-exported; every term's parent precedes it, and exactly the attached terms are flagged, in reverse order |
| TermFlatten.Flatten | admin/class-akolade-aggregator-exporter.php:142-161 | every entry with a parent comes right after that parent; the length counts each attached term plus its ancestors |
| TermFlatten.ChainPrecedes | admin/class-akolade-aggregator-exporter.php:142-161 | in a parent-first list, the whole ancestor chain of an entry lies right before it |
| TermFlatten.FlaggedAreAttached | admin/class-akolade-aggregator-exporter.php:148-157 | the entries flagged as belonging to the post are exactly the attached terms, in reverse order |
| TermImport.TermExists | includes/class-akolade-aggregator-importer.php:381 | finds a term with that slug and taxonomy exactly when one exists |
| TermImport.FindTermUsingId | includes/class-akolade-aggregator-importer.php:652-666 | the first listed term with that id, and none exactly when no term has it |
| TermImport.ImportOne | includes/class-akolade-aggregator-importer.php:372-414 | an existing term is reused; a new one is inserted under the local id of its parent (0 when unresolved); a failed insert yields no entry |
| TermImport.ImportTerms | includes/class-akolade-aggregator-importer.php:372-414 | existing terms are kept; at most one response per term; when every insert succeeds, one per term, the `k`-th carrying the `k`-th term's taxonomy and `belongs_to_post` flag |
| TermImport.ImportTermsAnswers | includes/class-akolade-aggregator-importer.php:372-414 | when every insert succeeds, `term_exists` on each term's slug and taxonomy in the final store gives the id its response entry carries |
| TermImport.AbsentAtStage | includes/class-akolade-aggregator-importer.php:381-406 | a slug and taxonomy that neither the site nor the earlier terms have are still absent when a later term is processed |
| TermImport.ParentResolvedWhenFirst | includes/class-akolade-aggregator-importer.php:372-414 | for any list: a new term whose parent `find_term_using_id` finds at an earlier position is created under the id the response gives that parent |
| TermImport.AncestorFirstResolves | includes/class-akolade-aggregator-importer.php:372-414 | over a list in the exporter's parent-first order, every new term with a parent is created under the response id of an earlier term carrying that parent's id |
| TermImport.ParentLostWhenAfter | includes/class-akolade-aggregator-importer.php:372-414 | for any list: a new term whose parent entry comes later and is new too is created at the root (parent 0) |
| TermImport.ParentLostWhenLater | includes/class-akolade-aggregator-importer.php:372-414 | the smallest witness: for the pair `[child, root]`, the child is inserted under parent 0 |
| TermImport.AssignPostTerms | includes/class-akolade-aggregator-importer.php:450-472 | one group per taxonomy holding exactly the ids flagged as belonging to the post; every flagged term's taxonomy has a group |
| TermImport.OnlyFlaggedAttached | includes/class-akolade-aggregator-importer.php:456-464 | every grouped id comes from a response flagged as belonging to the post |
| FieldFilter.FilterFields | includes/class-akolade-aggregator-importer.php:481-494 | keeps exactly the allowed keys that are set, with their values, each once |
| FieldFilter.FilterFieldsOrdered | includes/class-akolade-aggregator-importer.php:481-494 | the kept keys follow the order of the allowed list |
| FieldFilter.LookupFiltered | includes/class-akolade-aggregator-importer.php:481-494 | a key's value after filtering is its value when allowed and set, and nothing otherwise |
| FieldFilter.EmailExists | includes/class-akolade-aggregator-importer.php:348 | finds a user with that email, none for a missing or empty email, and none exactly when nobody has it |
| FieldFilter.ImportAuthor | includes/class-akolade-aggregator-importer.php:340-358 | no author gives false; a known email gives that user with nothing inserted; otherwise the filtered record with role author is inserted, if the insert succeeds |
| FieldFilter.NewUserFields | includes/class-akolade-aggregator-importer.php:353-354 | a new user has role "author" and exactly the allowed author fields that were set |
| FieldFilter.ImportAuthorTwice | includes/class-akolade-aggregator-importer.php:340-358 | importing the same author again finds the user the first import produced and inserts nothing |
| Materializer.FindPost | includes/class-akolade-aggregator-db.php:205-208 | the first local post with that name and type; none exactly when none has them |
| Materializer.ImportPost | includes/class-akolade-aggregator-importer.php:212-249 | the content is decoded; an existing post is overwritten and keeps its id, else one is appended under a new id; every staging row of the key records the id and becomes up-to-date |
| Materializer.ImportPostFindable | includes/class-akolade-aggregator-importer.php:212-249 | afterwards the post is found by name and type with the returned id and the given status |
| Materializer.ImportPostTwice | includes/class-akolade-aggregator-importer.php:232-239 | importing the same post again updates it in place: same id, no new post |
| Materializer.AddTrackingInfo | includes/class-akolade-aggregator-importer.php:674-696 | sets canonical URL and channel meta; an existing channel term is added to the post's channel terms; a missing one is created at the root under the next id and added when the insert succeeds, and nothing is added when it fails; nothing else changes |
| Materializer.TrackingAssignsChannel | includes/class-akolade-aggregator-importer.php:680-695 | afterwards, whenever the site has the channel term, the post carries it |
| Materializer.TrackingIdempotent | includes/class-akolade-aggregator-importer.php:674-696 | adding the tracking info twice gives the same site as adding it once |
| Materializer.ImportValue | includes/class-akolade-aggregator-importer.php:258-332 | each meta-key class is turned back into a local value: image sentinels are decoded; linked posts and terms become local ids, or "" when unknown; others are kept |
| Materializer.AssignPostMeta | includes/class-akolade-aggregator-importer.php:258-332 | every non-excluded key is written for the post; excluded keys and other posts' meta are untouched |
| Materializer.StoredAsImported | includes/class-akolade-aggregator-importer.php:258-332 | every non-excluded key not sent again later holds afterwards its value as turned back into a local one: decoded image sentinels, a rebuilt serialized image, local term and post ids |
| Materializer.PlainMetaStoredAsSent | includes/class-akolade-aggregator-importer.php:258-332 | a plain meta value that is the last for its key is stored as sent |
| Materializer.SetPostTermsKeys | includes/class-akolade-aggregator-importer.php:466-471 | assignments gain exactly one entry per grouped taxonomy of the post |
| Materializer.SetPostTermsKeepsOthers | includes/class-akolade-aggregator-importer.php:466-471 | assignments of other posts or other taxonomies are unchanged |
| Materializer.SetPostTermsAssigns | includes/class-akolade-aggregator-importer.php:466-471 | each grouped taxonomy of the post is set to exactly its group's ids |
| Materializer.ImagesFetchAtMostOnce | includes/class-akolade-aggregator-importer.php:423-441 | the image step fetches at most once per image and only appends to the log |
| Materializer.ImagesFetchOnlyTheirUrls | includes/class-akolade-aggregator-importer.php:423-441 | every fetch the image step makes is of one of the images' guids |
| Materializer.CachedImageNeedsNoFetch | includes/class-akolade-aggregator-importer.php:430-436 | when the first image is cached the step succeeds at once with no fetch |
| Materializer.Import | includes/class-akolade-aggregator-importer.php:170-199 | an unknown staging id changes nothing; otherwise the post ends up findable with the given status, and its staging rows are up-to-date and point at it |
| Materializer.ImportKeepsRows | includes/class-akolade-aggregator-importer.php:170-199 | an import keeps every staging row's id, key and document |
| Materializer.ImportKeepsStaging | includes/class-akolade-aggregator-importer.php:170-199 | an import keeps the staging table valid and every key's count |
| Intake.VerifyAccessToken | includes/class-akolade-aggregator-importer.php:501-512 | accepts exactly when a token was sent and equals the configured one |
| Intake.Stage | includes/class-akolade-aggregator-importer.php:121-141 | a new key inserts one "new" row and hands on its id; a known key rewrites all its rows to status update and hands on their count; only the new key's count can grow |
| Intake.StagedNewRowFound | includes/class-akolade-aggregator-importer.php:139-140 | the id handed on for a new key finds the staged document |
| Intake.CountHandedOnAsId | includes/class-akolade-aggregator-importer.php:132-137 | with one row of another post at id 1, re-sending a post staged at id 2 hands on 1, which names the other post's row |
| Intake.ImportPlan | includes/class-akolade-aggregator-importer.php:143-157 | when not scheduled: a draft import exactly for auto-publish "1"; a publish import exactly for "2" or an always-published type; the draft comes first |
| Intake.Handle | includes/class-akolade-aggregator-importer.php:108-160 | a bad token changes nothing; a good one stages the document; when scheduled that is all |
| Intake.HandleRunsPlan | includes/class-akolade-aggregator-importer.php:108-160 | with a good token, `handle` stages the document and then runs the plan's imports on the id handed on |
| Intake.HandleUpserts | includes/class-akolade-aggregator-importer.php:108-160 | after `handle` the staging table is valid, and only a new key's count rises, by one |
| Intake.DraftThenPublish | includes/class-akolade-aggregator-importer.php:143-157 | a new always-published post under auto-publish "1" is imported as a draft, then ends up published |
| Intake.ImportKeepsLookup | includes/class-akolade-aggregator-importer.php:170-199 | an import keeps every staging row findable by its id, with its document |
| Batch.SkipAlwaysTaken | includes/class-akolade-aggregator-importer.php:726-731 | the skip test holds for every `auto_publish` setting |
| Batch.LoopPublishesOnlyAlwaysPublished | includes/class-akolade-aggregator-importer.php:715-748 | the loop imports exactly the non-cancelled, always-published rows, as published, whatever `auto_publish` is |
| Batch.BatchIgnoresAutoPublish | includes/class-akolade-aggregator-importer.php:704-750 | the batch plan is empty when not scheduled, and otherwise is the always-published rows whatever `auto_publish` is |
| Batch.ImportPostsInBatch | includes/class-akolade-aggregator-importer.php:704-750 | nothing happens unless scheduled, or when no pending row is both live and always-published |
| Batch.CancelledNeverImported | includes/class-akolade-aggregator-importer.php:716-719 | with the cancelled test working as its comment says, a cancelled row's id is never imported by the batch |
| Batch.AsWrittenPublishesCancelled | includes/class-akolade-aggregator-importer.php:715-748 | with the cancelled test as written, the loop imports every always-published row as published, cancelled or not |
| Batch.CancelledImportedAsWritten | includes/class-akolade-aggregator-importer.php:716-724 | a single cancelled always-published row is imported as written and skipped by the corrected loop |
| Text.JoinSplit | admin/class-akolade-aggregator-exporter.php:190-203 | imploding the exploded parts gives the text back |
| Text.SplitJoin | admin/class-akolade-aggregator-exporter.php:190-203 | exploding an implosion of separator-free parts gives the parts back |

## Left out

**Not modelled**
- The RevSlider branches (importer 590-640, exporter 212-246): they call a plugin whose code is not part of this model.
- `postToNetworkSites`: it is HTTP transport.
- The admin list UI, `get_ak_post_types` and `get_ak_channels`: they are display only.
- The admin-side copy of the importer: it is not part of this model.
- `var_dump`/`die`: the die after a bad token is modelled as "nothing changes".
- The URL rewrite from `akolade.test` to an ngrok host before sideloading: it only affects the fetch oracle's argument. The cache is keyed by the original URL, as in the code.
- PHP `serialize`/`unserialize` and JSON encoding: a serialized image is an opaque record of `url`, `id` and `thumbnail`, and a staging row holds the document itself.
- `wp_insert_post` and `wp_update_post` always succeed. Slug uniquing is not modelled. Local post ids are assumed distinct.
- Sideloading, attachment URLs, user and term insertion, thumbnails, and the exporter's `get_post`/`get_term` are oracles, so their effects beyond what the code reads back are not modelled.
- `created_at` comes from the request, since `current_time` is a clock.
- `term_exists` is modelled as a match on slug and taxonomy.
- The staging table name differs between the activator and the database layer; one table is modelled.

**Modelled by choice**
- `get_ak_pending_posts` is called but never defined. The batch's pending rows are therefore an input.
- The batch's cancelled test never matches as written (see Findings). The model skips cancelled rows, as the comment intends.
- The listing query's channel, post-type and title-search filters and its ORDER BY are not modelled. Only the status filter and LIMIT/OFFSET are.
- `wp_set_post_terms` replaces a taxonomy's terms, and `add_post_tracking_info` appends to the channel terms. Other taxonomies are untouched.
- The image step stops at the first image that saves.

**Weaker than the code**
- Decoder.Decode: it is stated only as "the cache and the log grow". Its per-sentinel behaviour is stated by Decoder.Resolve, and its identity cases by Decoder.PlainTextUntouched and Decoder.FailedFetchesLeaveText.
- Encoder.SrcSentinelsRecognised: the round trip through both content passes together is not proved. Each pass is proved separately, for '%'-free content.
- Encoder.IdSentinelsRecognised: same limits as Encoder.SrcSentinelsRecognised.
- TermFlatten.Flatten: requires every ancestor walk to reach a root within the hierarchy's size. The code loops forever on a cycle and reads a null term on a missing parent. This walkability is an assumption about the environment.
- Exporter.PrepareData: same walkability requirement as TermFlatten.Flatten.
- Exporter.PrepareData: `replace_embeded_images_with_placeholder` ends with `var_dump($content); die();` outside the RevSlider branch (exporter 248-249), so as written every export stops there and nothing is sent. The model drops that debug exit and returns the encoded content, as the `return $content;` after it intends.
- Encoder.EncodeBody: the same unconditional `var_dump`/`die` (exporter 248-249) is dropped; the function returns what the two passes produce.
- AssetCache.Find: the SQL lookup of a cache row by its `key` column follows the table's collation. The table declares none, so the server default applies: case-insensitive, with trailing spaces ignored. The model compares URLs exactly, so a cached URL differing only in case is a miss here but a hit in MySQL.
- Staging.CountAkPosts: the same holds for the `post_name`/`post_type` matches of the staging queries, which Staging.UpdateAkPost shares through `Row.Key`. WordPress keeps slugs and post types lower-case, so exact comparison differs only on trailing spaces.
- Materializer.ImportValue: a linked post or term the source site lacks is exported as nulls (exporter 284-297), and the form-encoded POST body (exporter 87-99) drops null values, so that key never reaches the importer and its earlier value stays. The model carries such a value as None and stores "" for it; the transport's dropping of nulls is not modelled.
- Materializer.AddTrackingInfo: `wp_set_post_terms` receives the existing term's id as the numeric string `term_exists` returns (importer 683). Only for a hierarchical taxonomy does WordPress read it as an id; on a flat one the digits are looked up, or inserted, as a term name. The plugin never registers `channel`, so the model assumes it is hierarchical, and Materializer.TrackingAssignsChannel rests on the same assumption.
- FieldFilter.EmailExists: `email_exists` goes through `get_user_by('email')`, which trims the address, treats a falsy one such as "0" as absent, and matches `user_email` under the users table's case-insensitive collation. The model compares the untrimmed address exactly and treats only a missing or empty one as absent, so FieldFilter.ImportAuthorTwice speaks of an exact re-send.
- Materializer.FindPost: `post_exists` runs a `WP_Query` with status 'any', one post per page and the default newest-first order, so it returns the newest match and never a trashed or auto-draft post. The model returns the first match in creation order, of any status. Post dates and trash/auto-draft statuses are not modelled.
- Batch.CancelledNeverImported: it states the intended skip. As written the test never holds; Batch.AsWrittenPublishesCancelled states that behaviour.
- Decoder.CacheHit: a cached id 0, or a falsy cached URL, counts as a miss and is fetched again, as in the code. A duplicate cache row can then be added; only the first is ever read.

## Findings

| source | as written | input that shows it | evidently intended | confidence | as-written member | corrected member |
|---|---|---|---|---|---|---|
| includes/class-akolade-aggregator-importer.php:716-719 | `$pending_post->status === $this->db->get_status_value('cancelled')` compares a row read as an array (null property) or a database string ("3") with the integer 3, so it never holds | one scheduled pending row of an always-published type with status cancelled (3) | cancelled rows are skipped, as the comment says | not executed; high for the strict comparison, the row's shape depends on the undefined `get_ak_pending_posts` | Batch.CancelledImportedAsWritten | Batch.CancelledNeverImported |

=== FILE: asset_cache.dfy ===
/**
 * The `akolade_aggregator_cache` table: rows mapping a remote asset URL
 * (`key`) to the id of the attachment imported from it (`value`).
 * The table has no unique key; reads take the first row with the key.
 */
module AssetCache {
  import opened Wrappers
  import opened Text

  datatype Entry = Entry(key: string, value: int)

  /** `get_row(... WHERE key = %s)`: the value of the first row holding `key`. */
  function Find(cache: seq<Entry>, key: string): (r: Option<int>)
    ensures r.None? <==> forall i :: 0 <= i < |cache| ==> cache[i].key != key
    ensures r.Some? ==> exists i :: 0 <= i < |cache| && cache[i] == Entry(key, r.value)
                                    && forall j :: 0 <= j < i ==> cache[j].key != key
    decreases |cache|
  {
    if |cache| == 0 then None
    else if cache[0].key == key then Some(cache[0].value)
    else
      var r := Find(cache[1..], key);
      assert forall i :: 1 <= i < |cache| ==> cache[1..][i - 1] == cache[i];
      if r.Some? then
        ghost var i :| 0 <= i < |cache| - 1 && cache[1..][i] == Entry(key, r.value)
                       && forall j :: 0 <= j < i ==> cache[1..][j].key != key;
        assert cache[i + 1] == Entry(key, r.value);
        r
      else r
  }

  /**
   * `ak_get_imported_image(src, return)`: false (None) on a miss; on a hit,
   * the stored id as text for mode "id", the attachment's URL for mode
   * "src", and false for any other mode.
   */
  function GetImportedImage(cache: seq<Entry>, key: string, mode: string,
                            attachmentUrl: int -> Option<string>): (r: Option<string>)
    ensures (forall i :: 0 <= i < |cache| ==> cache[i].key != key) ==> r.None?
    ensures mode != "id" && mode != "src" ==> r.None?
    ensures mode == "id" ==> r == (match Find(cache, key)
                                   case Some(v) => Some(IntToString(v))
                                   case None => None)
    ensures mode == "src" && Find(cache, key).Some? ==> r == attachmentUrl(Find(cache, key).value)
  {
    match Find(cache, key)
    case None => None
    case Some(v) =>
      if mode == "id" then Some(IntToString(v))
      else if mode == "src" then attachmentUrl(v)
      else None
  }

  /**
   * `ak_remember_imported_image(src, id)`: appends a row without checking
   * whether the key is already present. Readers keep seeing the first row,
   * so a second remember of a key changes no lookup.
   */
  function Remember(cache: seq<Entry>, key: string, value: int): (c: seq<Entry>)
    ensures |c| == |cache| + 1
    ensures Find(c, key) == (if Find(cache, key).Some? then Find(cache, key) else Some(value))
    ensures forall k :: k != key ==> Find(c, k) == Find(cache, k)
  {
    FindAppend(cache, Entry(key, value));
    cache + [Entry(key, value)]
  }

  lemma {:induction false} FindAppend(cache: seq<Entry>, e: Entry)
    ensures Find(cache + [e], e.key) == (if Find(cache, e.key).Some? then Find(cache, e.key) else Some(e.value))
    ensures forall k :: k != e.key ==> Find(cache + [e], k) == Find(cache, k)
    decreases |cache|
  {
    if |cache| > 0 {
      assert (cache + [e])[1..] == cache[1..] + [e];
      FindAppend(cache[1..], e);
    }
  }

  /** After a remember of an absent key, an "id" lookup returns the remembered id. */
  lemma {:induction false} RememberThenGet(cache: seq<Entry>, key: string, value: int, attachmentUrl: int -> Option<string>)
    requires forall i :: 0 <= i < |cache| ==> cache[i].key != key
    ensures GetImportedImage(Remember(cache, key, value), key, "id", attachmentUrl) == Some(IntToString(value))
    ensures GetImportedImage(Remember(cache, key, value), key, "src", attachmentUrl) == attachmentUrl(value)
  {
    assert Find(cache, key).None?;
  }
}

=== FILE: batch.dfy ===
/**
 * The scheduled batch import (`import_posts_in_batch`). The pending rows
 * are an input: the table query that would select them is not part of this
 * model.
 */
module Batch {
  import opened Wrappers
  import opened Text
  import opened Document
  import opened Staging
  import opened Materializer
  import opened Intake

  /**
   * The skip test for types that are not always published:
   * `auto_publish !== '1' || auto_publish !== '2'`.
   */
  predicate SkipsSaving(autoPublish: Option<string>) {
    autoPublish != Some("1") || autoPublish != Some("2")
  }

  /** No option value is both "1" and "2", so the skip test holds for every setting. */
  lemma SkipAlwaysTaken(autoPublish: Option<string>)
    ensures SkipsSaving(autoPublish)
  {
  }

  /**
   * One iteration of the loop: the `$status` carried to the next row, and
   * the import this row triggers (staging id and status), if any. Cancelled
   * rows are skipped; the rest go through `Iterate`.
   */
  function Step(row: Row, status: string, autoPublish: Option<string>): (out: (string, Option<(int, string)>))
  {
    if row.status == Cancelled then (status, None) else Iterate(row, status, autoPublish)
  }

  /**
   * The loop body after the cancelled test: always-published types set
   * `$status` to "publish"; other types pass the skip test or set `$status`
   * from `auto_publish`.
   */
  function Iterate(row: Row, status: string, autoPublish: Option<string>): (out: (string, Option<(int, string)>))
  {
    if row.postType in AlwaysPublish then ("publish", Some((row.id, "publish")))
    else if SkipsSaving(autoPublish) then (status, None)
    else
      var s1 := if autoPublish == Some("1") then "draft" else status;
      var s2 := if autoPublish == Some("2") then "publish" else s1;
      (s2, if Truthy(s2) then Some((row.id, s2)) else None)
  }

  /** The imports the loop triggers over `pending`, with `$status` starting at `status`. */
  function PlanFrom(pending: seq<Row>, status: string, autoPublish: Option<string>): seq<(int, string)>
    decreases |pending|
  {
    if |pending| == 0 then []
    else
      var (next, imp) := Step(pending[0], status, autoPublish);
      (if imp.Some? then [imp.value] else []) + PlanFrom(pending[1..], next, autoPublish)
  }

  /** The imports `import_posts_in_batch` runs: none unless scheduled, else the loop's, with `$status` starting empty. */
  function BatchPlan(o: Options, pending: seq<Row>): seq<(int, string)> {
    if !Scheduled(o) then [] else PlanFrom(pending, "", o.autoPublish)
  }

  /** The reference: one publish import per row that is not cancelled and whose type is always published. */
  function PublishOnly(pending: seq<Row>): (r: seq<(int, string)>)
    ensures forall i :: 0 <= i < |r| ==> r[i].1 == "publish"
    ensures |r| <= |pending|
    decreases |pending|
  {
    if |pending| == 0 then []
    else
      (if pending[0].status != Cancelled && pending[0].postType in AlwaysPublish then [(pending[0].id, "publish")] else [])
      + PublishOnly(pending[1..])
  }

  /**
   * Because the skip test always holds, the batch imports exactly the
   * always-published, non-cancelled rows as "publish", whatever
   * `auto_publish` and the carried `$status` are.
   */
  lemma {:induction false} LoopPublishesOnlyAlwaysPublished(pending: seq<Row>, status: string, autoPublish: Option<string>)
    ensures PlanFrom(pending, status, autoPublish) == PublishOnly(pending)
    decreases |pending|
  {
    if |pending| > 0 {
      SkipAlwaysTaken(autoPublish);
      var next := Step(pending[0], status, autoPublish).0;
      LoopPublishesOnlyAlwaysPublished(pending[1..], next, autoPublish);
    }
  }

  /** The batch plan depends on `auto_publish` not at all. */
  lemma {:induction false} BatchIgnoresAutoPublish(o: Options, pending: seq<Row>)
    ensures BatchPlan(o, pending) == (if Scheduled(o) then PublishOnly(pending) else [])
  {
    if Scheduled(o) {
      LoopPublishesOnlyAlwaysPublished(pending, "", o.autoPublish);
    }
  }

  /** Runs the planned imports in order. */
  function RunPlan(site: Site, plan: seq<(int, string)>, w: World): Site
    decreases |plan|
  {
    if |plan| == 0 then site else RunPlan(Import(site, plan[0].0, plan[0].1, w), plan[1..], w)
  }

  /**
   * `import_posts_in_batch`: nothing unless scheduled; otherwise each
   * always-published, non-cancelled pending row is imported as published.
   */
  function ImportPostsInBatch(site: Site, o: Options, pending: seq<Row>, w: World): (out: Site)
    ensures !Scheduled(o) ==> out == site
    ensures Scheduled(o) && (forall i :: 0 <= i < |pending| ==> pending[i].status == Cancelled || pending[i].postType !in AlwaysPublish)
            ==> out == site
  {
    BatchIgnoresAutoPublish(o, pending);
    NothingToPublish(pending);
    RunPlan(site, BatchPlan(o, pending), w)
  }

  lemma {:induction false} NothingToPublish(pending: seq<Row>)
    ensures (forall i :: 0 <= i < |pending| ==> pending[i].status == Cancelled || pending[i].postType !in AlwaysPublish)
            ==> PublishOnly(pending) == []
    decreases |pending|
  {
    if |pending| > 0 {
      NothingToPublish(pending[1..]);
      assert forall i :: 1 <= i < |pending| ==> pending[i] == pending[1..][i - 1];
    }
  }

  /** A cancelled row is never imported by the batch, when ids are distinct as the table's are. */
  lemma {:induction false} CancelledNeverImported(o: Options, pending: seq<Row>, i: nat)
    requires i < |pending| && pending[i].status == Cancelled
    requires forall j :: 0 <= j < |pending| && j != i ==> pending[j].id != pending[i].id
    ensures forall k :: 0 <= k < |BatchPlan(o, pending)| ==> BatchPlan(o, pending)[k].0 != pending[i].id
  {
    BatchIgnoresAutoPublish(o, pending);
    PublishOnlyIds(pending);
    assert pending[i].id !in EligibleIds(pending);
  }

  /** The ids of the rows that are not cancelled and have an always-published type. */
  function EligibleIds(pending: seq<Row>): set<int> {
    set j | 0 <= j < |pending| && pending[j].status != Cancelled && pending[j].postType in AlwaysPublish :: pending[j].id
  }

  lemma {:induction false} PublishOnlyIds(pending: seq<Row>)
    ensures forall k :: 0 <= k < |PublishOnly(pending)| ==> PublishOnly(pending)[k].0 in EligibleIds(pending)
    decreases |pending|
  {
    if |pending| > 0 {
      PublishOnlyIds(pending[1..]);
      assert forall j :: 0 <= j < |pending| - 1 ==> pending[1..][j] == pending[j + 1];
      assert EligibleIds(pending[1..]) <= EligibleIds(pending);
    }
  }

  // ---------------------------------------------------------------------
  // The cancelled test as written
  // ---------------------------------------------------------------------

  /**
   * The loop as the code is written. The row is read as an array
   * (`$pending_post['post_type']`), so `$pending_post->status` is null, and
   * even a row object's status column would be the string "3". Neither is
   * `===` the integer 3 `get_status_value('cancelled')` returns, so the
   * cancelled test never skips a row.
   */
  function PlanAsWritten(pending: seq<Row>, status: string, autoPublish: Option<string>): seq<(int, string)>
    decreases |pending|
  {
    if |pending| == 0 then []
    else
      var (next, imp) := Iterate(pending[0], status, autoPublish);
      (if imp.Some? then [imp.value] else []) + PlanAsWritten(pending[1..], next, autoPublish)
  }

  /** One publish import per row whose type is always published, cancelled or not. */
  function PublishAll(pending: seq<Row>): (r: seq<(int, string)>)
    ensures forall i :: 0 <= i < |r| ==> r[i].1 == "publish"
    decreases |pending|
  {
    if |pending| == 0 then []
    else (if pending[0].postType in AlwaysPublish then [(pending[0].id, "publish")] else []) + PublishAll(pending[1..])
  }

  /** As written, the loop imports every always-published row, cancelled ones included. */
  lemma {:induction false} AsWrittenPublishesCancelled(pending: seq<Row>, status: string, autoPublish: Option<string>)
    ensures PlanAsWritten(pending, status, autoPublish) == PublishAll(pending)
    decreases |pending|
  {
    if |pending| > 0 {
      SkipAlwaysTaken(autoPublish);
      var next := Iterate(pending[0], status, autoPublish).0;
      AsWrittenPublishesCancelled(pending[1..], next, autoPublish);
    }
  }

  /** The smallest witness: one cancelled row of an always-published type is imported as written, and skipped by the model. */
  lemma CancelledImportedAsWritten(row: Row, autoPublish: Option<string>)
    requires row.status == Cancelled && row.postType in AlwaysPublish
    ensures PlanAsWritten([row], "", autoPublish) == [(row.id, "publish")]
    ensures PlanFrom([row], "", autoPublish) == []
  {
    AsWrittenPublishesCancelled([row], "", autoPublish);
    LoopPublishesOnlyAlwaysPublished([row], "", autoPublish);
  }
}

=== FILE: decoder.dfy ===
/**
 * The importer's placeholder decoder (`replace_embeded_special_content`, the
 * src and id passes) and its single-image import (`save_image_to_post`),
 * both backed by the asset cache and a fetch oracle.
 */
module Decoder {
  import opened Wrappers
  import opened Text
  import opened Sentinel
  import AssetCache

  /** WordPress calls the decoder depends on, as oracles. */
  datatype Env = Env(
    /** `media_sideload_image(url, ..., 'id')`: an integer attachment id, or None for a `WP_Error`. */
    fetch: string -> Option<int>,
    /** `wp_get_attachment_url(id)`: the attachment's URL, or None for `false`. */
    attachmentUrl: int -> Option<string>)

  /** The importer's asset-side state: cache rows, and the remote URLs fetched so far, in order. */
  datatype Assets = Assets(cache: seq<AssetCache.Entry>, fetched: seq<string>)

  /** The lookup mode each family's callback passes to `ak_get_imported_image`. */
  function Mode(fam: Family): string {
    match fam
    case Src => "src"
    case Id => "id"
  }

  /** What the callback accepts from the cache: a lookup result that PHP treats as true. */
  function CacheHit(a: Assets, fam: Family, url: string, env: Env): (r: Option<string>)
    ensures r.Some? ==> Truthy(r.value) && AssetCache.Find(a.cache, url).Some?
    ensures fam == Id ==> (r.Some? <==> AssetCache.Find(a.cache, url).Some? && AssetCache.Find(a.cache, url).value != 0)
  {
    match AssetCache.GetImportedImage(a.cache, url, Mode(fam), env.attachmentUrl)
    case Some(t) => if Truthy(t) then Some(t) else None
    case None => None
  }

  /** The text a PHP `false` URL turns into when returned from the callback. */
  function UrlText(u: Option<string>): string {
    u.GetOr("")
  }

  /**
   * One callback invocation for the sentinel whose inner text is `url`.
   * A cache hit is substituted without fetching. On a miss the URL is
   * fetched; an integer result is remembered under the original URL; a
   * failed fetch leaves the whole sentinel text in place.
   */
  function Resolve(fam: Family, url: string, a: Assets, env: Env): (out: (string, Assets))
    ensures CacheHit(a, fam, url, env).Some? ==> out == (CacheHit(a, fam, url, env).value, a)
    ensures CacheHit(a, fam, url, env).None? ==> out.1.fetched == a.fetched + [url]
    ensures CacheHit(a, fam, url, env).None? && env.fetch(url).None? ==>
              out.0 == Wrap(fam, url) && out.1.cache == a.cache
    ensures CacheHit(a, fam, url, env).None? && env.fetch(url).Some? ==>
              out.1.cache == a.cache + [AssetCache.Entry(url, env.fetch(url).value)]
              && out.0 == (if fam == Id then IntToString(env.fetch(url).value)
                           else UrlText(env.attachmentUrl(env.fetch(url).value)))
  {
    match CacheHit(a, fam, url, env)
    case Some(t) => (t, a)
    case None =>
      var a1 := a.(fetched := a.fetched + [url]);
      match env.fetch(url)
      case None => (Wrap(fam, url), a1)
      case Some(id) =>
        var text := if fam == Src then UrlText(env.attachmentUrl(id)) else IntToString(id);
        (text, a1.(cache := AssetCache.Remember(a.cache, url, id)))
  }

  /**
   * Dedup: once a URL that was not cached has been fetched successfully (a
   * non-zero id, and for the src family an attachment URL PHP treats as
   * true), resolving it again fetches nothing and yields the same text.
   */
  lemma {:induction false} ResolveTwiceFetchesOnce(fam: Family, url: string, a: Assets, env: Env)
    requires AssetCache.Find(a.cache, url).None?
    requires env.fetch(url).Some? && env.fetch(url).value != 0
    requires fam == Src ==> env.attachmentUrl(env.fetch(url).value).Some?
                            && Truthy(env.attachmentUrl(env.fetch(url).value).value)
    ensures var first := Resolve(fam, url, a, env);
            var second := Resolve(fam, url, first.1, env);
            second.0 == first.0 && second.1 == first.1
  {
    var id := env.fetch(url).value;
    assert CacheHit(a, fam, url, env).None?;
    var first := Resolve(fam, url, a, env);
    assert AssetCache.Find(first.1.cache, url) == Some(id);
    assert CacheHit(first.1, fam, url, env).Some?;
  }

  /** `b` begins with `a`: rows were only appended. */
  predicate Extends<T(==)>(a: seq<T>, b: seq<T>) {
    |a| <= |b| && b[..|a|] == a
  }

  predicate HasMarked(segs: seq<Segment>, x: string) {
    exists i :: 0 <= i < |segs| && segs[i] == Marked(x)
  }

  predicate AllLiteral(segs: seq<Segment>) {
    forall i :: 0 <= i < |segs| ==> segs[i].Lit?
  }

  /** One segment's contribution to a pass: literal text is copied, a sentinel goes through its callback. */
  function Step(seg: Segment, fam: Family, a: Assets, env: Env): (out: (string, Assets))
    ensures Extends(a.cache, out.1.cache) && Extends(a.fetched, out.1.fetched)
    ensures forall i :: |a.cache| <= i < |out.1.cache| ==> seg == Marked(out.1.cache[i].key)
    ensures forall i :: |a.fetched| <= i < |out.1.fetched| ==> seg == Marked(out.1.fetched[i])
    ensures seg.Lit? ==> out == (seg.text, a)
  {
    match seg
    case Lit(t) => (t, a)
    case Marked(x) => Resolve(fam, x, a, env)
  }

  lemma HasMarkedTail(segs: seq<Segment>, x: string)
    requires |segs| > 0 && HasMarked(segs[1..], x)
    ensures HasMarked(segs, x)
  {
    var i :| 0 <= i < |segs| - 1 && segs[1..][i] == Marked(x);
    assert segs[i + 1] == Marked(x);
  }

  /**
   * One `preg_replace_callback` pass over scanned text: literal segments are
   * copied, each sentinel is replaced by its callback's result, and the
   * asset state is threaded through the sentinels in order.
   * The cache and the fetch log only grow, and only by URLs that occur as
   * sentinels; text without sentinels comes back unchanged.
   */
  function DecodePass(segs: seq<Segment>, fam: Family, a: Assets, env: Env): (out: (string, Assets))
    ensures Extends(a.cache, out.1.cache) && Extends(a.fetched, out.1.fetched)
    ensures forall i :: |a.cache| <= i < |out.1.cache| ==> HasMarked(segs, out.1.cache[i].key)
    ensures forall i :: |a.fetched| <= i < |out.1.fetched| ==> HasMarked(segs, out.1.fetched[i])
    ensures AllLiteral(segs) ==> out == (Render(segs, fam), a)
    decreases |segs|
  {
    if |segs| == 0 then ("", a)
    else
      var head := Step(segs[0], fam, a, env);
      var tail := DecodePass(segs[1..], fam, head.1, env);
      AppendOrigins(segs, a, head.1, tail.1);
      assert AllLiteral(segs) ==> AllLiteral(segs[1..]);
      (head.0 + tail.0, tail.1)
  }

  /** The rows a whole pass appends come from its first segment or from the rest. */
  lemma AppendOrigins(segs: seq<Segment>, a: Assets, mid: Assets, b: Assets)
    requires |segs| > 0
    requires Extends(a.cache, mid.cache) && Extends(a.fetched, mid.fetched)
    requires Extends(mid.cache, b.cache) && Extends(mid.fetched, b.fetched)
    requires forall i :: |a.cache| <= i < |mid.cache| ==> segs[0] == Marked(mid.cache[i].key)
    requires forall i :: |a.fetched| <= i < |mid.fetched| ==> segs[0] == Marked(mid.fetched[i])
    requires forall i :: |mid.cache| <= i < |b.cache| ==> HasMarked(segs[1..], b.cache[i].key)
    requires forall i :: |mid.fetched| <= i < |b.fetched| ==> HasMarked(segs[1..], b.fetched[i])
    ensures Extends(a.cache, b.cache) && Extends(a.fetched, b.fetched)
    ensures forall i :: |a.cache| <= i < |b.cache| ==> HasMarked(segs, b.cache[i].key)
    ensures forall i :: |a.fetched| <= i < |b.fetched| ==> HasMarked(segs, b.fetched[i])
  {
    assert b.cache[..|a.cache|] == b.cache[..|mid.cache|][..|a.cache|];
    assert b.fetched[..|a.fetched|] == b.fetched[..|mid.fetched|][..|a.fetched|];
    forall i | |a.cache| <= i < |b.cache|
      ensures HasMarked(segs, b.cache[i].key)
    {
      if i < |mid.cache| {
        assert b.cache[i] == mid.cache[i];
        assert segs[0] == Marked(b.cache[i].key);
      } else {
        HasMarkedTail(segs, b.cache[i].key);
      }
    }
    forall i | |a.fetched| <= i < |b.fetched|
      ensures HasMarked(segs, b.fetched[i])
    {
      if i < |mid.fetched| {
        assert b.fetched[i] == mid.fetched[i];
        assert segs[0] == Marked(b.fetched[i]);
      } else {
        HasMarkedTail(segs, b.fetched[i]);
      }
    }
  }

  /** A sentinel text `Wrap(fam, x)` that fails to resolve decodes to itself, so a pass over it is the identity. */
  lemma {:induction false} FailedPassIsIdentity(segs: seq<Segment>, fam: Family, a: Assets, env: Env)
    requires forall u :: env.fetch(u).None?
    requires a.cache == []
    ensures DecodePass(segs, fam, a, env).0 == Render(segs, fam)
    ensures DecodePass(segs, fam, a, env).1.cache == []
    decreases |segs|
  {
    if |segs| > 0 {
      var head := Step(segs[0], fam, a, env);
      if segs[0].Marked? {
        assert CacheHit(a, fam, segs[0].inner, env).None?;
      }
      assert head.1.cache == [];
      FailedPassIsIdentity(segs[1..], fam, head.1, env);
    }
  }

  /**
   * `replace_embeded_special_content` without its slider pass: the src pass
   * runs first over the whole text, then the id pass over its result.
   */
  function Decode(content: string, a: Assets, env: Env): (out: (string, Assets))
    ensures Extends(a.cache, out.1.cache) && Extends(a.fetched, out.1.fetched)
  {
    var src := DecodePass(Parse(content, Src), Src, a, env);
    DecodePass(Parse(src.0, Id), Id, src.1, env)
  }

  /** With no start marker of `fam` anywhere, the scan finds nothing but literal text. */
  lemma {:induction false} NoStartNoMarked(s: string, fam: Family)
    requires forall k :: 0 <= k <= |s| ==> !StartsAt(s, k, fam.Start())
    ensures AllLiteral(Parse(s, fam))
    decreases |s|
  {
    if |s| > 0 {
      assert !StartsAt(s, 0, fam.Start());
      assert MatchAtStart(s, fam).None?;
      forall k | 0 <= k <= |s| - 1
        ensures !StartsAt(s[1..], k, fam.Start())
      {
        assert !StartsAt(s, k + 1, fam.Start());
        if k + |fam.Start()| <= |s| - 1 {
          assert s[1..][k..k + |fam.Start()|] == s[k + 1..k + 1 + |fam.Start()|];
        }
      }
      NoStartNoMarked(s[1..], fam);
      var rest := Parse(s[1..], fam);
      assert AllLiteral(Cons(s[0], rest)) by {
        if |rest| > 0 && rest[0].Lit? {
          assert Cons(s[0], rest)[1..] == rest[1..];
        }
      }
    }
  }

  /** Text outside sentinels is never altered: text holding no start marker decodes to itself, with no fetch and no cache write. */
  lemma {:induction false} PlainTextUntouched(content: string, a: Assets, env: Env)
    requires forall k :: 0 <= k <= |content| ==> !StartsAt(content, k, Src.Start()) && !StartsAt(content, k, Id.Start())
    ensures Decode(content, a, env) == (content, a)
  {
    NoStartNoMarked(content, Src);
    NoStartNoMarked(content, Id);
    ParseRendersBack(content, Src);
    ParseRendersBack(content, Id);
  }

  /** When every fetch fails and nothing is cached, decoding leaves the text and the cache as they were. */
  lemma {:induction false} FailedFetchesLeaveText(content: string, a: Assets, env: Env)
    requires forall u :: env.fetch(u).None?
    requires a.cache == []
    ensures Decode(content, a, env).0 == content
    ensures Decode(content, a, env).1.cache == []
  {
    FailedPassIsIdentity(Parse(content, Src), Src, a, env);
    ParseRendersBack(content, Src);
    var src := DecodePass(Parse(content, Src), Src, a, env);
    FailedPassIsIdentity(Parse(src.0, Id), Id, src.1, env);
    ParseRendersBack(src.0, Id);
  }

  /**
   * `save_image_to_post(url)`: the cached id when the "id" lookup is truthy,
   * otherwise a fetch whose integer result is remembered. None stands for the
   * `WP_Error` a failed fetch returns.
   */
  function SaveImage(url: string, a: Assets, env: Env): (out: (Option<int>, Assets))
    ensures CacheHit(a, Id, url, env).Some? ==>
              out.1 == a && out.0 == AssetCache.Find(a.cache, url) && out.0.value != 0
    ensures CacheHit(a, Id, url, env).None? ==>
              out.0 == env.fetch(url) && out.1.fetched == a.fetched + [url]
              && out.1.cache == (match env.fetch(url)
                                 case Some(id) => a.cache + [AssetCache.Entry(url, id)]
                                 case None => a.cache)
  {
    match CacheHit(a, Id, url, env)
    case Some(_) => (AssetCache.Find(a.cache, url), a)
    case None =>
      var a1 := a.(fetched := a.fetched + [url]);
      match env.fetch(url)
      case None => (None, a1)
      case Some(id) => (Some(id), a1.(cache := AssetCache.Remember(a.cache, url, id)))
  }
}

=== FILE: document.dfy ===
/**
 * The transported document (`$data` posted by the exporter and stored as
 * JSON in a staging row) and the meta-key classification both ends share.
 */
module Document {
  import opened Wrappers

  /** The natural identity of a post across sites. */
  datatype PostKey = PostKey(name: string, postType: string)

  /** The `(slug, taxonomy)` pair by which terms are matched across sites. */
  datatype TermKey = TermKey(slug: string, taxonomy: string)

  /** The fields of the transported `post` object that the model uses. */
  datatype Post = Post(
    name: string,
    title: string,
    excerpt: string,
    content: string,
    status: string,
    postType: string,
    channel: string,
    canonicalUrl: string)
  {
    function Key(): PostKey { PostKey(name, postType) }
  }

  /**
   * The first value of one meta key. Serialized values are an opaque record
   * of `url`, `id` and `thumbnail`; linked posts and terms are given by
   * their natural keys, None where the source site had no such object.
   */
  datatype MetaValue =
    | Text(text: string)
    | Record(url: string, id: string, thumbnail: string)
    | LinkedPost(target: Option<PostKey>)
    | LinkedTerm(term: Option<TermKey>)

  /** One term of the flattened taxonomy list; `belongsToPost` is None when the field is unset. */
  datatype ExportedTerm = ExportedTerm(
    termId: int,
    name: string,
    slug: string,
    taxonomy: string,
    description: string,
    parent: int,
    belongsToPost: Option<bool>)

  /** An attached image; only its `guid` (remote URL) is used on import. */
  datatype Image = Image(guid: string)

  /** A user record's fields; a None value is a field that is present but null (not `isset`). */
  type Fields = map<string, Option<string>>

  datatype Doc = Doc(
    post: Post,
    meta: seq<(string, MetaValue)>,
    author: Option<Fields>,
    terms: seq<ExportedTerm>,
    images: seq<Image>)

  /** How both ends treat a meta key (the key lists the exporter and importer both declare). */
  datatype MetaKind = ImageId | ImageSrc | SerializedImage | LinkedPostId | TermId | Plain

  const ImageIdKeys: seq<string> := ["_thumbnail_id", "menu_thumbnail"]
  const ImageSrcKeys: seq<string> := []
  const SerializedImageKeys: seq<string> := ["post-sponser-logo"]
  const LinkedPostKeys: seq<string> := ["event_custom_template", "event_sponsers"]
  const TermIdKeys: seq<string> := ["event_speakers"]

  /** Meta keys the importer never writes. */
  const ExcludedKeys: seq<string> := ["_edit_last", "_edit_lock", "post_views_count"]

  function Kind(key: string): (k: MetaKind)
    ensures k == ImageId <==> key in ImageIdKeys
    ensures k == SerializedImage <==> key in SerializedImageKeys
    ensures k == LinkedPostId <==> key in LinkedPostKeys
    ensures k == TermId <==> key in TermIdKeys
    ensures k == Plain <==> key !in ImageIdKeys + ImageSrcKeys + SerializedImageKeys + LinkedPostKeys + TermIdKeys
  {
    if key in ImageIdKeys then ImageId
    else if key in ImageSrcKeys then ImageSrc
    else if key in SerializedImageKeys then SerializedImage
    else if key in LinkedPostKeys then LinkedPostId
    else if key in TermIdKeys then TermId
    else Plain
  }

  /** A meta value used as text; a structured value reads as "". */
  function AsText(v: MetaValue): string {
    if v.Text? then v.text else ""
  }

  /** An unserialized record; anything else becomes a record with empty fields. */
  function AsRecord(v: MetaValue): (r: MetaValue)
    ensures r.Record?
  {
    if v.Record? then v else Record("", "", "")
  }
}

=== FILE: encoder.dfy ===
/**
 * The exporter's body encoder (`replace_embeded_images_with_placeholder`,
 * its src and id passes): attribute values that point at media on the
 * source site are wrapped in sentinels the importer resolves.
 *
 * Each pass is a left-to-right `preg_replace_callback` scan. It is modelled
 * as the list of segments it produces (copied characters, fixed attribute
 * text, and sentinels around captured values); the pass's output is the
 * rendering of that list.
 */
module Encoder {
  import opened Wrappers
  import opened Text
  import opened Sentinel

  /**
   * `\s?=\s?"` read at index `i`, with `a` and `b` the number of optional
   * white-space characters taken before and after `=`.
   */
  predicate OpenWith(s: string, i: nat, a: nat, b: nat) {
    a <= 1 && b <= 1 && i + a + b + 2 < |s| + 1 &&
    (a == 1 ==> IsSpace(s[i])) && s[i + a] == '=' &&
    (b == 1 ==> IsSpace(s[i + a + 1])) && s[i + a + b + 1] == '"'
  }

  /**
   * The index just past the opening quote of `\s?=\s?"` at `i`. Taking each
   * optional space when present is the only way to match, since a space is
   * neither `=` nor `"`.
   */
  function AttrOpen(s: string, i: nat): (r: Option<nat>)
    ensures r.Some? ==> exists a, b :: OpenWith(s, i, a, b) && r.value == i + a + b + 2
    ensures r.None? ==> forall a, b :: !OpenWith(s, i, a, b)
  {
    var j := if i < |s| && IsSpace(s[i]) then i + 1 else i;
    if j < |s| && s[j] == '=' then
      var k := if j + 1 < |s| && IsSpace(s[j + 1]) then j + 2 else j + 1;
      if k < |s| && s[k] == '"' then
        assert OpenWith(s, i, j - i, k - j - 1);
        Some(k + 1)
      else None
    else None
  }

  /**
   * The match of `src\s?=\s?"(.*?)"` at the very start of `s`: the captured
   * value and the match length. The value ends at the first `"` and holds
   * no line feed; its characters come from `s`.
   */
  function MatchSrcAttr(s: string): (m: Option<(string, nat)>)
    ensures m.Some? ==> 0 < m.value.1 <= |s| && NoNewline(m.value.0) && '"' !in m.value.0
    ensures m.Some? ==> forall c :: c in m.value.0 ==> c in s
    ensures m.None? && StartsAt(s, 0, "src") && AttrOpen(s, 3).Some? ==>
              forall e :: AttrOpen(s, 3).value <= e < |s| && s[e] == '"' ==>
                !NoNewline(s[AttrOpen(s, 3).value..e])
  {
    if StartsAt(s, 0, "src") then
      match AttrOpen(s, 3)
      case Some(j) =>
        (match FindEnd(s, j, "\"")
         case Some(e) =>
           assert forall k :: j <= k < e ==> s[k] != '"' by {
             forall k | j <= k < e ensures s[k] != '"' {
               assert !StartsAt(s, k, "\"");
               assert s[k..k + 1] == [s[k]];
             }
           }
           assert forall c :: c in s[j..e] ==> c in s by {
             forall c | c in s[j..e] ensures c in s {
               var k :| 0 <= k < e - j && s[j..e][k] == c;
               assert s[j + k] == c;
             }
           }
           Some((s[j..e], e + 1))
         case None =>
           assert forall e :: j <= e < |s| && s[e] == '"' ==> StartsAt(s, e, "\"") by {
             forall e | j <= e < |s| && s[e] == '"' ensures StartsAt(s, e, "\"") {
               assert s[e..e + 1] == [s[e]];
             }
           }
           None)
      case None => None
    else None
  }

  /** Literal text is free of `%`, and sentinels of `%` and line feeds. */
  predicate PercentFree(segs: seq<Segment>) {
    forall i :: 0 <= i < |segs| ==>
      match segs[i]
      case Lit(t) => '%' !in t
      case Marked(x) => '%' !in x && '\n' !in x
  }

  lemma PercentFreeAppend(a: seq<Segment>, b: seq<Segment>)
    requires PercentFree(a) && PercentFree(b)
    ensures PercentFree(a + b)
  {
    forall i | |a| <= i < |a + b|
      ensures (a + b)[i] == b[i - |a|]
    {
    }
  }

  /** A character missing from `s` is missing from each of its suffixes. */
  lemma NotInSuffix(s: string, n: nat, c: char)
    requires n <= |s| && c !in s
    ensures c !in s[n..]
  {
    forall k | 0 <= k < |s| - n
      ensures s[n..][k] != c
    {
      assert s[n..][k] == s[n + k];
    }
  }

  /**
   * The src pass as segments: each match becomes `src="`, a sentinel
   * around the captured value, and `"`; every other character is copied.
   */
  function SrcSegments(s: string): seq<Segment>
    decreases |s|
  {
    if |s| == 0 then []
    else
      match MatchSrcAttr(s)
      case Some((x, n)) => [Lit("src=\""), Marked(x), Lit("\"")] + SrcSegments(s[n..])
      case None => [Lit([s[0]])] + SrcSegments(s[1..])
  }

  /** The src pass of `replace_embeded_images_with_placeholder`. */
  function EncodeSrc(s: string): string {
    Render(SrcSegments(s), Src)
  }

  /** Text in which no `src` attribute matches anywhere passes through the src pass unchanged. */
  lemma {:induction false} SrcPassThrough(s: string)
    requires forall k :: 0 <= k < |s| ==> MatchSrcAttr(s[k..]).None?
    ensures EncodeSrc(s) == s
    decreases |s|
  {
    if |s| > 0 {
      assert s[0..] == s;
      forall k | 0 <= k < |s| - 1
        ensures MatchSrcAttr(s[1..][k..]).None?
      {
        assert s[1..][k..] == s[k + 1..];
      }
      SrcPassThrough(s[1..]);
      var segs := SrcSegments(s);
      assert segs[1..] == SrcSegments(s[1..]);
      assert s == [s[0]] + s[1..];
    }
  }

  /** From text without `%`, the src pass emits `%`-free literals around `%`-free, single-line values. */
  lemma {:induction false} SrcSegmentsPercentFree(s: string)
    requires '%' !in s
    ensures PercentFree(SrcSegments(s))
    decreases |s|
  {
    if |s| > 0 {
      match MatchSrcAttr(s)
      case Some((x, n)) =>
        NotInSuffix(s, n, '%');
        SrcSegmentsPercentFree(s[n..]);
        assert '%' !in x;
        assert '\n' !in x;
        PercentFreeAppend([Lit("src=\""), Marked(x), Lit("\"")], SrcSegments(s[n..]));
      case None =>
        NotInSuffix(s, 1, '%');
        SrcSegmentsPercentFree(s[1..]);
        assert s[0] in s;
        PercentFreeAppend([Lit([s[0]])], SrcSegments(s[1..]));
    }
  }

  /** A match is rewritten to exactly `src="` + sentinel + `"`, and the pass resumes after it. */
  lemma SrcMatchRendered(s: string)
    requires |s| > 0 && MatchSrcAttr(s).Some?
    ensures var (x, n) := MatchSrcAttr(s).value;
            EncodeSrc(s) == "src=\"" + Wrap(Src, x) + "\"" + EncodeSrc(s[n..])
  {
    var (x, n) := MatchSrcAttr(s).value;
    var segs := [Lit("src=\""), Marked(x), Lit("\"")];
    assert SrcSegments(s) == segs + SrcSegments(s[n..]);
    RenderAppend(segs, SrcSegments(s[n..]), Src);
    RenderedAttr(x);
  }

  /** The three segments of one rewritten attribute render as `src="` + sentinel + `"`. */
  lemma RenderedAttr(x: string)
    ensures Render([Lit("src=\""), Marked(x), Lit("\"")], Src) == "src=\"" + Wrap(Src, x) + "\""
  {
    var segs := [Lit("src=\""), Marked(x), Lit("\"")];
    assert segs[1..][1..] == [Lit("\"")];
    assert Render(segs[1..][1..], Src) == "\"";
    assert Render(segs[1..], Src) == Wrap(Src, x) + "\"";
    assert Render(segs, Src) == "src=\"" + (Wrap(Src, x) + "\"");
  }

  /**
   * Each `src` attribute, with or without one white-space character on
   * either side of `=`, is rewritten to exactly `src="` + sentinel + `"`.
   */
  lemma {:induction false} SrcAttrRewritten(sp1: string, sp2: string, x: string, rest: string)
    requires |sp1| <= 1 && |sp2| <= 1
    requires forall i :: 0 <= i < |sp1| ==> IsSpace(sp1[i])
    requires forall i :: 0 <= i < |sp2| ==> IsSpace(sp2[i])
    requires '"' !in x && NoNewline(x)
    ensures EncodeSrc("src" + sp1 + "=" + sp2 + "\"" + x + "\"" + rest)
            == "src=\"" + Wrap(Src, x) + "\"" + EncodeSrc(rest)
  {
    var s := "src" + sp1 + "=" + sp2 + "\"" + x + "\"" + rest;
    var pre := "src" + sp1 + "=" + sp2 + "\"";
    var j := 3 + |sp1| + 1 + |sp2| + 1;
    assert s == pre + x + ("\"" + rest) && |pre| == j;
    SliceMiddle(pre, x, "\"" + rest);
    assert s[..3] == "src";
    assert StartsAt(s, 0, "src");
    assert s[3 + |sp1|] == '=';
    assert s[j - 1] == '"';
    assert |sp1| == 1 ==> s[3] == sp1[0];
    assert |sp2| == 1 ==> s[3 + |sp1| + 1] == sp2[0];
    assert AttrOpen(s, 3) == Some(j);
    assert s[j..j + |x|] == x;
    assert s[j + |x|] == '"';
    FirstQuote(s, j, x);
    assert s[j + |x| + 1..] == rest;
    assert MatchSrcAttr(s) == Some((x, j + |x| + 1));
    SrcMatchRendered(s);
  }

  lemma SliceMiddle(p: string, y: string, q: string)
    ensures (p + y + q)[|p|..|p| + |y|] == y
  {
    var mid := (p + y + q)[|p|..|p| + |y|];
    forall t | 0 <= t < |y|
      ensures mid[t] == y[t]
    {
      assert mid[t] == (p + y + q)[|p| + t];
    }
  }

  /** The lazy `(.*?)"` after index `j` stops at the first quote, which closes `x`. */
  lemma FirstQuote(s: string, j: nat, x: string)
    requires j + |x| < |s| && s[j..j + |x|] == x && s[j + |x|] == '"'
    requires '"' !in x && NoNewline(x)
    ensures FindEnd(s, j, "\"") == Some(j + |x|)
  {
    assert StartsAt(s, j + |x|, "\"") by {
      assert s[j + |x|..j + |x| + 1] == [s[j + |x|]];
    }
    forall k | j <= k < j + |x|
      ensures !StartsAt(s, k, "\"")
    {
      assert s[k] == x[k - j];
    }
    assert NoNewline(s[j..j + |x|]);
  }

  /** Every sentinel the src pass emits is recognised by the importer's src scan, in order and with the captured value. */
  lemma {:induction false} SrcSentinelsRecognised(s: string)
    requires '%' !in s
    ensures Parse(EncodeSrc(s), Src) == Canon(SrcSegments(s))
  {
    var segs := SrcSegments(s);
    SrcSegmentsPercentFree(s);
    forall i | 0 <= i < |segs| && segs[i].Marked?
      ensures Clean(segs[i].inner, Src)
    {
      NoPercentIsClean(segs[i].inner, Src);
    }
    LitNoPercentTransparent(segs, Src);
    ParseRender(segs, Src);
  }

  /** A character the id list `[0-9,]` accepts. */
  predicate IdChar(c: char) {
    IsDigit(c) || c == ','
  }

  /** The end of the run of id-list characters starting at `j`. */
  function RunEnd(s: string, j: nat): (k: nat)
    requires j <= |s|
    ensures j <= k <= |s|
    ensures forall i :: j <= i < k ==> IdChar(s[i])
    ensures k < |s| ==> !IdChar(s[k])
    decreases |s| - j
  {
    if j < |s| && IdChar(s[j]) then RunEnd(s, j + 1) else j
  }

  /**
   * `name\s?=\s?"([0-9,]*?)"` at the start of `s`: the id list and the match
   * length. The lazy run stops at the first `"`, which can only be the end
   * of the maximal run of digits and commas.
   */
  function MatchIdWith(s: string, name: string): (m: Option<(string, nat)>)
    ensures m.Some? ==> 0 < m.value.1 <= |s| && forall i :: 0 <= i < |m.value.0| ==> IdChar(m.value.0[i])
    ensures m.None? && StartsAt(s, 0, name) && AttrOpen(s, |name|).Some? ==>
              forall e :: AttrOpen(s, |name|).value <= e < |s| && s[e] == '"' ==>
                exists i :: AttrOpen(s, |name|).value <= i < e && !IdChar(s[i])
  {
    if StartsAt(s, 0, name) then
      match AttrOpen(s, |name|)
      case Some(j) =>
        var k := RunEnd(s, j);
        if k < |s| && s[k] == '"' then Some((s[j..k], k + 1))
        else
          assert forall e :: j <= e < |s| && s[e] == '"' ==> k < e by {
            forall e | j <= e < |s| && s[e] == '"' ensures k < e {
              assert !IdChar(s[e]);
            }
          }
          None
      case None => None
    else None
  }

  /** The attribute names of the id pass, in the order the alternation tries them. */
  const IdAttrNames: seq<string> := ["ids", "image", "images"]

  /** The first alternative of `(ids|image|images)` that matches at the start of `s`. */
  function MatchIdAttr(s: string): (m: Option<(string, string, nat)>)
    ensures m.Some? ==> m.value.0 in IdAttrNames && MatchIdWith(s, m.value.0) == Some((m.value.1, m.value.2))
    ensures m.None? <==> forall i :: 0 <= i < |IdAttrNames| ==> MatchIdWith(s, IdAttrNames[i]).None?
  {
    if MatchIdWith(s, "ids").Some? then
      var (d, n) := MatchIdWith(s, "ids").value; Some(("ids", d, n))
    else if MatchIdWith(s, "image").Some? then
      var (d, n) := MatchIdWith(s, "image").value; Some(("image", d, n))
    else if MatchIdWith(s, "images").Some? then
      var (d, n) := MatchIdWith(s, "images").value; Some(("images", d, n))
    else None
  }

  /** `wp_get_attachment_url(id)` gave a value PHP treats as true. */
  predicate Resolvable(id: string, urlOf: string -> Option<string>) {
    urlOf(id).Some? && Truthy(urlOf(id).value)
  }

  /**
   * The URLs of the listed ids, in order, leaving out every id whose URL
   * lookup fails or is empty: nothing marks that an id was dropped.
   */
  function IdSources(ids: seq<string>, urlOf: string -> Option<string>): (r: seq<string>)
    ensures |r| <= |ids|
    ensures |r| == |ids| <==> forall i :: 0 <= i < |ids| ==> Resolvable(ids[i], urlOf)
    ensures forall i :: 0 <= i < |ids| && Resolvable(ids[i], urlOf) ==> urlOf(ids[i]).value in r
    ensures forall u :: u in r ==> exists i :: 0 <= i < |ids| && Resolvable(ids[i], urlOf) && urlOf(ids[i]).value == u
    decreases |ids|
  {
    if |ids| == 0 then []
    else
      var rest := IdSources(ids[1..], urlOf);
      assert forall i :: 1 <= i < |ids| ==> ids[1..][i - 1] == ids[i];
      if Resolvable(ids[0], urlOf) then [urlOf(ids[0]).value] + rest
      else
        assert |rest| <= |ids| - 1;
        rest
  }

  /** The comma-separated sentinel list `implode(",", $sources)` builds, as segments. */
  function SentinelList(us: seq<string>, fam: Family): (segs: seq<Segment>)
    ensures Render(segs, fam) == Join(WrapAll(us, fam), ',')
    ensures forall i :: 0 <= i < |segs| ==> segs[i] == Lit(",") || (segs[i].Marked? && segs[i].inner in us)
    decreases |us|
  {
    if |us| == 0 then []
    else if |us| == 1 then
      assert Render([Marked(us[0])][1..], fam) == "";
      [Marked(us[0])]
    else
      var rest := SentinelList(us[1..], fam);
      var segs := [Marked(us[0]), Lit(",")] + rest;
      assert segs[1..] == [Lit(",")] + rest;
      assert segs[1..][1..] == rest;
      assert WrapAll(us, fam)[1..] == WrapAll(us[1..], fam);
      assert forall i :: 2 <= i < |segs| ==> segs[i] == rest[i - 2];
      assert forall u :: u in us[1..] ==> u in us;
      segs
  }

  /** Each URL wrapped in a sentinel of `fam`. */
  function WrapAll(us: seq<string>, fam: Family): (ws: seq<string>)
    ensures |ws| == |us| && forall i :: 0 <= i < |us| ==> ws[i] == Wrap(fam, us[i])
  {
    seq(|us|, i requires 0 <= i < |us| => Wrap(fam, us[i]))
  }

  /**
   * The id pass as segments: each match becomes the same attribute name,
   * `="`, the sentinels of the resolvable ids joined by commas, and `"`;
   * every other character is copied.
   */
  function IdSegments(s: string, urlOf: string -> Option<string>): seq<Segment>
    decreases |s|
  {
    if |s| == 0 then []
    else
      match MatchIdAttr(s)
      case Some((name, digits, n)) =>
        [Lit(name + "=\"")] + SentinelList(IdSources(Split(digits, ','), urlOf), Id) + [Lit("\"")]
        + IdSegments(s[n..], urlOf)
      case None => [Lit([s[0]])] + IdSegments(s[1..], urlOf)
  }

  /** The id pass of `replace_embeded_images_with_placeholder`. */
  function EncodeIds(s: string, urlOf: string -> Option<string>): string {
    Render(IdSegments(s, urlOf), Id)
  }

  /** The body encoder: the src pass, then the id pass over its output. */
  function EncodeBody(s: string, urlOf: string -> Option<string>): string {
    EncodeIds(EncodeSrc(s), urlOf)
  }

  /** Text in which no id attribute matches anywhere passes through the id pass unchanged. */
  lemma {:induction false} IdPassThrough(s: string, urlOf: string -> Option<string>)
    requires forall k :: 0 <= k < |s| ==> MatchIdAttr(s[k..]).None?
    ensures EncodeIds(s, urlOf) == s
    decreases |s|
  {
    if |s| > 0 {
      assert s[0..] == s;
      forall k | 0 <= k < |s| - 1
        ensures MatchIdAttr(s[1..][k..]).None?
      {
        assert s[1..][k..] == s[k + 1..];
      }
      IdPassThrough(s[1..], urlOf);
      var segs := IdSegments(s, urlOf);
      assert segs[1..] == IdSegments(s[1..], urlOf);
      assert s == [s[0]] + s[1..];
    }
  }

  /** A match is rewritten to the attribute name holding the comma-joined sentinels of its resolvable ids. */
  lemma IdMatchRendered(s: string, urlOf: string -> Option<string>)
    requires |s| > 0 && MatchIdAttr(s).Some?
    ensures var (name, digits, n) := MatchIdAttr(s).value;
            EncodeIds(s, urlOf)
            == name + "=\"" + Join(WrapAll(IdSources(Split(digits, ','), urlOf), Id), ',') + "\""
               + EncodeIds(s[n..], urlOf)
  {
    var (name, digits, n) := MatchIdAttr(s).value;
    var list := SentinelList(IdSources(Split(digits, ','), urlOf), Id);
    var rest := IdSegments(s[n..], urlOf);
    assert IdSegments(s, urlOf) == [Lit(name + "=\"")] + list + [Lit("\"")] + rest;
    RenderAppend([Lit(name + "=\"")] + list + [Lit("\"")], rest, Id);
    RenderAppend([Lit(name + "=\"")] + list, [Lit("\"")], Id);
    RenderAppend([Lit(name + "=\"")], list, Id);
    assert Render([Lit("\"")], Id) == "\"";
    assert Render([Lit(name + "=\"")], Id) == name + "=\"";
  }

  /**
   * When none of a matched attribute's ids resolves, the attribute is
   * emptied: the ids are dropped on export without trace.
   */
  lemma {:induction false} UnresolvableIdsDropped(s: string, urlOf: string -> Option<string>)
    requires |s| > 0 && MatchIdAttr(s).Some?
    requires forall id :: !Resolvable(id, urlOf)
    ensures EncodeIds(s, urlOf) == MatchIdAttr(s).value.0 + "=\"\"" + EncodeIds(s[MatchIdAttr(s).value.2..], urlOf)
  {
    var (name, digits, n) := MatchIdAttr(s).value;
    NothingResolves(Split(digits, ','), urlOf);
    IdMatchRendered(s, urlOf);
  }

  lemma NothingResolves(ids: seq<string>, urlOf: string -> Option<string>)
    requires forall id :: !Resolvable(id, urlOf)
    ensures Join(WrapAll(IdSources(ids, urlOf), Id), ',') == ""
  {
  }

  /** One step of the id pass, as segments. */
  lemma IdSegmentsUnfold(s: string, urlOf: string -> Option<string>)
    requires |s| > 0
    ensures MatchIdAttr(s).None? ==> IdSegments(s, urlOf) == [Lit([s[0]])] + IdSegments(s[1..], urlOf)
    ensures MatchIdAttr(s).Some? ==>
              var (name, digits, n) := MatchIdAttr(s).value;
              IdSegments(s, urlOf) == [Lit(name + "=\"")] + SentinelList(IdSources(Split(digits, ','), urlOf), Id)
                                      + [Lit("\"")] + IdSegments(s[n..], urlOf)
  {
  }

  /** No literal holds `%`. */
  predicate LitsFree(segs: seq<Segment>) {
    forall i :: 0 <= i < |segs| && segs[i].Lit? ==> '%' !in segs[i].text
  }

  /** Every sentinel wraps the URL of a resolvable id. */
  ghost predicate MarksResolvable(segs: seq<Segment>, urlOf: string -> Option<string>) {
    forall i :: 0 <= i < |segs| && segs[i].Marked? ==>
      exists id :: Resolvable(id, urlOf) && urlOf(id).value == segs[i].inner
  }

  lemma ConcatProps(a: seq<Segment>, b: seq<Segment>, urlOf: string -> Option<string>)
    ensures LitsFree(a) && LitsFree(b) ==> LitsFree(a + b)
    ensures MarksResolvable(a, urlOf) && MarksResolvable(b, urlOf) ==> MarksResolvable(a + b, urlOf)
  {
    assert forall i :: |a| <= i < |a + b| ==> (a + b)[i] == b[i - |a|];
  }

  /** The comma-separated sentinel list of an attribute keeps both properties. */
  lemma ListProps(ids: seq<string>, urlOf: string -> Option<string>)
    ensures LitsFree(SentinelList(IdSources(ids, urlOf), Id))
    ensures MarksResolvable(SentinelList(IdSources(ids, urlOf), Id), urlOf)
  {
    var list := SentinelList(IdSources(ids, urlOf), Id);
    forall i | 0 <= i < |list| && list[i].Lit?
      ensures '%' !in list[i].text
    {
      assert list[i] == Lit(",");
    }
    forall i | 0 <= i < |list| && list[i].Marked?
      ensures exists id :: Resolvable(id, urlOf) && urlOf(id).value == list[i].inner
    {
      ListMarkResolvable(ids, urlOf, i);
    }
  }

  lemma ListMarkResolvable(ids: seq<string>, urlOf: string -> Option<string>, i: nat)
    requires i < |SentinelList(IdSources(ids, urlOf), Id)| && SentinelList(IdSources(ids, urlOf), Id)[i].Marked?
    ensures exists id :: Resolvable(id, urlOf) && urlOf(id).value == SentinelList(IdSources(ids, urlOf), Id)[i].inner
  {
    var u := SentinelList(IdSources(ids, urlOf), Id)[i].inner;
    assert u in IdSources(ids, urlOf);
    var k :| 0 <= k < |ids| && Resolvable(ids[k], urlOf) && urlOf(ids[k]).value == u;
    assert Resolvable(ids[k], urlOf) && urlOf(ids[k]).value == u;
  }

  /** From text without `%`, every literal the id pass emits is `%`-free. */
  lemma {:induction false} IdLitsFree(s: string, urlOf: string -> Option<string>)
    requires '%' !in s
    ensures LitsFree(IdSegments(s, urlOf))
    decreases |s|
  {
    if |s| > 0 {
      IdSegmentsUnfold(s, urlOf);
      var m := MatchIdAttr(s);
      if m.Some? {
        var name, digits, n := m.value.0, m.value.1, m.value.2;
        NotInSuffix(s, n, '%');
        IdLitsFree(s[n..], urlOf);
        NameLitFree(name);
        ListProps(Split(digits, ','), urlOf);
        var list := SentinelList(IdSources(Split(digits, ','), urlOf), Id);
        var head := [Lit(name + "=\"")];
        ConcatProps(head, list, urlOf);
        ConcatProps(head + list, [Lit("\"")], urlOf);
        ConcatProps(head + list + [Lit("\"")], IdSegments(s[n..], urlOf), urlOf);
      } else {
        NotInSuffix(s, 1, '%');
        FirstLitFree(s);
        IdLitsFree(s[1..], urlOf);
        ConcatProps([Lit([s[0]])], IdSegments(s[1..], urlOf), urlOf);
      }
    }
  }

  lemma NameLitFree(name: string)
    requires name in IdAttrNames
    ensures LitsFree([Lit(name + "=\"")])
  {
    assert name == "ids" || name == "image" || name == "images";
  }

  lemma FirstLitFree(s: string)
    requires |s| > 0 && '%' !in s
    ensures LitsFree([Lit([s[0]])])
  {
    assert s[0] in s;
  }

  /** Every sentinel the id pass emits wraps the URL of a resolvable id. */
  lemma {:induction false} IdMarksResolvable(s: string, urlOf: string -> Option<string>)
    ensures MarksResolvable(IdSegments(s, urlOf), urlOf)
    decreases |s|
  {
    if |s| > 0 {
      IdSegmentsUnfold(s, urlOf);
      var m := MatchIdAttr(s);
      if m.Some? {
        var name, digits, n := m.value.0, m.value.1, m.value.2;
        IdMarksResolvable(s[n..], urlOf);
        ListProps(Split(digits, ','), urlOf);
        var list := SentinelList(IdSources(Split(digits, ','), urlOf), Id);
        var head := [Lit(name + "=\"")];
        ConcatProps(head, list, urlOf);
        ConcatProps(head + list, [Lit("\"")], urlOf);
        ConcatProps(head + list + [Lit("\"")], IdSegments(s[n..], urlOf), urlOf);
      } else {
        IdMarksResolvable(s[1..], urlOf);
        ConcatProps([Lit([s[0]])], IdSegments(s[1..], urlOf), urlOf);
      }
    }
  }

  /**
   * Every sentinel the id pass emits is recognised by the importer's id
   * scan, provided the URLs it wraps are clean.
   */
  lemma {:induction false} IdSentinelsRecognised(s: string, urlOf: string -> Option<string>)
    requires '%' !in s
    requires forall id :: Resolvable(id, urlOf) ==> Clean(urlOf(id).value, Id)
    ensures Parse(EncodeIds(s, urlOf), Id) == Canon(IdSegments(s, urlOf))
  {
    var segs := IdSegments(s, urlOf);
    IdLitsFree(s, urlOf);
    IdMarksResolvable(s, urlOf);
    forall i | 0 <= i < |segs| && segs[i].Marked?
      ensures Clean(segs[i].inner, Id)
    {
      var id :| Resolvable(id, urlOf) && urlOf(id).value == segs[i].inner;
    }
    LitNoPercentTransparent(segs, Id);
    ParseRender(segs, Id);
  }
}

=== FILE: exporter.dfy ===
/**
 * The exporter (`Akolade_Aggregator_Exporter`): when a post is saved it
 * decides whether to export, derives the channel name from the site host,
 * encodes the body and the special meta values, flattens the taxonomy terms,
 * and assembles the document posted to every network site.
 */
module Exporter {
  import opened Wrappers
  import opened Text
  import opened Sentinel
  import opened Document
  import Encoder
  import TermFlatten

  /** The post types the exporter sends. */
  const Exportable: seq<string> := ["post", "jobs", "retail_events", "special-content", "retail_speakers", "courses"]

  /** The admin page whose saves are the importer's own, and must not be exported back. */
  const OwnScreen: string := "akolade_aggregator"

  /**
   * The guards of `handle`, in the source's order: an autosave, a post
   * without a name, a type outside the exportable list, and a save made
   * from the plugin's own screen are each skipped.
   */
  function ShouldExport(autosave: bool, post: Post, screenParent: Option<string>): (r: bool)
    ensures r ==> post.name != "" && post.postType in Exportable
    ensures autosave ==> !r
    ensures !Truthy(post.name) ==> !r
    ensures post.postType !in Exportable ==> !r
    ensures screenParent == Some(OwnScreen) ==> !r
    ensures !autosave && Truthy(post.name) && post.postType in Exportable && screenParent != Some(OwnScreen) ==> r
  {
    if autosave then false
    else if !Truthy(post.name) then false
    else if post.postType !in Exportable then false
    else if screenParent.Some? && screenParent.value == OwnScreen then false
    else true
  }

  // ---------------------------------------------------------------------
  // Channel name: `parse_domain_from_url`
  // ---------------------------------------------------------------------

  /** `[a-z0-9]` under the `i` flag. */
  predicate IsAlnum(c: char) {
    'a' <= c <= 'z' || 'A' <= c <= 'Z' || IsDigit(c)
  }

  /** `[a-z0-9\-]` under the `i` flag. */
  predicate IsLabelChar(c: char) {
    IsAlnum(c) || c == '-'
  }

  /** `[a-z\.]` under the `i` flag. */
  predicate IsTldChar(c: char) {
    'a' <= c <= 'z' || 'A' <= c <= 'Z' || c == '.'
  }

  /** Where PCRE's `$` (without the `D` flag) can match last: the end, or just before a final line feed. */
  function EndAnchor(h: string): (e: nat)
    ensures e <= |h|
    ensures e == |h| || (e == |h| - 1 && h[e] == '\n')
  {
    if |h| > 0 && h[|h| - 1] == '\n' then |h| - 1 else |h|
  }

  /**
   * `[a-z0-9][a-z0-9\-]{1,63}\.[a-z\.]{2,6}$` matches the host from index `p`
   * with its `\.` at index `j`: a label of 2 to 64 characters, a dot, and 2
   * to 6 letters or dots running to the end.
   */
  predicate DomainSplit(h: string, p: nat, j: nat) {
    p + 2 <= j <= p + 64 && j < |h| && IsAlnum(h[p]) &&
    (forall k :: p < k < j ==> IsLabelChar(h[k])) && h[j] == '.' &&
    j + 3 <= EndAnchor(h) <= j + 7 &&
    (forall k :: j < k < EndAnchor(h) ==> IsTldChar(h[k]))
  }

  /** The first dot at or after index `i`, or `|h|`. */
  function DotFrom(h: string, i: nat): (j: nat)
    requires i <= |h|
    ensures i <= j <= |h| && (j < |h| ==> h[j] == '.')
    ensures forall k :: i <= k < j ==> h[k] != '.'
    decreases |h| - i
  {
    if i == |h| || h[i] == '.' then i else DotFrom(h, i + 1)
  }

  /** At most one dot position works from a given start: the first dot, since labels hold no dot. */
  function DomainAt(h: string, p: nat): (r: Option<nat>)
    requires p < |h|
    ensures r.Some? ==> DomainSplit(h, p, r.value)
    ensures r.None? ==> forall j: nat :: !DomainSplit(h, p, j)
  {
    var j := DotFrom(h, p);
    DotIsFirst(h, p);
    if DomainSplit(h, p, j) then Some(j) else None
  }

  lemma DotIsFirst(h: string, p: nat)
    requires p < |h|
    ensures forall j: nat :: DomainSplit(h, p, j) ==> j == DotFrom(h, p)
  {
    forall j: nat | DomainSplit(h, p, j)
      ensures j == DotFrom(h, p)
    {
      assert h[p] != '.';
    }
  }

  /** The leftmost start at or after `p` from which the pattern matches. */
  function LeftmostFrom(h: string, p: nat): (r: Option<(nat, nat)>)
    requires p <= |h|
    ensures r.Some? ==> p <= r.value.0 && DomainSplit(h, r.value.0, r.value.1)
    ensures r.Some? ==> forall q: nat, j: nat :: p <= q < r.value.0 ==> !DomainSplit(h, q, j)
    ensures r.None? ==> forall q: nat, j: nat :: p <= q ==> !DomainSplit(h, q, j)
    decreases |h| - p
  {
    if p == |h| then None
    else
      match DomainAt(h, p)
      case Some(j) => Some((p, j))
      case None => LeftmostFrom(h, p + 1)
  }

  /**
   * `parse_domain_from_url(site_url())` given `parse_url`'s host (None when
   * absent): the text before the first dot of the leftmost match, or "".
   */
  function ParseDomain(host: Option<string>): (r: string)
    ensures '.' !in r
    ensures host.None? ==> r == ""
    ensures host.Some? ==> (r == "" <==> forall q: nat, j: nat :: !DomainSplit(host.value, q, j))
    ensures r != "" ==> exists p: nat, j: nat :: DomainSplit(host.value, p, j) && host.value[p..j] == r
                                    && forall q: nat, j': nat :: q < p ==> !DomainSplit(host.value, q, j')
  {
    match host
    case None => ""
    case Some(h) =>
      match LeftmostFrom(h, 0)
      case None => ""
      case Some((p, j)) =>
        var r := h[p..j];
        assert forall k :: 0 <= k < |r| ==> r[k] == h[p + k];
        assert '.' !in r by {
          forall k | 0 <= k < |r| ensures r[k] != '.' {
            if k == 0 { assert IsAlnum(h[p]); } else { assert IsLabelChar(h[p + k]); }
          }
        }
        assert p + |r| == j;
        r
  }

  // ---------------------------------------------------------------------
  // Meta encoding: `replace_meta_field_special_content`
  // ---------------------------------------------------------------------

  /** Source-site WordPress lookups the exporter makes, as oracles. */
  datatype ExportEnv = ExportEnv(
    /** `wp_get_attachment_url(id)`: None for `false`. */
    attachmentUrl: string -> Option<string>,
    /** `get_post(id)`: the linked post's natural key, None for a missing post. */
    postOf: string -> Option<PostKey>,
    /** `get_term(id)`: the term's natural key, None for a missing term. */
    termOf: string -> Option<TermKey>)

  /** The text `'%akag…start%' . $img_src . '…end%'` builds from a URL lookup (`false` prints as ""). */
  function WrapUrl(fam: Family, u: Option<string>): string {
    Wrap(fam, u.GetOr(""))
  }

  /**
   * The exported form of one meta value. Image-id values become an id
   * sentinel around the attachment URL (an empty one when the lookup fails).
   * Serialized records get `url` wrapped in src markers, `id` set to id
   * markers around the already wrapped `url`, and `thumbnail` emptied.
   * Linked posts and terms become their natural keys. Other values are kept.
   */
  function EncodeMetaValue(key: string, v: MetaValue, env: ExportEnv): (r: MetaValue)
    ensures Kind(key) == ImageId ==> r == Text(WrapUrl(Id, env.attachmentUrl(AsText(v))))
    ensures Kind(key) == ImageSrc ==> r == Text(WrapUrl(Src, env.attachmentUrl(AsText(v))))
    ensures Kind(key) == SerializedImage ==>
              r.Record? && r.url == Wrap(Src, AsRecord(v).url) && r.id == Wrap(Id, r.url) && r.thumbnail == ""
    ensures Kind(key) == LinkedPostId ==> r == LinkedPost(env.postOf(AsText(v)))
    ensures Kind(key) == TermId ==> r == LinkedTerm(env.termOf(AsText(v)))
    ensures Kind(key) == Plain ==> r == v
  {
    match Kind(key)
    case ImageId => Text(WrapUrl(Id, env.attachmentUrl(AsText(v))))
    case ImageSrc => Text(WrapUrl(Src, env.attachmentUrl(AsText(v))))
    case SerializedImage =>
      var url := Wrap(Src, AsRecord(v).url);
      Record(url, Wrap(Id, url), "")
    case LinkedPostId => LinkedPost(env.postOf(AsText(v)))
    case TermId => LinkedTerm(env.termOf(AsText(v)))
    case Plain => v
  }

  /**
   * The serialized record's `id` is a sentinel around a sentinel: the id
   * markers enclose the src-wrapped URL, not the URL.
   */
  lemma SerializedIdDoubleWrapped(url: string, id: string, thumb: string, env: ExportEnv)
    ensures EncodeMetaValue("post-sponser-logo", Record(url, id, thumb), env)
            == Record(Wrap(Src, url), Wrap(Id, Wrap(Src, url)), "")
  {
    assert Kind("post-sponser-logo") == SerializedImage;
  }

  /**
   * The meta of one post, encoded, and the ids of the linked posts whose own
   * export is started on the way (each `get_post` that finds a post), in
   * meta order.
   */
  function EncodeMeta(meta: seq<(string, MetaValue)>, env: ExportEnv): (r: (seq<(string, MetaValue)>, seq<string>))
    ensures |r.0| == |meta|
    ensures forall i :: 0 <= i < |meta| ==> r.0[i].0 == meta[i].0
    ensures forall i :: 0 <= i < |meta| ==> r.0[i].1 == EncodeMetaValue(meta[i].0, meta[i].1, env)
    ensures forall x :: x in r.1 <==> exists i :: 0 <= i < |meta| && Kind(meta[i].0) == LinkedPostId
                                         && AsText(meta[i].1) == x && env.postOf(x).Some?
    decreases |meta|
  {
    if |meta| == 0 then ([], [])
    else
      var (key, v) := meta[0];
      var rest := EncodeMeta(meta[1..], env);
      assert forall i :: 1 <= i < |meta| ==> meta[1..][i - 1] == meta[i];
      var exports := if Kind(key) == LinkedPostId && env.postOf(AsText(v)).Some? then [AsText(v)] else [];
      ([(key, EncodeMetaValue(key, v, env))] + rest.0, exports + rest.1)
  }

  /**
   * There is no visited set: a post whose linked-post meta names the post
   * itself starts its own export again while being exported.
   */
  lemma {:induction false} SelfLinkReexports(self: string, meta: seq<(string, MetaValue)>, i: nat, env: ExportEnv)
    requires i < |meta| && Kind(meta[i].0) == LinkedPostId && meta[i].1 == Text(self)
    requires env.postOf(self).Some?
    ensures self in EncodeMeta(meta, env).1
  {
    assert AsText(meta[i].1) == self;
  }

  // ---------------------------------------------------------------------
  // The document: `prepare_data`
  // ---------------------------------------------------------------------

  /** What `prepare_data` reads from the source site, besides the oracles. */
  datatype Source = Source(
    post: Post,
    /** `parse_url(site_url())['host']`. */
    host: Option<string>,
    /** `get_permalink($post->ID)`. */
    permalink: string,
    meta: seq<(string, MetaValue)>,
    author: Option<Fields>,
    /** `wp_get_post_terms` over every taxonomy, concatenated in taxonomy order. */
    attached: seq<ExportedTerm>,
    hierarchy: TermFlatten.Hierarchy,
    images: seq<Image>)

  /**
   * The document posted to the network sites, and the linked posts exported
   * on the way. The post keeps its name and type; its body is encoded, its
   * channel is the host's domain label, its canonical URL the permalink.
   * Each meta value is encoded under its key, the linked posts that exist
   * are exported, and the terms come parent first with exactly the
   * attached ones flagged.
   */
  function PrepareData(src: Source, env: ExportEnv): (r: (Doc, seq<string>))
    requires TermFlatten.Walkable(src.hierarchy, src.attached)
    ensures r.0.post.Key() == src.post.Key()
    ensures r.0.post.content == Encoder.EncodeBody(src.post.content, env.attachmentUrl)
    ensures r.0.post.channel == ParseDomain(src.host) && '.' !in r.0.post.channel
    ensures r.0.post.canonicalUrl == src.permalink
    ensures |r.0.meta| == |src.meta|
    ensures forall i :: 0 <= i < |src.meta| ==>
              r.0.meta[i].0 == src.meta[i].0 && r.0.meta[i].1 == EncodeMetaValue(src.meta[i].0, src.meta[i].1, env)
    ensures forall x :: x in r.1 <==> exists i :: 0 <= i < |src.meta| && Kind(src.meta[i].0) == LinkedPostId
                                         && AsText(src.meta[i].1) == x && env.postOf(x).Some?
    ensures TermFlatten.ParentPrecedes(r.0.terms, src.hierarchy)
    ensures |r.0.terms| == TermFlatten.TotalSize(src.hierarchy, src.attached)
    ensures TermFlatten.Consistent(src.hierarchy) ==>
              TermFlatten.Flagged(r.0.terms) == TermFlatten.MarkedReversed(src.attached)
    ensures r.0.author == src.author && r.0.images == src.images
  {
    TermFlatten.FlaggedWhenConsistent(src.hierarchy, src.attached);
    var post := src.post.(
      content := Encoder.EncodeBody(src.post.content, env.attachmentUrl),
      channel := ParseDomain(src.host),
      canonicalUrl := src.permalink);
    var (meta, exports) := EncodeMeta(src.meta, env);
    (Doc(post, meta, src.author, TermFlatten.Flatten(src.hierarchy, src.attached), src.images), exports)
  }
}

=== FILE: fields.dfy ===
/**
 * The importer's field filter (`filter_fields`) and author import
 * (`import_author`). A filtered record is an ordered list of key/value
 * pairs, as a PHP array is.
 */
module FieldFilter {
  import opened Wrappers
  import opened Text
  import opened Document

  /** An ordered PHP array of string fields. */
  type Record = seq<(string, string)>

  /** The fields `import_author` keeps. */
  const AuthorFields: seq<string> := ["user_pass", "user_login", "user_nicename", "user_email", "display_name",
                                      "nickname", "first_name", "last_name", "description", "role"]

  /** The fields `import_post` keeps. */
  const PostFields: seq<string> := ["post_name", "post_title", "post_excerpt", "post_content", "post_status", "post_type"]

  /** PHP `isset`: the key is present and its value is not null. */
  predicate IsSet(data: Fields, k: string) {
    k in data && data[k].Some?
  }

  predicate HasKey(r: Record, k: string) {
    exists i :: 0 <= i < |r| && r[i].0 == k
  }

  /** The position of the first occurrence of `k` in `s`. */
  function FirstIndex(s: seq<string>, k: string): (i: nat)
    requires k in s
    ensures i < |s| && s[i] == k
    ensures forall j :: 0 <= j < i ==> s[j] != k
  {
    if s[0] == k then 0 else 1 + FirstIndex(s[1..], k)
  }

  lemma FirstIndexSnoc(s: seq<string>, x: string, k: string)
    requires k in s
    ensures k in s + [x] && FirstIndex(s + [x], k) == FirstIndex(s, k)
  {
    var i := FirstIndex(s, k);
    var t := s + [x];
    assert t[i] == k;
    forall j | 0 <= j < i ensures t[j] != k {
      assert t[j] == s[j];
    }
    FirstIndexUnique(t, k, i);
  }

  lemma FirstIndexUnique(s: seq<string>, k: string, i: nat)
    requires i < |s| && s[i] == k && forall j :: 0 <= j < i ==> s[j] != k
    ensures FirstIndex(s, k) == i
  {
    var f := FirstIndex(s, k);
    assert !(f < i) && !(i < f);
  }

  /**
   * `filter_fields(data, allowed)`: each allowed key that is set in `data`,
   * once, in order of its first place in `allowed`, with its value unchanged;
   * nothing else.
   */
  function FilterFields(data: Fields, allowed: seq<string>): (r: Record)
    ensures forall i :: 0 <= i < |r| ==> r[i].0 in allowed && IsSet(data, r[i].0) && data[r[i].0] == Some(r[i].1)
    ensures forall k :: k in allowed && IsSet(data, k) ==> HasKey(r, k)
    ensures forall i, j :: 0 <= i < j < |r| ==> r[i].0 != r[j].0
    decreases |allowed|
  {
    if |allowed| == 0 then []
    else
      var init := allowed[..|allowed| - 1];
      var k := allowed[|allowed| - 1];
      var prev := FilterFields(data, init);
      assert allowed == init + [k];
      if IsSet(data, k) && !HasKey(prev, k) then
        var r := prev + [(k, data[k].value)];
        assert forall i :: 0 <= i < |prev| ==> r[i] == prev[i];
        forall key | HasKey(prev, key) ensures HasKey(r, key) {
          var i :| 0 <= i < |prev| && prev[i].0 == key;
          assert r[i].0 == key;
        }
        assert r[|prev|].0 == k;
        r
      else
        prev
  }

  /** The entries' keys all occur in `allowed`, and in the order of their first place there. */
  predicate InOrder(allowed: seq<string>, r: Record) {
    && (forall i :: 0 <= i < |r| ==> r[i].0 in allowed)
    && forall i, j :: 0 <= i < j < |r| ==> FirstIndex(allowed, r[i].0) < FirstIndex(allowed, r[j].0)
  }

  /** The filtered keys come in the order of their first place in `allowed`. */
  lemma {:induction false} FilterFieldsOrdered(data: Fields, allowed: seq<string>)
    ensures InOrder(allowed, FilterFields(data, allowed))
    decreases |allowed|
  {
    if |allowed| > 0 {
      var init := allowed[..|allowed| - 1];
      var k := allowed[|allowed| - 1];
      var prev := FilterFields(data, init);
      FilterFieldsOrdered(data, init);
      assert InOrder(init, prev);
      assert allowed == init + [k];
      forall key | key in init ensures FirstIndex(allowed, key) == FirstIndex(init, key) {
        FirstIndexSnoc(init, k, key);
      }
      var r := FilterFields(data, allowed);
      if IsSet(data, k) && !HasKey(prev, k) {
        assert k !in init;
        FirstIndexUnique(allowed, k, |allowed| - 1);
        assert r == prev + [(k, data[k].value)];
        forall i, j | 0 <= i < j < |r|
          ensures FirstIndex(allowed, r[i].0) < FirstIndex(allowed, r[j].0)
        {
          assert r[i] == prev[i] && prev[i].0 in init;
          assert FirstIndex(allowed, r[i].0) == FirstIndex(init, prev[i].0) < |init|;
          if j < |prev| {
            assert r[j] == prev[j] && prev[j].0 in init;
            assert FirstIndex(allowed, r[j].0) == FirstIndex(init, prev[j].0);
            assert FirstIndex(init, prev[i].0) < FirstIndex(init, prev[j].0);
          } else {
            assert r[j].0 == k;
            assert FirstIndex(allowed, k) == |allowed| - 1;
          }
        }
      } else {
        assert r == prev;
        forall i, j | 0 <= i < j < |r|
          ensures FirstIndex(allowed, r[i].0) < FirstIndex(allowed, r[j].0)
        {
          assert prev[i].0 in init && prev[j].0 in init;
          assert FirstIndex(allowed, r[i].0) == FirstIndex(init, prev[i].0);
          assert FirstIndex(allowed, r[j].0) == FirstIndex(init, prev[j].0);
        }
      }
    }
  }

  /** The value of the first entry with key `k`. */
  function Lookup(r: Record, k: string): (v: Option<string>)
    ensures v.Some? <==> HasKey(r, k)
    ensures v.Some? ==> exists i :: 0 <= i < |r| && r[i] == (k, v.value)
    decreases |r|
  {
    if |r| == 0 then None
    else if r[0].0 == k then Some(r[0].1)
    else
      var v := Lookup(r[1..], k);
      assert forall i :: 1 <= i < |r| ==> r[i] == r[1..][i - 1];
      v
  }

  /** `$array[k] = v`: overwrites the entry in place when the key is present, otherwise appends. */
  function SetField(r: Record, k: string, v: string): (out: Record)
    ensures |out| == |r| + (if HasKey(r, k) then 0 else 1)
    ensures forall i :: 0 <= i < |r| ==> out[i] == (if r[i].0 == k then (k, v) else r[i])
    ensures !HasKey(r, k) ==> out[|r|] == (k, v)
  {
    if HasKey(r, k) then Replace(r, k, v) else r + [(k, v)]
  }

  /** Every entry with key `k` takes the value `v`. */
  function Replace(r: Record, k: string, v: string): (out: Record)
    ensures |out| == |r|
    ensures forall i :: 0 <= i < |r| ==> out[i] == (if r[i].0 == k then (k, v) else r[i])
    decreases |r|
  {
    if |r| == 0 then []
    else [if r[0].0 == k then (k, v) else r[0]] + Replace(r[1..], k, v)
  }

  lemma HasKeyTail(r: Record, k: string)
    requires |r| > 0
    ensures HasKey(r, k) <==> r[0].0 == k || HasKey(r[1..], k)
  {
    if HasKey(r[1..], k) {
      var i :| 0 <= i < |r| - 1 && r[1..][i].0 == k;
      assert r[i + 1].0 == k;
    }
    if HasKey(r, k) && r[0].0 != k {
      var i :| 0 <= i < |r| && r[i].0 == k;
      assert r[1..][i - 1].0 == k;
    }
  }

  /** A filtered record holds each key at most once, so its lookup is its only entry for that key. */
  lemma {:induction false} LookupFiltered(data: Fields, allowed: seq<string>, k: string)
    ensures Lookup(FilterFields(data, allowed), k) == (if k in allowed && IsSet(data, k) then data[k] else None)
  {
    var r := FilterFields(data, allowed);
    var v := Lookup(r, k);
    if v.Some? {
      var i :| 0 <= i < |r| && r[i] == (k, v.value);
    }
  }

  lemma {:induction false} LookupSetField(r: Record, k: string, v: string, other: string)
    ensures Lookup(SetField(r, k, v), k) == Some(v)
    ensures other != k ==> Lookup(SetField(r, k, v), other) == Lookup(r, other)
  {
    if HasKey(r, k) {
      LookupReplace(r, k, v, other);
    } else {
      LookupAppend(r, k, v, k);
      LookupAppend(r, k, v, other);
    }
  }

  lemma {:induction false} LookupReplace(r: Record, k: string, v: string, other: string)
    ensures HasKey(r, k) ==> Lookup(Replace(r, k, v), k) == Some(v)
    ensures other != k ==> Lookup(Replace(r, k, v), other) == Lookup(r, other)
    decreases |r|
  {
    if |r| > 0 {
      HasKeyTail(r, k);
      LookupReplace(r[1..], k, v, other);
      assert Replace(r, k, v)[1..] == Replace(r[1..], k, v);
    }
  }

  lemma {:induction false} LookupAppend(r: Record, k: string, v: string, other: string)
    ensures !HasKey(r, k) ==> Lookup(r + [(k, v)], k) == Some(v)
    ensures other != k ==> Lookup(r + [(k, v)], other) == Lookup(r, other)
    decreases |r|
  {
    if |r| > 0 {
      HasKeyTail(r, k);
      LookupAppend(r[1..], k, v, other);
      assert (r + [(k, v)])[1..] == r[1..] + [(k, v)];
    }
  }

  // ---------------------------------------------------------------------
  // `import_author`
  // ---------------------------------------------------------------------

  datatype User = User(id: int, fields: Record)

  /** The destination site's users, in creation order, and the next user id. */
  datatype Users = Users(users: seq<User>, nextId: int)

  /** `email_exists(email)`: the first user whose `user_email` is the given non-empty address. */
  function EmailExists(us: Users, email: Option<string>): (r: Option<int>)
    ensures email.None? || email == Some("") ==> r.None?
    ensures r.Some? ==> exists i :: 0 <= i < |us.users| && us.users[i].id == r.value
                                    && Lookup(us.users[i].fields, "user_email") == email
    ensures email.Some? && email != Some("") && r.None? ==>
              forall i :: 0 <= i < |us.users| ==> Lookup(us.users[i].fields, "user_email") != email
  {
    if email.None? || email == Some("") then None
    else FirstWithEmail(us.users, email.value)
  }

  function FirstWithEmail(users: seq<User>, email: string): (r: Option<int>)
    ensures r.Some? ==> exists i :: 0 <= i < |users| && users[i].id == r.value
                                    && Lookup(users[i].fields, "user_email") == Some(email)
    ensures r.None? ==> forall i :: 0 <= i < |users| ==> Lookup(users[i].fields, "user_email") != Some(email)
    decreases |users|
  {
    if |users| == 0 then None
    else if Lookup(users[0].fields, "user_email") == Some(email) then Some(users[0].id)
    else
      var r := FirstWithEmail(users[1..], email);
      assert forall i :: 1 <= i < |users| ==> users[i] == users[1..][i - 1];
      r
  }

  lemma FirstWithEmailAppend(users: seq<User>, u: User, email: string)
    requires FirstWithEmail(users, email).None?
    ensures FirstWithEmail(users + [u], email)
            == (if Lookup(u.fields, "user_email") == Some(email) then Some(u.id) else None)
    decreases |users|
  {
    if |users| > 0 {
      assert (users + [u])[1..] == users[1..] + [u];
      FirstWithEmailAppend(users[1..], u, email);
    }
  }

  /** What `import_author` hands to `import_post`: an existing or new user id, or false / an error. */
  datatype AuthorOutcome = NoAuthor | Existing(id: int) | Inserted(id: int) | InsertFailed
  {
    /** The id the post is attributed to. */
    function AuthorId(): Option<int> {
      if Existing? || Inserted? then Some(id) else None
    }
  }

  /** The author's `user_email`, when set. */
  function AuthorEmail(a: Fields): Option<string> {
    if IsSet(a, "user_email") then a["user_email"] else None
  }

  /** The record `import_author` inserts: the filtered author fields with `role` forced to "author". */
  function NewUserRecord(a: Fields): Record {
    SetField(FilterFields(a, AuthorFields), "role", "author")
  }

  /**
   * `import_author(author)`: false without an author; the existing user's id
   * when the email is already registered, with nothing inserted; otherwise the
   * filtered record with role "author" is inserted when `insertOk` (standing
   * for `wp_insert_user` succeeding) allows.
   */
  function ImportAuthor(us: Users, author: Option<Fields>, insertOk: Record -> bool): (out: (Users, AuthorOutcome))
    ensures author.None? ==> out == (us, NoAuthor)
    ensures author.Some? && EmailExists(us, AuthorEmail(author.value)).Some? ==>
              out == (us, Existing(EmailExists(us, AuthorEmail(author.value)).value))
    ensures author.Some? && EmailExists(us, AuthorEmail(author.value)).None? && insertOk(NewUserRecord(author.value)) ==>
              out == (Users(us.users + [User(us.nextId, NewUserRecord(author.value))], us.nextId + 1), Inserted(us.nextId))
    ensures author.Some? && EmailExists(us, AuthorEmail(author.value)).None? && !insertOk(NewUserRecord(author.value)) ==>
              out == (us, InsertFailed)
  {
    match author
    case None => (us, NoAuthor)
    case Some(a) =>
      match EmailExists(us, AuthorEmail(a))
      case Some(id) => (us, Existing(id))
      case None =>
        var user := NewUserRecord(a);
        if insertOk(user) then (Users(us.users + [User(us.nextId, user)], us.nextId + 1), Inserted(us.nextId))
        else (us, InsertFailed)
  }

  /**
   * The inserted user's fields: role is "author" whatever was sent, and every
   * other field is the sent value when it is an author field that is set, and
   * absent otherwise.
   */
  lemma {:induction false} NewUserFields(a: Fields, k: string)
    ensures Lookup(NewUserRecord(a), "role") == Some("author")
    ensures k != "role" ==> Lookup(NewUserRecord(a), k) == (if k in AuthorFields && IsSet(a, k) then a[k] else None)
  {
    LookupSetField(FilterFields(a, AuthorFields), "role", "author", k);
    LookupFiltered(a, AuthorFields, k);
  }

  /**
   * Importing the same author twice: with a non-empty email and a first call
   * that found or inserted the user, the second call finds that same user and
   * inserts nothing.
   */
  lemma {:induction false} ImportAuthorTwice(us: Users, a: Fields, insertOk: Record -> bool)
    requires AuthorEmail(a).Some? && AuthorEmail(a) != Some("")
    requires ImportAuthor(us, Some(a), insertOk).1.AuthorId().Some?
    ensures var first := ImportAuthor(us, Some(a), insertOk);
            ImportAuthor(first.0, Some(a), insertOk) == (first.0, Existing(first.1.AuthorId().value))
  {
    var email := AuthorEmail(a).value;
    if EmailExists(us, AuthorEmail(a)).None? {
      var u := User(us.nextId, NewUserRecord(a));
      NewUserFields(a, "user_email");
      assert "user_email" in AuthorFields;
      FirstWithEmailAppend(us.users, u, email);
    }
  }
}

=== FILE: flatten.dfy ===
/**
 * The exporter's taxonomy flattening (the term loop of `prepare_data`):
 * each term attached to the post is flagged `belongs_to_post` and
 * `array_unshift`ed onto the list, followed by its ancestors, parent first,
 * each also unshifted. The list therefore ends up with each attached term
 * immediately preceded by its ancestor chain, root first, and with the
 * attached terms' blocks in reverse order.
 */
module TermFlatten {
  import opened Wrappers
  import opened Document

  /** `get_term(id)` on the source site, as a map from term id to term. */
  type Hierarchy = map<int, ExportedTerm>

  /** The hierarchy returns each term under its own id, without the export flag. */
  ghost predicate Consistent(h: Hierarchy) {
    forall k :: k in h ==> h[k].termId == k && h[k].belongsToPost.None?
  }

  /**
   * The ancestors reached from parent id `parent` by the `while ($parent_term_id)`
   * walk, root first; None if the walk reaches an id the hierarchy lacks or
   * does not end within `fuel` steps.
   */
  function Chain(h: Hierarchy, parent: int, fuel: nat): (c: Option<seq<ExportedTerm>>)
    ensures parent == 0 ==> c == Some([])
    ensures c.Some? && parent != 0 ==> parent in h && |c.value| > 0 && c.value[|c.value| - 1] == h[parent]
    ensures c.Some? && |c.value| > 0 ==> c.value[0].parent == 0
    ensures c.Some? ==> forall i :: 0 < i < |c.value| ==>
              c.value[i].parent != 0 && c.value[i].parent in h && c.value[i - 1] == h[c.value[i].parent]
    ensures c.Some? && Consistent(h) ==> forall i :: 0 <= i < |c.value| ==> c.value[i].belongsToPost.None?
    decreases fuel
  {
    if parent == 0 then Some([])
    else if fuel == 0 || parent !in h then None
    else
      match Chain(h, h[parent].parent, fuel - 1)
      case None => None
      case Some(up) =>
        var c := up + [h[parent]];
        assert forall i :: 0 <= i < |up| ==> c[i] == up[i];
        Some(c)
  }

  /** Every attached term's ancestor walk ends, as the source's loop needs in order to end. */
  ghost predicate Walkable(h: Hierarchy, attached: seq<ExportedTerm>) {
    forall i :: 0 <= i < |attached| ==> Chain(h, attached[i].parent, |h|).Some?
  }

  /** The block one attached term contributes: its ancestors, root first, then the flagged term. */
  function Block(h: Hierarchy, t: ExportedTerm): (b: seq<ExportedTerm>)
    requires Chain(h, t.parent, |h|).Some?
    ensures |b| == 1 + |Chain(h, t.parent, |h|).value|
    ensures b[|b| - 1] == t.(belongsToPost := Some(true))
  {
    Chain(h, t.parent, |h|).value + [t.(belongsToPost := Some(true))]
  }

  /** The number of ancestors of an attached term. */
  function Depth(h: Hierarchy, t: ExportedTerm): nat
    requires Chain(h, t.parent, |h|).Some?
  {
    |Chain(h, t.parent, |h|).value|
  }

  /** The list length the source promises: one entry per attached term plus one per ancestor. */
  function TotalSize(h: Hierarchy, attached: seq<ExportedTerm>): nat
    requires Walkable(h, attached)
    decreases |attached|
  {
    if |attached| == 0 then 0
    else 1 + Depth(h, attached[0]) + TotalSize(h, attached[1..])
  }

  /**
   * Each entry with a parent is immediately preceded by the term the
   * hierarchy returns for that parent id; the first entry is a root.
   */
  predicate ParentPrecedes(r: seq<ExportedTerm>, h: Hierarchy) {
    forall i :: 0 <= i < |r| && r[i].parent != 0 ==> 0 < i && r[i].parent in h && r[i - 1] == h[r[i].parent]
  }

  /**
   * `$data['post_terms']` after the loop. Every entry with a parent comes
   * right after it (so every ancestor occurs earlier), and the length is the
   * sum over attached terms of one plus the depth.
   */
  function Flatten(h: Hierarchy, attached: seq<ExportedTerm>): (r: seq<ExportedTerm>)
    requires Walkable(h, attached)
    ensures |r| == TotalSize(h, attached)
    ensures ParentPrecedes(r, h)
    decreases |attached|
  {
    if |attached| == 0 then []
    else
      var rest := Flatten(h, attached[1..]);
      var b := Block(h, attached[0]);
      BlockParentPrecedes(h, attached[0]);
      ConcatParentPrecedes(rest, b, h);
      rest + b
  }

  lemma BlockParentPrecedes(h: Hierarchy, t: ExportedTerm)
    requires Chain(h, t.parent, |h|).Some?
    ensures ParentPrecedes(Block(h, t), h)
  {
    var c := Chain(h, t.parent, |h|).value;
    var b := Block(h, t);
    forall i | 0 <= i < |b| && b[i].parent != 0
      ensures 0 < i && b[i].parent in h && b[i - 1] == h[b[i].parent]
    {
      if i < |c| {
        assert b[i] == c[i];
        if i > 0 {
          assert b[i - 1] == c[i - 1];
        }
      } else {
        assert b[i].parent == t.parent;
      }
    }
  }

  lemma ConcatParentPrecedes(a: seq<ExportedTerm>, b: seq<ExportedTerm>, h: Hierarchy)
    requires ParentPrecedes(a, h) && ParentPrecedes(b, h)
    ensures ParentPrecedes(a + b, h)
  {
    forall i | 0 <= i < |a + b| && (a + b)[i].parent != 0
      ensures 0 < i && (a + b)[i].parent in h && (a + b)[i - 1] == h[(a + b)[i].parent]
    {
      if i < |a| {
        assert (a + b)[i] == a[i];
        assert (a + b)[i - 1] == a[i - 1];
      } else {
        assert (a + b)[i] == b[i - |a|];
        assert (a + b)[i - 1] == b[i - |a| - 1];
      }
    }
  }

  /**
   * In a list where parents immediately precede, every entry is immediately
   * preceded by its whole ancestor chain, root first.
   */
  lemma {:induction false} ChainPrecedes(r: seq<ExportedTerm>, h: Hierarchy, i: nat, fuel: nat)
    requires ParentPrecedes(r, h) && i < |r|
    requires Chain(h, r[i].parent, fuel).Some?
    ensures |Chain(h, r[i].parent, fuel).value| <= i
    ensures r[i - |Chain(h, r[i].parent, fuel).value|..i] == Chain(h, r[i].parent, fuel).value
    decreases fuel
  {
    var p := r[i].parent;
    if p != 0 {
      var up := Chain(h, h[p].parent, fuel - 1).value;
      assert Chain(h, p, fuel).value == up + [h[p]];
      assert r[i - 1] == h[p];
      ChainPrecedes(r, h, i - 1, fuel - 1);
      var whole := r[i - 1 - |up|..i];
      assert whole == r[i - 1 - |up|..i - 1] + [r[i - 1]];
    }
  }

  /** The entries flagged `belongs_to_post`, in list order. */
  function Flagged(r: seq<ExportedTerm>): seq<ExportedTerm>
    decreases |r|
  {
    if |r| == 0 then []
    else (if r[0].belongsToPost == Some(true) then [r[0]] else []) + Flagged(r[1..])
  }

  lemma {:induction false} FlaggedAppend(a: seq<ExportedTerm>, b: seq<ExportedTerm>)
    ensures Flagged(a + b) == Flagged(a) + Flagged(b)
    decreases |a|
  {
    if |a| == 0 {
      assert a + b == b;
    } else {
      var ab := a + b;
      assert ab[0] == a[0] && ab[1..] == a[1..] + b;
      FlaggedAppend(a[1..], b);
      var head := if a[0].belongsToPost == Some(true) then [a[0]] else [];
      assert Flagged(ab) == head + Flagged(a[1..] + b);
      assert Flagged(a) == head + Flagged(a[1..]);
    }
  }

  /** The attached terms, flagged, in reverse order. */
  function MarkedReversed(attached: seq<ExportedTerm>): (r: seq<ExportedTerm>)
    ensures |r| == |attached|
    ensures forall i :: 0 <= i < |r| ==> r[i] == attached[|attached| - 1 - i].(belongsToPost := Some(true))
    decreases |attached|
  {
    if |attached| == 0 then []
    else MarkedReversed(attached[1..]) + [attached[0].(belongsToPost := Some(true))]
  }

  /**
   * Only the attached terms are flagged, ancestors never are, and they
   * appear in the reverse of the order in which they were attached.
   */
  lemma {:induction false} FlaggedAreAttached(h: Hierarchy, attached: seq<ExportedTerm>)
    requires Consistent(h) && Walkable(h, attached)
    ensures Flagged(Flatten(h, attached)) == MarkedReversed(attached)
    decreases |attached|
  {
    if |attached| > 0 {
      WalkableTail(h, attached);
      FlaggedAreAttached(h, attached[1..]);
      var c := Chain(h, attached[0].parent, |h|).value;
      var t := attached[0].(belongsToPost := Some(true));
      var rest := Flatten(h, attached[1..]);
      assert Flatten(h, attached) == rest + (c + [t]);
      FlaggedAppend(rest, c + [t]);
      FlaggedAppend(c, [t]);
      NoneFlagged(c);
      assert Flagged([t]) == [t];
      assert MarkedReversed(attached) == MarkedReversed(attached[1..]) + [t];
    }
  }

  /** `FlaggedAreAttached` for any hierarchy, stated under its consistency. */
  lemma FlaggedWhenConsistent(h: Hierarchy, attached: seq<ExportedTerm>)
    requires Walkable(h, attached)
    ensures Consistent(h) ==> Flagged(Flatten(h, attached)) == MarkedReversed(attached)
  {
    if Consistent(h) {
      FlaggedAreAttached(h, attached);
    }
  }

  lemma WalkableTail(h: Hierarchy, attached: seq<ExportedTerm>)
    requires |attached| > 0 && Walkable(h, attached)
    ensures Walkable(h, attached[1..])
  {
    forall i | 0 <= i < |attached| - 1
      ensures Chain(h, attached[1..][i].parent, |h|).Some?
    {
      assert attached[1..][i] == attached[i + 1];
    }
  }

  lemma NoneFlagged(c: seq<ExportedTerm>)
    requires forall i :: 0 <= i < |c| ==> c[i].belongsToPost.None?
    ensures Flagged(c) == []
    decreases |c|
  {
    if |c| > 0 {
      NoneFlagged(c[1..]);
    }
  }
}

=== FILE: intake.dfy ===
/**
 * The importer's intake endpoint (`handle`): the access-token gate, the
 * staging upsert keyed by `(post_name, post_type)`, and the immediate
 * imports run when the site is not on a schedule.
 */
module Intake {
  import opened Wrappers
  import opened Text
  import opened Document
  import opened Staging
  import opened Materializer

  /** The plugin's settings as `get_option` returns them (None for an unset option). */
  datatype Options = Options(accessToken: Option<string>, isScheduled: Option<string>, autoPublish: Option<string>)

  /** Post types imported as published whatever `auto_publish` says. */
  const AlwaysPublish: seq<string> := ["special-content"]

  /** `! get_option('is_scheduled')` is false: the option is set to a truthy string. */
  predicate Scheduled(o: Options) {
    o.isScheduled.Some? && Truthy(o.isScheduled.value)
  }

  /** One intake request: the posted `access_token` (None when absent), the document, and the current time. */
  datatype Request = Request(accessToken: Option<string>, data: Doc, createdAt: string)

  /** `verify_access_token`: a token was sent, an access token is configured, and the two are identical. */
  function VerifyAccessToken(sent: Option<string>, configured: Option<string>): (ok: bool)
    ensures ok <==> sent.Some? && configured.Some? && sent.value == configured.value
    ensures sent.None? ==> !ok
  {
    sent.Some? && sent == configured
  }

  /** The `$row` that `handle` builds from the document: status new, no local post yet. */
  function NewRow(data: Doc, createdAt: string): Row {
    Row(0, None, data.post.canonicalUrl, data.post.title, data.post.name, data.post.channel, data.post.postType,
        data, New, createdAt)
  }

  /** The same `$row` as an update: every column it carries, with status update. */
  function RowPatch(data: Doc, createdAt: string): Patch {
    Patch(None, Some(data.post.canonicalUrl), Some(data.post.title), Some(data.post.name), Some(data.post.channel),
          Some(data.post.postType), Some(data), Some(Update), Some(createdAt))
  }

  /**
   * The staging upsert of `handle`. With no row for the key one row is
   * inserted with status new and its id is handed on; otherwise every row
   * of the key takes the new document, status update and the new
   * `created_at`, and the number of such rows (not an id) is handed on.
   */
  function Stage(st: Store, data: Doc, createdAt: string): (out: (Store, int))
    requires Valid(st)
    ensures Valid(out.0)
    ensures var n := CountAkPosts(st.rows, data.post.Key());
            n == 0 ==> out.1 == st.nextId && out.0.rows == st.rows + [NewRow(data, createdAt).(id := st.nextId)]
    ensures var n := CountAkPosts(st.rows, data.post.Key());
            n != 0 ==>
              && out.1 == n
              && |out.0.rows| == |st.rows| && out.0.nextId == st.nextId
              && forall i :: 0 <= i < |st.rows| ==>
                   out.0.rows[i] == (if st.rows[i].Key() == data.post.Key()
                                     then NewRow(data, createdAt).(id := st.rows[i].id, postId := st.rows[i].postId, status := Update)
                                     else st.rows[i])
    ensures forall k :: CountAkPosts(out.0.rows, k)
                        == CountAkPosts(st.rows, k) + (if k == data.post.Key() && CountAkPosts(st.rows, k) == 0 then 1 else 0)
  {
    var key := data.post.Key();
    var n := CountAkPosts(st.rows, key);
    if n != 0 then
      var p := RowPatch(data, createdAt);
      UpdateKeepsValid(st, p, key);
      KeepsCounts(st, p, key);
      RewrittenRows(st, data, createdAt);
      (UpdateAkPost(st, p, key), n)
    else
      InsertAkPost(st, NewRow(data, createdAt))
  }

  /** The update branch rewrites each row of the key to the new row, keeping its id and local post id. */
  lemma RewrittenRows(st: Store, data: Doc, createdAt: string)
    ensures var out := UpdateAkPost(st, RowPatch(data, createdAt), data.post.Key());
            forall i :: 0 <= i < |st.rows| ==>
              out.rows[i] == (if st.rows[i].Key() == data.post.Key()
                              then NewRow(data, createdAt).(id := st.rows[i].id, postId := st.rows[i].postId, status := Update)
                              else st.rows[i])
  {
    var out := UpdateAkPost(st, RowPatch(data, createdAt), data.post.Key());
    forall i | 0 <= i < |st.rows| && st.rows[i].Key() == data.post.Key()
      ensures out.rows[i] == NewRow(data, createdAt).(id := st.rows[i].id, postId := st.rows[i].postId, status := Update)
    {
      ApplyRowPatch(data, createdAt, st.rows[i]);
    }
  }

  lemma ApplyRowPatch(data: Doc, createdAt: string, r: Row)
    ensures Apply(RowPatch(data, createdAt), r) == NewRow(data, createdAt).(id := r.id, postId := r.postId, status := Update)
  {
  }

  lemma KeepsCounts(st: Store, p: Patch, key: PostKey)
    requires p.name == Some(key.name) && p.postType == Some(key.postType)
    ensures forall k :: CountAkPosts(UpdateAkPost(st, p, key).rows, k) == CountAkPosts(st.rows, k)
  {
    forall k ensures CountAkPosts(UpdateAkPost(st, p, key).rows, k) == CountAkPosts(st.rows, k) {
      UpdateKeepsCounts(st, p, key, k);
    }
  }

  /**
   * The imports `handle` runs at once, in order: none on a schedule;
   * otherwise a draft import when `auto_publish` is exactly "1", then a
   * publish import when it is exactly "2" or the type is always published.
   */
  function ImportPlan(o: Options, postType: string): (plan: seq<string>)
    ensures Scheduled(o) ==> plan == []
    ensures !Scheduled(o) ==> ("draft" in plan <==> o.autoPublish == Some("1"))
    ensures !Scheduled(o) ==> ("publish" in plan <==> o.autoPublish == Some("2") || postType in AlwaysPublish)
    ensures forall i :: 0 <= i < |plan| ==> plan[i] == "draft" || plan[i] == "publish"
    ensures forall i, j :: 0 <= i < j < |plan| ==> plan[i] == "draft" && plan[j] == "publish"
  {
    if Scheduled(o) then []
    else
      (if o.autoPublish == Some("1") then ["draft"] else [])
      + (if o.autoPublish == Some("2") || postType in AlwaysPublish then ["publish"] else [])
  }

  /** `import(id, status)` once per planned status, in order. */
  function RunImports(site: Site, id: int, plan: seq<string>, w: World): Site
    decreases |plan|
  {
    if |plan| == 0 then site else RunImports(Import(site, id, plan[0], w), id, plan[1..], w)
  }

  /**
   * `handle`: a request with a wrong or missing token changes nothing and
   * is refused; an accepted one is staged and then imported as planned.
   */
  function Handle(site: Site, req: Request, o: Options, w: World): (out: (Site, bool))
    requires Valid(site.staging)
    ensures out.1 <==> VerifyAccessToken(req.accessToken, o.accessToken)
    ensures !out.1 ==> out.0 == site
    ensures out.1 && Scheduled(o) ==> out.0 == site.(staging := Stage(site.staging, req.data, req.createdAt).0)
  {
    if !VerifyAccessToken(req.accessToken, o.accessToken) then (site, false)
    else
      var (st, lastId) := Stage(site.staging, req.data, req.createdAt);
      (RunImports(site.(staging := st), lastId, ImportPlan(o, req.data.post.postType), w), true)
  }

  /** Imports keep the staging table valid and every key's row count. */
  lemma {:induction false} RunImportsKeepStaging(site: Site, id: int, plan: seq<string>, w: World, key: PostKey)
    requires Valid(site.staging)
    ensures Valid(RunImports(site, id, plan, w).staging)
    ensures CountAkPosts(RunImports(site, id, plan, w).staging.rows, key) == CountAkPosts(site.staging.rows, key)
    decreases |plan|
  {
    if |plan| > 0 {
      ImportKeepsStaging(site, id, plan[0], w, key);
      RunImportsKeepStaging(Import(site, id, plan[0], w), id, plan[1..], w, key);
    }
  }

  /**
   * The upsert as a whole: an accepted request adds a staging row for its
   * key only when the key had none, and never changes another key's count.
   */
  lemma {:induction false} HandleUpserts(site: Site, req: Request, o: Options, w: World, k: PostKey)
    requires Valid(site.staging)
    ensures Valid(Handle(site, req, o, w).0.staging)
    ensures CountAkPosts(Handle(site, req, o, w).0.staging.rows, k)
            == CountAkPosts(site.staging.rows, k)
               + (if Handle(site, req, o, w).1 && k == req.data.post.Key() && CountAkPosts(site.staging.rows, k) == 0 then 1 else 0)
  {
    if VerifyAccessToken(req.accessToken, o.accessToken) {
      var (st, lastId) := Stage(site.staging, req.data, req.createdAt);
      RunImportsKeepStaging(site.(staging := st), lastId, ImportPlan(o, req.data.post.postType), w, k);
    }
  }

  /**
   * On the update path the id handed to `import` is the row count: with a
   * row of another key under id 1 and the updated key's single row under id
   * 2, the count 1 is handed on, which names the other key's row.
   */
  lemma CountHandedOnAsId(other: Row, mine: Row, data: Doc, createdAt: string)
    requires other.id == 1 && mine.id == 2
    requires mine.Key() == data.post.Key() && other.Key() != data.post.Key()
    ensures var st := Store([other, mine], 3);
            && Valid(st)
            && Stage(st, data, createdAt).1 == 1
            && GetAkPost(Stage(st, data, createdAt).0.rows, 1) == Some(other)
  {
    var st := Store([other, mine], 3);
    assert CountAkPosts(st.rows, data.post.Key()) == 1 by {
      assert KeyIndices(st.rows, data.post.Key()) == {1};
    }
  }

  /** In a valid table, the lookup by id finds the one row holding it. */
  lemma GetUnique(st: Store, i: nat)
    requires Valid(st) && i < |st.rows|
    ensures GetAkPost(st.rows, st.rows[i].id) == Some(st.rows[i])
  {
    var r := GetAkPost(st.rows, st.rows[i].id);
    var j :| 0 <= j < |st.rows| && st.rows[j] == r.value;
    assert !(j < i) && !(i < j);
  }

  /**
   * A new `special-content` post with `auto_publish` "1" is imported twice,
   * as a draft and then as published, and ends up published.
   */
  lemma {:induction false} DraftThenPublish(site: Site, req: Request, o: Options, w: World)
    requires Valid(site.staging)
    requires VerifyAccessToken(req.accessToken, o.accessToken) && !Scheduled(o)
    requires o.autoPublish == Some("1") && req.data.post.postType == "special-content"
    requires CountAkPosts(site.staging.rows, req.data.post.Key()) == 0
    ensures var out := Handle(site, req, o, w).0;
            && FindPost(out.posts, req.data.post.Key()).Some?
            && out.posts[FindPost(out.posts, req.data.post.Key()).value].status == "publish"
  {
    PlanDraftThenPublish(o, req.data.post.postType);
    var staged := Stage(site.staging, req.data, req.createdAt);
    var s0 := site.(staging := staged.0);
    StagedNewRowFound(site.staging, req.data, req.createdAt);
    ImportKeepsLookup(s0, staged.1, "draft", w, staged.1);
    var s1 := Import(s0, staged.1, "draft", w);
    HandleRunsPlan(site, req, o, w);
    RunDraftThenPublish(s0, staged.1, w);
    ImportEndsWithStatus(s1, staged.1, "publish", w, req.data.post);
  }

  /** Both imports are planned, the draft first, for an always-published type while `auto_publish` is "1". */
  lemma PlanDraftThenPublish(o: Options, postType: string)
    requires !Scheduled(o) && o.autoPublish == Some("1") && postType in AlwaysPublish
    ensures ImportPlan(o, postType) == ["draft", "publish"]
  {
  }

  /** `import` of a row whose document holds `post` leaves that post findable with the given status. */
  lemma ImportEndsWithStatus(site: Site, id: int, status: string, w: World, post: Post)
    requires GetAkPost(site.staging.rows, id).Some? && GetAkPost(site.staging.rows, id).value.data.post == post
    ensures var out := Import(site, id, status, w);
            FindPost(out.posts, post.Key()).Some? && out.posts[FindPost(out.posts, post.Key()).value].status == status
  {
  }

  lemma HandleRunsPlan(site: Site, req: Request, o: Options, w: World)
    requires Valid(site.staging) && VerifyAccessToken(req.accessToken, o.accessToken)
    ensures var staged := Stage(site.staging, req.data, req.createdAt);
            Handle(site, req, o, w).0 == RunImports(site.(staging := staged.0), staged.1, ImportPlan(o, req.data.post.postType), w)
  {
  }

  lemma RunDraftThenPublish(s0: Site, id: int, w: World)
    ensures RunImports(s0, id, ["draft", "publish"], w) == Import(Import(s0, id, "draft", w), id, "publish", w)
  {
    var s1 := Import(s0, id, "draft", w);
    assert RunImports(s0, id, ["draft", "publish"], w) == RunImports(s1, id, ["publish"], w);
    assert RunImports(s1, id, ["publish"], w) == RunImports(Import(s1, id, "publish", w), id, [], w);
  }

  /** A freshly inserted row is what `import` finds under the id handed on. */
  lemma StagedNewRowFound(st: Store, data: Doc, createdAt: string)
    requires Valid(st) && CountAkPosts(st.rows, data.post.Key()) == 0
    ensures var out := Stage(st, data, createdAt);
            Valid(out.0) && GetAkPost(out.0.rows, out.1).Some? && GetAkPost(out.0.rows, out.1).value.data == data
  {
    var out := Stage(st, data, createdAt);
    GetUnique(out.0, |st.rows|);
  }

  /** `import` keeps every row's id and document, so a row found before is found, with its document, after. */
  lemma {:induction false} ImportKeepsLookup(site: Site, id: int, status: string, w: World, target: int)
    requires Valid(site.staging) && GetAkPost(site.staging.rows, target).Some?
    ensures var out := Import(site, id, status, w);
            GetAkPost(out.staging.rows, target).Some?
            && GetAkPost(out.staging.rows, target).value.data == GetAkPost(site.staging.rows, target).value.data
  {
    var rows := site.staging.rows;
    var i :| 0 <= i < |rows| && rows[i] == GetAkPost(rows, target).value;
    var out := Import(site, id, status, w);
    ImportKeepsRows(site, id, status, w);
    SameIdsAndKeys(site.staging, out.staging, rows[i].Key());
    GetUnique(out.staging, i);
    assert out.staging.rows[i].id == target && out.staging.rows[i].data == rows[i].data;
  }
}

=== FILE: materializer.dfy ===
/**
 * The importer's materialization of one staged document (`import` and the
 * steps it runs in order: author, post, tracking info, meta, terms, images)
 * over an abstract destination site. WordPress's own storage is modelled as
 * plain sequences and maps; what WordPress decides on its own (whether an
 * insert succeeds, thumbnail URLs, remote fetches) comes from a `World` of
 * oracles.
 */
module Materializer {
  import opened Wrappers
  import opened Text
  import opened Document
  import opened Staging
  import Decoder
  import TermImport
  import FieldFilter
  import Sentinel

  /** A post of the destination site. */
  datatype LocalPost = LocalPost(
    id: int,
    name: string,
    title: string,
    excerpt: string,
    content: string,
    status: string,
    postType: string,
    author: Option<int>)
  {
    function Key(): PostKey { PostKey(name, postType) }
  }

  /** The destination site: the staging table, posts, users, terms, term assignments, post meta and the asset cache. */
  datatype Site = Site(
    staging: Store,
    posts: seq<LocalPost>,
    nextPostId: int,
    users: FieldFilter.Users,
    terms: TermImport.TermStore,
    postTerms: map<(int, string), seq<int>>,
    meta: map<(int, string), MetaValue>,
    assets: Decoder.Assets)

  /**
   * What the model leaves to WordPress: remote fetches and attachment URLs
   * (`decode`), whether `wp_insert_user` and `wp_insert_term` succeed, and
   * the thumbnail URL of an attachment id.
   */
  datatype World = World(
    decode: Decoder.Env,
    insertUser: FieldFilter.Record -> bool,
    insertTerm: ExportedTerm -> bool,
    thumbnail: string -> string)

  /** `post_exists(name, type)`: the position of the first local post with that name and type. */
  function FindPost(posts: seq<LocalPost>, key: PostKey): (r: Option<nat>)
    ensures r.None? <==> forall i :: 0 <= i < |posts| ==> posts[i].Key() != key
    ensures r.Some? ==> r.value < |posts| && posts[r.value].Key() == key
                        && forall j :: 0 <= j < r.value ==> posts[j].Key() != key
    decreases |posts|
  {
    if |posts| == 0 then None
    else if posts[0].Key() == key then Some(0)
    else
      match FindPost(posts[1..], key)
      case None => None
      case Some(i) => Some(i + 1)
  }

  // ---------------------------------------------------------------------
  // `import_post`
  // ---------------------------------------------------------------------

  /** The staging patch `import_post` applies: the local post id, and status up-to-date. */
  function Imported(postId: int): Patch {
    NoChange.(postId := Some(postId), status := Some(UpToDate))
  }

  /**
   * `import_post(post, status, author)`: the content is decoded; the first
   * local post with the same name and type is overwritten in place and keeps
   * its id, otherwise a post is inserted under the next id; the status is
   * always the one given; finally every staging row of that name and type
   * records the post id and becomes up-to-date.
   */
  function ImportPost(site: Site, post: Post, status: string, author: Option<int>, w: World): (out: (Site, int))
    ensures var decoded := Decoder.Decode(post.content, site.assets, w.decode);
            var written := LocalPost(out.1, post.name, post.title, post.excerpt, decoded.0, status, post.postType, author);
            && out.0.assets == decoded.1
            && (match FindPost(site.posts, post.Key())
                case Some(i) =>
                  out.1 == site.posts[i].id && out.0.posts == site.posts[i := written] && out.0.nextPostId == site.nextPostId
                case None =>
                  out.1 == site.nextPostId && out.0.posts == site.posts + [written] && out.0.nextPostId == site.nextPostId + 1)
    ensures |out.0.staging.rows| == |site.staging.rows| && out.0.staging.nextId == site.staging.nextId
    ensures forall i :: 0 <= i < |site.staging.rows| ==>
              out.0.staging.rows[i] == (if site.staging.rows[i].Key() == post.Key()
                                        then site.staging.rows[i].(postId := Some(out.1), status := UpToDate)
                                        else site.staging.rows[i])
    ensures out.0.users == site.users && out.0.terms == site.terms && out.0.postTerms == site.postTerms && out.0.meta == site.meta
  {
    var (content, assets) := Decoder.Decode(post.content, site.assets, w.decode);
    var key := post.Key();
    var (posts, nextPostId, id) :=
      match FindPost(site.posts, key)
      case Some(i) =>
        (site.posts[i := LocalPost(site.posts[i].id, post.name, post.title, post.excerpt, content, status, post.postType, author)],
         site.nextPostId, site.posts[i].id)
      case None =>
        (site.posts + [LocalPost(site.nextPostId, post.name, post.title, post.excerpt, content, status, post.postType, author)],
         site.nextPostId + 1, site.nextPostId);
    var staging := UpdateAkPost(site.staging, Imported(id), key);
    (site.(staging := staging, posts := posts, nextPostId := nextPostId, assets := assets), id)
  }

  /**
   * After `import_post` the post is found under its name and type, holding
   * the returned id and the given status, and the number of local posts grew
   * by one exactly when none had that name and type before.
   */
  lemma {:induction false} ImportPostFindable(site: Site, post: Post, status: string, author: Option<int>, w: World)
    ensures var out := ImportPost(site, post, status, author, w);
            && FindPost(out.0.posts, post.Key()).Some?
            && out.0.posts[FindPost(out.0.posts, post.Key()).value].id == out.1
            && out.0.posts[FindPost(out.0.posts, post.Key()).value].status == status
            && |out.0.posts| == |site.posts| + (if FindPost(site.posts, post.Key()).None? then 1 else 0)
  {
    var out := ImportPost(site, post, status, author, w);
    var key := post.Key();
    match FindPost(site.posts, key)
    case Some(i) =>
      assert forall j :: 0 <= j < i ==> out.0.posts[j] == site.posts[j];
      FindPostIs(out.0.posts, key, i);
    case None =>
      var n := |site.posts|;
      assert forall j :: 0 <= j < n ==> out.0.posts[j] == site.posts[j];
      FindPostIs(out.0.posts, key, n);
  }

  lemma FindPostIs(posts: seq<LocalPost>, key: PostKey, i: nat)
    requires i < |posts| && posts[i].Key() == key && forall j :: 0 <= j < i ==> posts[j].Key() != key
    ensures FindPost(posts, key) == Some(i)
  {
    var f := FindPost(posts, key);
    assert f.Some?;
    assert !(f.value < i) && !(i < f.value);
  }

  /** Importing the same post twice keeps one local post: the second import overwrites the first under the same id. */
  lemma {:induction false} ImportPostTwice(site: Site, post: Post, s1: string, s2: string, author: Option<int>, w: World)
    ensures var first := ImportPost(site, post, s1, author, w);
            var second := ImportPost(first.0, post, s2, author, w);
            second.1 == first.1 && |second.0.posts| == |first.0.posts|
  {
    ImportPostFindable(site, post, s1, author, w);
  }

  // ---------------------------------------------------------------------
  // `add_post_tracking_info`
  // ---------------------------------------------------------------------

  /** The term `add_post_tracking_info` creates for a channel: name and slug are the channel, at the root. */
  function ChannelTerm(channel: string): ExportedTerm {
    ExportedTerm(0, channel, channel, "channel", "", 0, None)
  }

  /** `wp_set_post_terms(..., append = true)`: the ids not already assigned are added at the end. */
  function AppendTerms(existing: seq<int>, ids: seq<int>): (r: seq<int>)
    ensures forall x :: x in r <==> x in existing || x in ids
    ensures |r| >= |existing| && r[..|existing|] == existing
    decreases |ids|
  {
    if |ids| == 0 then existing
    else
      var next := if ids[0] in existing then existing else existing + [ids[0]];
      var r := AppendTerms(next, ids[1..]);
      assert r[..|existing|] == r[..|next|][..|existing|];
      r
  }

  function Assigned(postTerms: map<(int, string), seq<int>>, postId: int, taxonomy: string): seq<int> {
    if (postId, taxonomy) in postTerms then postTerms[(postId, taxonomy)] else []
  }

  /**
   * `add_post_tracking_info(post_id, post)`: the canonical URL and channel go
   * into meta; the channel term (reused, or created when `wp_insert_term`
   * succeeds) is added to the post's channel terms.
   */
  function AddTrackingInfo(site: Site, postId: int, post: Post, w: World): (out: Site)
    ensures out.meta == site.meta[(postId, "canonical_url") := Text(post.canonicalUrl)][(postId, "channel") := Text(post.channel)]
    ensures out.terms == TermImport.ImportOne(site.terms, ChannelTerm(post.channel), [], w.insertTerm).0
    ensures TermImport.TermExists(site.terms, post.channel, "channel").Some? ==>
              out.terms == site.terms
              && TermImport.TermExists(site.terms, post.channel, "channel").value in Assigned(out.postTerms, postId, "channel")
    ensures TermImport.TermExists(site.terms, post.channel, "channel").None? && w.insertTerm(ChannelTerm(post.channel)) ==>
              out.terms.terms == site.terms.terms + [TermImport.LocalTerm(site.terms.nextId, post.channel, post.channel, "channel", "", 0)]
              && site.terms.nextId in Assigned(out.postTerms, postId, "channel")
    ensures TermImport.TermExists(site.terms, post.channel, "channel").None? && !w.insertTerm(ChannelTerm(post.channel)) ==>
              out.terms == site.terms && out.postTerms == site.postTerms
    ensures forall pk :: pk != (postId, "channel") ==> (pk in out.postTerms <==> pk in site.postTerms)
    ensures forall pk :: pk in site.postTerms && pk != (postId, "channel") ==> out.postTerms[pk] == site.postTerms[pk]
    ensures forall x :: x in Assigned(site.postTerms, postId, "channel") ==> x in Assigned(out.postTerms, postId, "channel")
    ensures out.staging == site.staging && out.posts == site.posts && out.nextPostId == site.nextPostId
    ensures out.users == site.users && out.assets == site.assets
  {
    var meta := site.meta[(postId, "canonical_url") := Text(post.canonicalUrl)][(postId, "channel") := Text(post.channel)];
    var (terms, resp) := TermImport.ImportOne(site.terms, ChannelTerm(post.channel), [], w.insertTerm);
    var postTerms :=
      if |resp| == 1 then site.postTerms[(postId, "channel") := AppendTerms(Assigned(site.postTerms, postId, "channel"), [resp[0].id])]
      else site.postTerms;
    site.(meta := meta, terms := terms, postTerms := postTerms)
  }

  /** Afterwards the post carries the channel term whenever the site has one: it was reused or just created. */
  lemma TrackingAssignsChannel(site: Site, postId: int, post: Post, w: World)
    ensures var out := AddTrackingInfo(site, postId, post, w);
            TermImport.TermExists(out.terms, post.channel, "channel").Some? ==>
              TermImport.TermExists(out.terms, post.channel, "channel").value in Assigned(out.postTerms, postId, "channel")
  {
    var t := ChannelTerm(post.channel);
    if TermImport.TermExists(site.terms, post.channel, "channel").None? && w.insertTerm(t) {
      TermImport.ImportOneAnswers(site.terms, t, [], w.insertTerm);
    }
  }

  /** Adding the tracking info a second time changes nothing. */
  lemma TrackingIdempotent(site: Site, postId: int, post: Post, w: World)
    ensures var once := AddTrackingInfo(site, postId, post, w);
            AddTrackingInfo(once, postId, post, w) == once
  {
    var t := ChannelTerm(post.channel);
    var once := AddTrackingInfo(site, postId, post, w);
    var twice := AddTrackingInfo(once, postId, post, w);
    if TermImport.TermExists(site.terms, post.channel, "channel").None? && w.insertTerm(t) {
      TermImport.ImportOneAnswers(site.terms, t, [], w.insertTerm);
    }
    if TermImport.TermExists(once.terms, post.channel, "channel").Some? {
      TrackingAssignsChannel(site, postId, post, w);
      var id := TermImport.TermExists(once.terms, post.channel, "channel").value;
      assert AppendTerms(Assigned(once.postTerms, postId, "channel"), [id]) == Assigned(once.postTerms, postId, "channel");
      assert twice.postTerms == once.postTerms;
    }
    assert twice.meta == once.meta;
  }

  // ---------------------------------------------------------------------
  // `assign_post_meta`
  // ---------------------------------------------------------------------

  /** The local id of a linked term, as text, or "" when it is missing here or absent from the value. */
  function LocalTermText(terms: TermImport.TermStore, v: MetaValue): (t: string)
    ensures v.LinkedTerm? && v.term.Some? && TermImport.TermExists(terms, v.term.value.slug, v.term.value.taxonomy).Some? ==>
              t == IntToString(TermImport.TermExists(terms, v.term.value.slug, v.term.value.taxonomy).value)
    ensures t == "" <==> !(v.LinkedTerm? && v.term.Some? && TermImport.TermExists(terms, v.term.value.slug, v.term.value.taxonomy).Some?)
  {
    match v
    case LinkedTerm(Some(k)) =>
      (match TermImport.TermExists(terms, k.slug, k.taxonomy)
       case Some(id) => NotEmpty(id); IntToString(id)
       case None => "")
    case _ => ""
  }

  /** The local id of a linked post, as text, or "" when it is missing here or absent from the value. */
  function LocalPostText(posts: seq<LocalPost>, v: MetaValue): (t: string)
    ensures v.LinkedPost? && v.target.Some? && FindPost(posts, v.target.value).Some? ==>
              t == IntToString(posts[FindPost(posts, v.target.value).value].id)
    ensures t == "" <==> !(v.LinkedPost? && v.target.Some? && FindPost(posts, v.target.value).Some?)
  {
    match v
    case LinkedPost(Some(k)) =>
      (match FindPost(posts, k)
       case Some(i) => NotEmpty(posts[i].id); IntToString(posts[i].id)
       case None => "")
    case _ => ""
  }

  lemma NotEmpty(n: int)
    ensures IntToString(n) != ""
  {
    if n == 0 {
      assert IntToString(n) == "0";
    }
  }

  /**
   * The value stored for one meta key: image ids and srcs are decoded, the
   * serialized record has its url and id decoded and its thumbnail looked up
   * from the decoded id, linked terms and posts become local ids, and
   * anything else is stored as sent.
   */
  function ImportValue(site: Site, key: string, v: MetaValue, w: World): (out: (MetaValue, Decoder.Assets))
    ensures Kind(key) == Plain ==> out == (v, site.assets)
    ensures Kind(key) == TermId ==> out == (Text(LocalTermText(site.terms, v)), site.assets)
    ensures Kind(key) == LinkedPostId ==> out == (Text(LocalPostText(site.posts, v)), site.assets)
    ensures Kind(key) == ImageId ==>
              var d := Decoder.Decode(AsText(v), site.assets, w.decode);
              out == (Text(d.0), d.1)
    ensures Kind(key) == SerializedImage ==>
              var u := Decoder.Decode(AsRecord(v).url, site.assets, w.decode);
              var i := Decoder.Decode(AsRecord(v).id, u.1, w.decode);
              out == (Record(u.0, i.0, w.thumbnail(i.0)), i.1)
  {
    match Kind(key)
    case ImageId | ImageSrc =>
      var (t, a) := Decoder.Decode(AsText(v), site.assets, w.decode);
      (Text(t), a)
    case SerializedImage =>
      var rec := AsRecord(v);
      var (url, a1) := Decoder.Decode(rec.url, site.assets, w.decode);
      var (id, a2) := Decoder.Decode(rec.id, a1, w.decode);
      (Record(url, id, w.thumbnail(id)), a2)
    case TermId => (Text(LocalTermText(site.terms, v)), site.assets)
    case LinkedPostId => (Text(LocalPostText(site.posts, v)), site.assets)
    case Plain => (v, site.assets)
  }

  /** One iteration of `assign_post_meta`: excluded keys are skipped, any other key is written. */
  function MetaStep(site: Site, postId: int, key: string, v: MetaValue, w: World): (out: Site)
    ensures key in ExcludedKeys ==> out == site
    ensures key !in ExcludedKeys ==>
              out == site.(meta := site.meta[(postId, key) := ImportValue(site, key, v, w).0],
                           assets := ImportValue(site, key, v, w).1)
  {
    if key in ExcludedKeys then site
    else
      var (stored, assets) := ImportValue(site, key, v, w);
      site.(meta := site.meta[(postId, key) := stored], assets := assets)
  }

  /**
   * `assign_post_meta(post_id, meta)`: each entry in order. Meta of other
   * posts, and the excluded keys of this one, are left as they were.
   */
  function AssignPostMeta(site: Site, postId: int, meta: seq<(string, MetaValue)>, w: World): (out: Site)
    ensures forall pk: (int, string) :: pk.0 != postId || pk.1 in ExcludedKeys ==>
              (pk in out.meta <==> pk in site.meta) && (pk in site.meta ==> out.meta[pk] == site.meta[pk])
    ensures forall i :: 0 <= i < |meta| && meta[i].0 !in ExcludedKeys ==> (postId, meta[i].0) in out.meta
    ensures forall pk :: pk in site.meta ==> pk in out.meta
    ensures out.staging == site.staging && out.posts == site.posts && out.nextPostId == site.nextPostId
    ensures out.users == site.users && out.terms == site.terms && out.postTerms == site.postTerms
    decreases |meta|
  {
    if |meta| == 0 then site
    else
      var next := MetaStep(site, postId, meta[0].0, meta[0].1, w);
      var out := AssignPostMeta(next, postId, meta[1..], w);
      assert forall i :: 1 <= i < |meta| ==> meta[i] == meta[1..][i - 1];
      out
  }

  /**
   * A key that is not excluded, is of no special kind and is not sent again
   * later in the list is stored exactly as sent.
   */
  lemma {:induction false} PlainMetaStoredAsSent(site: Site, postId: int, meta: seq<(string, MetaValue)>, w: World, i: nat)
    requires i < |meta| && meta[i].0 !in ExcludedKeys && Kind(meta[i].0) == Plain
    requires forall j :: i < j < |meta| ==> meta[j].0 != meta[i].0
    ensures (postId, meta[i].0) in AssignPostMeta(site, postId, meta, w).meta
    ensures AssignPostMeta(site, postId, meta, w).meta[(postId, meta[i].0)] == meta[i].1
    decreases i
  {
    var next := MetaStep(site, postId, meta[0].0, meta[0].1, w);
    if i == 0 {
      LaterKeysKeep(next, postId, meta[1..], w, meta[0].0);
    } else {
      assert forall j :: i - 1 < j < |meta| - 1 ==> meta[1..][j] == meta[j + 1];
      PlainMetaStoredAsSent(next, postId, meta[1..], w, i - 1);
    }
  }

  /**
   * Any key that is not excluded and is not sent again later in the list
   * ends up holding its value as `ImportValue` turns it back into a local
   * one, against the site as the earlier entries left it: image sentinels
   * decoded, serialized images rebuilt, linked terms and posts as local ids.
   */
  lemma {:induction false} StoredAsImported(site: Site, postId: int, meta: seq<(string, MetaValue)>, w: World, i: nat)
    requires i < |meta| && meta[i].0 !in ExcludedKeys
    requires forall j :: i < j < |meta| ==> meta[j].0 != meta[i].0
    ensures (postId, meta[i].0) in AssignPostMeta(site, postId, meta, w).meta
    ensures AssignPostMeta(site, postId, meta, w).meta[(postId, meta[i].0)]
            == ImportValue(AssignPostMeta(site, postId, meta[..i], w), meta[i].0, meta[i].1, w).0
    decreases i
  {
    var next := MetaStep(site, postId, meta[0].0, meta[0].1, w);
    if i == 0 {
      assert meta[..0] == [];
      LaterKeysKeep(next, postId, meta[1..], w, meta[0].0);
    } else {
      assert forall j :: i - 1 < j < |meta| - 1 ==> meta[1..][j] == meta[j + 1];
      StoredAsImported(next, postId, meta[1..], w, i - 1);
      assert meta[..i][0] == meta[0] && meta[..i][1..] == meta[1..][..i - 1];
      assert AssignPostMeta(site, postId, meta[..i], w) == AssignPostMeta(next, postId, meta[1..][..i - 1], w);
    }
  }

  /** A key the rest of the list does not mention keeps its stored value. */
  lemma {:induction false} LaterKeysKeep(site: Site, postId: int, meta: seq<(string, MetaValue)>, w: World, key: string)
    requires forall j :: 0 <= j < |meta| ==> meta[j].0 != key
    requires (postId, key) in site.meta
    ensures (postId, key) in AssignPostMeta(site, postId, meta, w).meta
    ensures AssignPostMeta(site, postId, meta, w).meta[(postId, key)] == site.meta[(postId, key)]
    decreases |meta|
  {
    if |meta| > 0 {
      var next := MetaStep(site, postId, meta[0].0, meta[0].1, w);
      assert forall j :: 0 <= j < |meta| - 1 ==> meta[1..][j] == meta[j + 1];
      LaterKeysKeep(next, postId, meta[1..], w, key);
    }
  }

  // ---------------------------------------------------------------------
  // `assign_post_terms` and `import_and_assign_images_to_post`
  // ---------------------------------------------------------------------

  /** The taxonomies the groups name. */
  function Taxonomies(groups: seq<(string, seq<int>)>): set<string> {
    set i | 0 <= i < |groups| :: groups[i].0
  }

  /** `wp_set_post_terms(post_id, ids, taxonomy)` for each group, in order. */
  function SetPostTerms(postTerms: map<(int, string), seq<int>>, postId: int, groups: seq<(string, seq<int>)>)
    : map<(int, string), seq<int>>
    decreases |groups|
  {
    if |groups| == 0 then postTerms
    else SetPostTerms(postTerms[(postId, groups[0].0) := groups[0].1], postId, groups[1..])
  }

  /** The assignments made are exactly the old ones plus one per listed taxonomy of this post. */
  lemma {:induction false} SetPostTermsKeys(postTerms: map<(int, string), seq<int>>, postId: int, groups: seq<(string, seq<int>)>)
    ensures SetPostTerms(postTerms, postId, groups).Keys == postTerms.Keys + set tax | tax in Taxonomies(groups) :: (postId, tax)
    decreases |groups|
  {
    if |groups| > 0 {
      SetPostTermsKeys(postTerms[(postId, groups[0].0) := groups[0].1], postId, groups[1..]);
      TaxonomiesTail(groups);
    }
  }

  /** Other posts' terms, and this post's terms in unlisted taxonomies, are untouched. */
  lemma {:induction false} SetPostTermsKeepsOthers(postTerms: map<(int, string), seq<int>>, postId: int, groups: seq<(string, seq<int>)>,
                                                   pk: (int, string))
    requires pk in postTerms && (pk.0 != postId || pk.1 !in Taxonomies(groups))
    ensures pk in SetPostTerms(postTerms, postId, groups) && SetPostTerms(postTerms, postId, groups)[pk] == postTerms[pk]
    decreases |groups|
  {
    if |groups| > 0 {
      TaxonomiesTail(groups);
      SetPostTermsKeepsOthers(postTerms[(postId, groups[0].0) := groups[0].1], postId, groups[1..], pk);
    }
  }

  /** With one group per taxonomy, each listed taxonomy of the post ends up holding exactly its group's ids. */
  lemma {:induction false} SetPostTermsAssigns(postTerms: map<(int, string), seq<int>>, postId: int, groups: seq<(string, seq<int>)>,
                                               i: nat)
    requires TermImport.Distinct(groups) && i < |groups|
    ensures (postId, groups[i].0) in SetPostTerms(postTerms, postId, groups)
    ensures SetPostTerms(postTerms, postId, groups)[(postId, groups[i].0)] == groups[i].1
    decreases |groups|
  {
    TaxonomiesTail(groups);
    var next := postTerms[(postId, groups[0].0) := groups[0].1];
    if i == 0 {
      assert groups[0].0 !in Taxonomies(groups[1..]);
      SetPostTermsKeepsOthers(next, postId, groups[1..], (postId, groups[0].0));
    } else {
      SetPostTermsAssigns(next, postId, groups[1..], i - 1);
    }
  }

  lemma TaxonomiesTail(groups: seq<(string, seq<int>)>)
    requires |groups| > 0
    ensures Taxonomies(groups) == {groups[0].0} + Taxonomies(groups[1..])
    ensures forall i :: 1 <= i < |groups| ==> groups[i] == groups[1..][i - 1]
  {
    assert forall i :: 1 <= i < |groups| ==> groups[i] == groups[1..][i - 1];
    forall tax | tax in Taxonomies(groups)
      ensures tax in {groups[0].0} + Taxonomies(groups[1..])
    {
      var i :| 0 <= i < |groups| && groups[i].0 == tax;
      if i > 0 {
        assert groups[1..][i - 1].0 == tax;
      }
    }
    forall tax | tax in Taxonomies(groups[1..])
      ensures tax in Taxonomies(groups)
    {
      var i :| 0 <= i < |groups[1..]| && groups[1..][i].0 == tax;
      assert groups[i + 1].0 == tax;
    }
  }

  /**
   * `import_and_assign_images_to_post`: the images are saved in order until
   * one yields a non-zero id. Only their URLs are fetched, at most one fetch
   * per image.
   */
  function ImportImages(assets: Decoder.Assets, images: seq<Image>, w: World): (out: (bool, Decoder.Assets))
    decreases |images|
  {
    if |images| == 0 then (false, assets)
    else
      var (id, a) := Decoder.SaveImage(images[0].guid, assets, w.decode);
      if id.Some? && id.value != 0 then (true, a)
      else ImportImages(a, images[1..], w)
  }

  /** Saving images only appends to the fetch log, at most one fetch per image. */
  lemma {:induction false} ImagesFetchAtMostOnce(assets: Decoder.Assets, images: seq<Image>, w: World)
    ensures var f := ImportImages(assets, images, w).1.fetched;
            Decoder.Extends(assets.fetched, f) && |f| <= |assets.fetched| + |images|
    decreases |images|
  {
    if |images| > 0 {
      var saved := Decoder.SaveImage(images[0].guid, assets, w.decode);
      SaveImageFetchesItsUrl(images[0].guid, assets, w.decode);
      if !(saved.0.Some? && saved.0.value != 0) {
        ImagesFetchAtMostOnce(saved.1, images[1..], w);
        var f := ImportImages(saved.1, images[1..], w).1.fetched;
        assert f[..|assets.fetched|] == f[..|saved.1.fetched|][..|assets.fetched|];
      }
    }
  }

  /** Every URL the image step fetches is the guid of one of the post's images. */
  lemma {:induction false} ImagesFetchOnlyTheirUrls(assets: Decoder.Assets, images: seq<Image>, w: World)
    ensures var f := ImportImages(assets, images, w).1.fetched;
            forall i :: |assets.fetched| <= i < |f| ==> f[i] in Guids(images)
    decreases |images|
  {
    if |images| > 0 {
      var saved := Decoder.SaveImage(images[0].guid, assets, w.decode);
      var a := saved.1;
      SaveImageFetchesItsUrl(images[0].guid, assets, w.decode);
      if !(saved.0.Some? && saved.0.value != 0) {
        ImagesFetchOnlyTheirUrls(a, images[1..], w);
        ImagesFetchAtMostOnce(a, images[1..], w);
        var f := ImportImages(a, images[1..], w).1.fetched;
        assert ImportImages(assets, images, w).1.fetched == f;
        forall i | |assets.fetched| <= i < |f|
          ensures f[i] in Guids(images)
        {
          if i < |a.fetched| {
            assert f[i] == f[..|a.fetched|][i] == a.fetched[i] == images[0].guid == Guids(images)[0];
          } else {
            var j :| 0 <= j < |images| - 1 && Guids(images[1..])[j] == f[i];
            assert Guids(images)[j + 1] == f[i];
          }
        }
      }
    }
  }

  /** `save_image_to_post` fetches nothing, or exactly its own URL. */
  lemma SaveImageFetchesItsUrl(url: string, a: Decoder.Assets, env: Decoder.Env)
    ensures var f := Decoder.SaveImage(url, a, env).1.fetched;
            f == a.fetched || f == a.fetched + [url]
  {
  }

  /** The images' remote URLs, in order. */
  function Guids(images: seq<Image>): (r: seq<string>)
    ensures |r| == |images| && forall j :: 0 <= j < |images| ==> r[j] == images[j].guid
  {
    seq(|images|, j requires 0 <= j < |images| => images[j].guid)
  }

  /** When the first image is already cached, the post's images are settled without any fetch. */
  lemma {:induction false} CachedImageNeedsNoFetch(assets: Decoder.Assets, images: seq<Image>, w: World)
    requires |images| > 0 && Decoder.CacheHit(assets, Sentinel.Id, images[0].guid, w.decode).Some?
    ensures ImportImages(assets, images, w) == (true, assets)
  {
  }

  // ---------------------------------------------------------------------
  // `import`
  // ---------------------------------------------------------------------

  /**
   * What `import` promises about the staging table and the local posts:
   * every row keeps its id, key and document; the post under `key` is
   * findable with `status`; and every row of that key is marked up to date
   * with that post's id.
   */
  predicate MarksImported(before: Store, after: Store, posts: seq<LocalPost>, key: PostKey, status: string) {
    && |after.rows| == |before.rows| && after.nextId == before.nextId
    && (forall i :: 0 <= i < |before.rows| ==>
          && after.rows[i].id == before.rows[i].id
          && after.rows[i].Key() == before.rows[i].Key()
          && after.rows[i].data == before.rows[i].data)
    && FindPost(posts, key).Some?
    && posts[FindPost(posts, key).value].status == status
    && forall i :: 0 <= i < |after.rows| && after.rows[i].Key() == key ==>
         after.rows[i].status == UpToDate && after.rows[i].postId == Some(posts[FindPost(posts, key).value].id)
  }

  /**
   * `import(id, status)`: nothing when no staging row has that id; otherwise
   * the row's document is materialized, step by step, and its post ends up
   * findable by name and type with the given status.
   */
  function Import(site: Site, stagingId: int, status: string, w: World): (out: Site)
    ensures GetAkPost(site.staging.rows, stagingId).None? ==> out == site
    ensures GetAkPost(site.staging.rows, stagingId).Some? ==>
              MarksImported(site.staging, out.staging, out.posts, GetAkPost(site.staging.rows, stagingId).value.data.post.Key(), status)
  {
    match GetAkPost(site.staging.rows, stagingId)
    case None => site
    case Some(row) => Materialize(site, row.data, status, w)
  }

  /** The body of `import` for a found row: author, then post, then everything attached to the post. */
  function Materialize(site: Site, doc: Doc, status: string, w: World): (out: Site)
    ensures MarksImported(site.staging, out.staging, out.posts, doc.post.Key(), status)
  {
    var imported := FieldFilter.ImportAuthor(site.users, doc.author, w.insertUser);
    var s0 := site.(users := imported.0);
    var written := ImportPost(s0, doc.post, status, imported.1.AuthorId(), w);
    ImportPostMarksStaging(s0, doc.post, status, imported.1.AuthorId(), w);
    AttachToPost(written.0, written.1, doc, w)
  }

  /** `import_post` establishes what `import` promises. */
  lemma ImportPostMarksStaging(site: Site, post: Post, status: string, author: Option<int>, w: World)
    ensures var out := ImportPost(site, post, status, author, w).0;
            MarksImported(site.staging, out.staging, out.posts, post.Key(), status)
  {
    var out := ImportPost(site, post, status, author, w);
    ImportPostFindable(site, post, status, author, w);
    assert out.0.staging == UpdateAkPost(site.staging, Imported(out.1), post.Key());
    MarkedRows(site.staging, out.1, post.Key());
  }

  /** Marking a key's rows imported keeps every row's id, key and document, and sets the key's status and post id. */
  lemma MarkedRows(st: Store, postId: int, key: PostKey)
    ensures var out := UpdateAkPost(st, Imported(postId), key);
            && |out.rows| == |st.rows| && out.nextId == st.nextId
            && (forall i :: 0 <= i < |st.rows| ==>
                  && out.rows[i].id == st.rows[i].id
                  && out.rows[i].Key() == st.rows[i].Key()
                  && out.rows[i].data == st.rows[i].data)
            && forall i :: 0 <= i < |out.rows| && out.rows[i].Key() == key ==>
                 out.rows[i].status == UpToDate && out.rows[i].postId == Some(postId)
  {
  }

  /** The steps after `import_post`: tracking info, meta, terms and images. None of them touches posts or staging. */
  function AttachToPost(site: Site, postId: int, doc: Doc, w: World): (out: Site)
    ensures out.staging == site.staging && out.posts == site.posts && out.nextPostId == site.nextPostId
  {
    var s1 := AddTrackingInfo(site, postId, doc.post, w);
    var s2 := AssignPostMeta(s1, postId, doc.meta, w);
    var (terms, resp) := TermImport.ImportTerms(s2.terms, doc.terms, w.insertTerm);
    var s3 := s2.(terms := terms, postTerms := SetPostTerms(s2.postTerms, postId, TermImport.AssignPostTerms(resp)));
    s3.(assets := ImportImages(s3.assets, doc.images, w).1)
  }

  /** Importing keeps the staging table's ids and keys, so it keeps the table valid and every key's row count. */
  lemma {:induction false} ImportKeepsStaging(site: Site, stagingId: int, status: string, w: World, key: PostKey)
    requires Valid(site.staging)
    ensures Valid(Import(site, stagingId, status, w).staging)
    ensures CountAkPosts(Import(site, stagingId, status, w).staging.rows, key) == CountAkPosts(site.staging.rows, key)
  {
    ImportKeepsRows(site, stagingId, status, w);
    SameIdsAndKeys(site.staging, Import(site, stagingId, status, w).staging, key);
  }

  /** `import` keeps every staging row's id, key and document, found or not. */
  lemma ImportKeepsRows(site: Site, stagingId: int, status: string, w: World)
    ensures var out := Import(site, stagingId, status, w).staging;
            && |out.rows| == |site.staging.rows| && out.nextId == site.staging.nextId
            && forall i :: 0 <= i < |site.staging.rows| ==>
                 && out.rows[i].id == site.staging.rows[i].id
                 && out.rows[i].Key() == site.staging.rows[i].Key()
                 && out.rows[i].data == site.staging.rows[i].data
  {
  }

  lemma SameIdsAndKeys(a: Store, b: Store, key: PostKey)
    requires |b.rows| == |a.rows| && b.nextId == a.nextId
    requires forall i :: 0 <= i < |a.rows| ==> b.rows[i].id == a.rows[i].id && b.rows[i].Key() == a.rows[i].Key()
    ensures Valid(a) ==> Valid(b)
    ensures CountAkPosts(b.rows, key) == CountAkPosts(a.rows, key)
  {
    assert KeyIndices(b.rows, key) == KeyIndices(a.rows, key);
  }
}

=== FILE: sentinel.dfy ===
/**
 * The two placeholder families the exporter writes into transported text and
 * the importer resolves: `%akagsrcstart%URL%akagsrcend%` (resolve to a local
 * URL) and `%akagidstart%URL%akagidend%` (resolve to a local attachment id).
 *
 * The importer finds them with `preg_replace_callback` on
 * `/%akagsrcstart%(.*?)%akagsrcend%/` (and the id twin). That scan is modelled
 * as a parser into literal and marked segments.
 */
module Sentinel {
  import opened Wrappers
  import opened Text

  datatype Family = Src | Id {

    function Start(): string {
      match this
      case Src => "%akagsrcstart%"
      case Id => "%akagidstart%"
    }

    function End(): string {
      match this
      case Src => "%akagsrcend%"
      case Id => "%akagidend%"
    }
  }

  /** The sentinel text the exporter emits around `x`. */
  function Wrap(fam: Family, x: string): string {
    fam.Start() + x + fam.End()
  }

  /**
   * PCRE's lazy `(.*?)END` from index `i`: the first position at or after `i`
   * where `end` occurs, provided no line feed lies in between.
   */
  function FindEnd(s: string, i: nat, end: string): (r: Option<nat>)
    ensures r.Some? ==> i <= r.value && StartsAt(s, r.value, end) && forall k :: i <= k < r.value ==> s[k] != '\n'
    ensures r.Some? ==> forall k :: i <= k < r.value ==> !StartsAt(s, k, end)
    ensures r.None? ==> forall j :: i <= j <= |s| && StartsAt(s, j, end) ==> !NoNewline(s[i..j])
    decreases |s| - i
  {
    if i > |s| then None
    else if StartsAt(s, i, end) then Some(i)
    else if i == |s| || s[i] == '\n' then
      assert forall j :: i < j <= |s| ==> s[i..j][0] == '\n' || s[i] != '\n';
      None
    else
      var r := FindEnd(s, i + 1, end);
      assert forall j :: i + 1 <= j <= |s| ==> s[i..j] == [s[i]] + s[i + 1..j];
      r
  }

  /** A piece of scanned text: copied verbatim, or the inner text of one sentinel. */
  datatype Segment = Lit(text: string) | Marked(inner: string)

  /** Reassembles scanned text; a marked segment is rendered as its full sentinel. */
  function Render(segs: seq<Segment>, fam: Family): string
    decreases |segs|
  {
    if |segs| == 0 then ""
    else
      (match segs[0]
       case Lit(t) => t
       case Marked(x) => Wrap(fam, x))
      + Render(segs[1..], fam)
  }

  /** Puts one literal character in front, merging it into a leading literal segment. */
  function Cons(c: char, segs: seq<Segment>): seq<Segment> {
    if |segs| > 0 && segs[0].Lit? then [Lit([c] + segs[0].text)] + segs[1..]
    else [Lit([c])] + segs
  }

  lemma RenderCons(c: char, segs: seq<Segment>, fam: Family)
    ensures Render(Cons(c, segs), fam) == [c] + Render(segs, fam)
  {
    if |segs| > 0 && segs[0].Lit? {
      assert Cons(c, segs)[1..] == segs[1..];
    } else {
      assert Cons(c, segs)[1..] == segs;
    }
  }

  lemma RenderAppend(a: seq<Segment>, b: seq<Segment>, fam: Family)
    ensures Render(a + b, fam) == Render(a, fam) + Render(b, fam)
    decreases |a|
  {
    if |a| == 0 {
      assert a + b == b;
    } else {
      assert (a + b)[1..] == a[1..] + b;
      RenderAppend(a[1..], b, fam);
    }
  }

  /** The match `preg_replace_callback` finds at the very start of `s`, if any: inner text and match length. */
  function MatchAtStart(s: string, fam: Family): (m: Option<(string, nat)>)
    ensures m.Some? ==> m.value.1 == |fam.Start()| + |m.value.0| + |fam.End()| <= |s|
    ensures m.Some? ==> && StartsAt(s, 0, fam.Start()) && StartsAt(s, |fam.Start()|, m.value.0)
                        && StartsAt(s, |fam.Start()| + |m.value.0|, fam.End())
    ensures m.Some? ==> NoNewline(m.value.0)
  {
    MatchWith(s, fam.Start(), fam.End())
  }

  /** `MatchAtStart` for arbitrary start and end markers. */
  function MatchWith(s: string, st: string, e: string): (m: Option<(string, nat)>)
    ensures m.Some? ==> m.value.1 == |st| + |m.value.0| + |e| <= |s|
    ensures m.Some? ==> StartsAt(s, 0, st) && StartsAt(s, |st|, m.value.0) && StartsAt(s, |st| + |m.value.0|, e)
    ensures m.Some? ==> NoNewline(m.value.0)
  {
    if StartsAt(s, 0, st) then
      match FindEnd(s, |st|, e)
      case Some(j) => Some((s[|st|..j], j + |e|))
      case None => None
    else None
  }

  /** Three adjacent pieces found in `s` make up its prefix. */
  lemma SplitAtMarkers(s: string, st: string, x: string, e: string)
    requires StartsAt(s, 0, st) && StartsAt(s, |st|, x) && StartsAt(s, |st| + |x|, e)
    ensures s[..|st| + |x| + |e|] == st + x + e
  {
    var n := |st| + |x| + |e|;
    assert s[..n] == s[..|st|] + s[|st|..|st| + |x|] + s[|st| + |x|..n];
  }

  /**
   * The segments `preg_replace_callback` sees, scanning left to right: a
   * match is taken at the leftmost position where one exists, and scanning
   * resumes after it.
   */
  function Parse(s: string, fam: Family): seq<Segment>
    decreases |s|
  {
    if |s| == 0 then []
    else
      match MatchAtStart(s, fam)
      case Some((x, n)) => [Marked(x)] + Parse(s[n..], fam)
      case None => Cons(s[0], Parse(s[1..], fam))
  }

  /** Parsing loses nothing: rendering the segments gives back the input. */
  lemma {:induction false} ParseRendersBack(s: string, fam: Family)
    ensures Render(Parse(s, fam), fam) == s
    decreases |s|
  {
    if |s| > 0 {
      var m := MatchAtStart(s, fam);
      if m.Some? {
        var x, n := m.value.0, m.value.1;
        assert Parse(s, fam) == [Marked(x)] + Parse(s[n..], fam);
        ParseRendersBack(s[n..], fam);
        MarkedRendersBack(s, fam, x, n);
      } else {
        var rest := Parse(s[1..], fam);
        assert Parse(s, fam) == Cons(s[0], rest);
        ParseRendersBack(s[1..], fam);
        RenderCons(s[0], rest, fam);
        assert s == [s[0]] + s[1..];
      }
    }
  }

  /** A sentinel matched at the start renders back to the text it was matched in. */
  lemma MarkedRendersBack(s: string, fam: Family, x: string, n: nat)
    requires MatchAtStart(s, fam) == Some((x, n)) && n <= |s|
    requires Render(Parse(s[n..], fam), fam) == s[n..]
    ensures Render([Marked(x)] + Parse(s[n..], fam), fam) == s
  {
    RenderMarkedFirst(x, Parse(s[n..], fam), fam);
    SplitAtMarkers(s, fam.Start(), x, fam.End());
    assert s[..n] == Wrap(fam, x);
    PrefixSuffix(s, n);
  }

  lemma PrefixSuffix(s: string, n: nat)
    requires n <= |s|
    ensures s[..n] + s[n..] == s
  {
  }

  lemma RenderMarkedFirst(x: string, rest: seq<Segment>, fam: Family)
    ensures Render([Marked(x)] + rest, fam) == Wrap(fam, x) + Render(rest, fam)
  {
    assert ([Marked(x)] + rest)[1..] == rest;
  }

  /**
   * `x` can be carried inside a sentinel of family `fam` and found again:
   * no line feed, and the end marker does not occur before the one that
   * closes it.
   */
  predicate Clean(x: string, fam: Family) {
    NoNewline(x) && forall k :: 0 <= k < |x| ==> !StartsAt(x + fam.End(), k, fam.End())
  }

  /** Any text without `%` or line feed is clean, since both end markers begin with `%`. */
  lemma NoPercentIsClean(x: string, fam: Family)
    requires '%' !in x && '\n' !in x
    ensures Clean(x, fam)
  {
    var e := fam.End();
    forall k | 0 <= k < |x|
      ensures !StartsAt(x + e, k, e)
    {
      assert (x + e)[k] == x[k] != '%';
      assert e[0] == '%';
    }
  }

  /**
   * Every sentinel the exporter emits around clean text is recognised by the
   * importer's scan as exactly one marked segment, whatever follows it.
   */
  lemma {:induction false} WrapRecognised(fam: Family, x: string, rest: string)
    requires Clean(x, fam)
    ensures Parse(Wrap(fam, x) + rest, fam) == [Marked(x)] + Parse(rest, fam)
  {
    var s := Wrap(fam, x) + rest;
    MatchAfter(fam.Start(), x, fam.End(), rest);
    assert s == fam.Start() + x + fam.End() + rest;
    var n := |fam.Start()| + |x| + |fam.End()|;
    assert MatchAtStart(s, fam) == Some((x, n));
    assert s[n..] == rest;
  }

  lemma MatchAfter(st: string, x: string, e: string, rest: string)
    requires NoNewline(x)
    requires forall k :: 0 <= k < |x| ==> !StartsAt(x + e, k, e)
    ensures MatchWith(st + x + e + rest, st, e) == Some((x, |st| + |x| + |e|))
    ensures (st + x + e + rest)[|st| + |x| + |e|..] == rest
  {
    var s := st + x + e + rest;
    assert s[|st|..|st| + |x| + |e|] == x + e;
    EndFoundAfter(s, |st|, x, e);
    assert s[..|st|] == st;
    assert s[|st|..|st| + |x|] == x;
  }

  /** When `x + e` sits at offset `a` and `x` is clean, the lazy scan from `a` stops right after `x`. */
  lemma EndFoundAfter(s: string, a: nat, x: string, e: string)
    requires a + |x| + |e| <= |s| && s[a..a + |x| + |e|] == x + e
    requires NoNewline(x) && forall k :: 0 <= k < |x| ==> !StartsAt(x + e, k, e)
    ensures FindEnd(s, a, e) == Some(a + |x|)
  {
    InnerSlice(s, a, x + e, |x|, |e|);
    assert (x + e)[|x|..|x| + |e|] == e;
    forall k | a <= k < a + |x|
      ensures !StartsAt(s, k, e) && s[k] != '\n'
    {
      InnerSlice(s, a, x + e, k - a, |e|);
      assert !StartsAt(x + e, k - a, e);
      assert s[k..k + |e|] == (x + e)[k - a..k - a + |e|];
      assert s[k] == s[a..a + |x| + |e|][k - a] == x[k - a];
    }
    FindEndReaches(s, a, a + |x|, e);
  }

  /** A slice of a slice: within `s[a..a + |y|] == y`, offsets into `y` are offsets `a` further into `s`. */
  lemma InnerSlice(s: string, a: nat, y: string, j: nat, len: nat)
    requires a + |y| <= |s| && s[a..a + |y|] == y && j + len <= |y|
    ensures s[a + j..a + j + len] == y[j..j + len]
  {
    var mid := s[a + j..a + j + len];
    var part := y[j..j + len];
    forall t | 0 <= t < len
      ensures mid[t] == part[t]
    {
      assert mid[t] == s[a + j + t];
      assert s[a..a + |y|][j + t] == s[a + j + t];
    }
  }

  lemma {:induction false} FindEndReaches(s: string, i: nat, j: nat, e: string)
    requires i <= j && StartsAt(s, j, e)
    requires forall k :: i <= k < j ==> !StartsAt(s, k, e) && s[k] != '\n'
    ensures FindEnd(s, i, e) == Some(j)
    decreases j - i
  {
    if i < j {
      FindEndReaches(s, i + 1, j, e);
    }
  }

  /** Literal text put in front of segments, one character at a time as the scan produces it. */
  function ConsAll(t: string, segs: seq<Segment>): seq<Segment>
    decreases |t|
  {
    if |t| == 0 then segs else Cons(t[0], ConsAll(t[1..], segs))
  }

  /** The canonical form of a segment list: adjacent literals merged, empty literals dropped. */
  function Canon(segs: seq<Segment>): seq<Segment>
    decreases |segs|
  {
    if |segs| == 0 then []
    else match segs[0]
      case Lit(t) => ConsAll(t, Canon(segs[1..]))
      case Marked(x) => [Marked(x)] + Canon(segs[1..])
  }

  /** No start marker of `fam` begins inside `t` when `t` is followed by `after`. */
  predicate LitSafe(t: string, after: string, fam: Family) {
    forall k :: 0 <= k < |t| ==> !StartsAt(t + after, k, fam.Start())
  }

  /** Segments whose rendering the scan takes apart into the same pieces. */
  predicate Transparent(segs: seq<Segment>, fam: Family) {
    forall i :: 0 <= i < |segs| ==>
      match segs[i]
      case Marked(x) => Clean(x, fam)
      case Lit(t) => LitSafe(t, Render(segs[i + 1..], fam), fam)
  }

  /** Scanning literal text that holds no start marker only prepends it. */
  lemma {:induction false} ParseLit(t: string, rest: string, fam: Family)
    requires LitSafe(t, rest, fam)
    ensures Parse(t + rest, fam) == ConsAll(t, Parse(rest, fam))
    decreases |t|
  {
    if |t| == 0 {
      assert t + rest == rest;
    } else {
      var s := t + rest;
      DropFirstSafe(t, rest, fam.Start());
      NoStartNoMatch(s, fam);
      ParseNoMatch(s, fam);
      assert s[0] == t[0];
      assert s[1..] == t[1..] + rest;
      ParseLit(t[1..], rest, fam);
      assert ConsAll(t, Parse(rest, fam)) == Cons(t[0], ConsAll(t[1..], Parse(rest, fam)));
    }
  }

  lemma NoStartNoMatch(s: string, fam: Family)
    requires |s| > 0 && forall k :: 0 <= k < 1 ==> !StartsAt(s, k, fam.Start())
    ensures MatchAtStart(s, fam).None?
  {
    assert !StartsAt(s, 0, fam.Start());
  }

  lemma ParseNoMatch(s: string, fam: Family)
    requires |s| > 0 && MatchAtStart(s, fam).None?
    ensures Parse(s, fam) == Cons(s[0], Parse(s[1..], fam))
  {
  }

  /** An occurrence-free prefix stays occurrence-free when its first character is dropped. */
  lemma DropFirstSafe(t: string, rest: string, st: string)
    requires |t| > 0 && forall k :: 0 <= k < |t| ==> !StartsAt(t + rest, k, st)
    ensures forall k :: 0 <= k < 1 ==> !StartsAt(t + rest, k, st)
    ensures forall k :: 0 <= k < |t[1..]| ==> !StartsAt(t[1..] + rest, k, st)
  {
    var s := t + rest;
    forall k | 0 <= k < |t[1..]|
      ensures !StartsAt(t[1..] + rest, k, st)
    {
      assert !StartsAt(s, k + 1, st);
      if k + |st| <= |s| - 1 {
        assert (t[1..] + rest)[k..k + |st|] == s[k + 1..k + 1 + |st|];
      }
    }
  }

  /**
   * Scanning the rendering of transparent segments recovers them, up to
   * merging of adjacent literals: every sentinel comes back as one marked
   * segment with its inner text, in order.
   */
  lemma {:induction false} ParseRender(segs: seq<Segment>, fam: Family)
    requires Transparent(segs, fam)
    ensures Parse(Render(segs, fam), fam) == Canon(segs)
    decreases |segs|
  {
    if |segs| > 0 {
      assert Transparent(segs[1..], fam) by {
        forall i | 0 <= i < |segs| - 1
          ensures match segs[1..][i]
                  case Marked(x) => Clean(x, fam)
                  case Lit(t) => LitSafe(t, Render(segs[1..][i + 1..], fam), fam)
        {
          assert segs[1..][i] == segs[i + 1];
          assert segs[1..][i + 1..] == segs[i + 2..];
        }
      }
      ParseRender(segs[1..], fam);
      match segs[0]
      case Lit(t) =>
        ParseLit(t, Render(segs[1..], fam), fam);
      case Marked(x) =>
        WrapRecognised(fam, x, Render(segs[1..], fam));
    }
  }

  /** Literals that hold no `%`, around clean sentinels, are transparent: every start marker begins with `%`. */
  lemma LitNoPercentTransparent(segs: seq<Segment>, fam: Family)
    requires forall i :: 0 <= i < |segs| && segs[i].Lit? ==> '%' !in segs[i].text
    requires forall i :: 0 <= i < |segs| && segs[i].Marked? ==> Clean(segs[i].inner, fam)
    ensures Transparent(segs, fam)
  {
    forall i | 0 <= i < |segs|
      ensures match segs[i]
              case Marked(x) => Clean(x, fam)
              case Lit(t) => LitSafe(t, Render(segs[i + 1..], fam), fam)
    {
      match segs[i]
      case Marked(x) =>
      case Lit(t) =>
        var after := Render(segs[i + 1..], fam);
        forall k | 0 <= k < |t|
          ensures !StartsAt(t + after, k, fam.Start())
        {
          assert (t + after)[k] == t[k] != '%';
          assert fam.Start()[0] == '%';
        }
    }
  }
}

=== FILE: staging.dfy ===
/**
 * The `akolade_aggregator_posts` staging table: one row per received
 * document, keyed in practice by `(post_name, post_type)`, with an integer
 * status and an auto-increment id.
 */
module Staging {
  import opened Wrappers
  import opened Document

  const UpToDate: int := 0
  const New: int := 1
  const Update: int := 2
  const Cancelled: int := 3

  /** `get_status_value`: the four status names map to 0..3; any other string maps to 0. */
  function StatusValue(status: string): (v: int)
    ensures 0 <= v <= 3
    ensures v == New <==> status == "new"
    ensures v == Update <==> status == "update"
    ensures v == Cancelled <==> status == "cancelled"
    ensures v == UpToDate <==> status != "new" && status != "update" && status != "cancelled"
  {
    match status
    case "up-to-date" => 0
    case "new" => 1
    case "update" => 2
    case "cancelled" => 3
    case _ => 0
  }

  /** The name each status code is stored under. */
  function StatusName(v: int): string
    requires 0 <= v <= 3
  {
    ["up-to-date", "new", "update", "cancelled"][v]
  }

  /** Every status code is the value of its own name, so the mapping is one-to-one on the four names. */
  lemma StatusRoundTrip(v: int)
    requires 0 <= v <= 3
    ensures StatusValue(StatusName(v)) == v
  {
    if v == 0 {
      assert StatusName(v) == "up-to-date";
    }
  }

  datatype Row = Row(
    id: int,
    postId: Option<int>,
    canonicalUrl: string,
    title: string,
    name: string,
    channel: string,
    postType: string,
    data: Doc,
    status: int,
    createdAt: string)
  {
    function Key(): PostKey { PostKey(name, postType) }
  }

  /** The columns an UPDATE supplies; None leaves a column as it is. The id column is never updated. */
  datatype Patch = Patch(
    postId: Option<int>,
    canonicalUrl: Option<string>,
    title: Option<string>,
    name: Option<string>,
    channel: Option<string>,
    postType: Option<string>,
    data: Option<Doc>,
    status: Option<int>,
    createdAt: Option<string>)

  const NoChange: Patch := Patch(None, None, None, None, None, None, None, None, None)

  function Apply(p: Patch, r: Row): Row {
    Row(
      r.id,
      if p.postId.Some? then p.postId else r.postId,
      p.canonicalUrl.GetOr(r.canonicalUrl),
      p.title.GetOr(r.title),
      p.name.GetOr(r.name),
      p.channel.GetOr(r.channel),
      p.postType.GetOr(r.postType),
      p.data.GetOr(r.data),
      p.status.GetOr(r.status),
      p.createdAt.GetOr(r.createdAt))
  }

  /** The table: its rows in insertion order and the next auto-increment value. */
  datatype Store = Store(rows: seq<Row>, nextId: int)

  /** Auto-increment ids: positive, distinct, all below the next one. */
  ghost predicate Valid(st: Store) {
    && st.nextId >= 1
    && (forall i :: 0 <= i < |st.rows| ==> 1 <= st.rows[i].id < st.nextId)
    && (forall i, j :: 0 <= i < j < |st.rows| ==> st.rows[i].id != st.rows[j].id)
  }

  ghost function KeyIndices(rows: seq<Row>, key: PostKey): set<nat> {
    set i: nat | i < |rows| && rows[i].Key() == key
  }

  lemma KeyIndicesSnoc(rows: seq<Row>, r: Row, key: PostKey)
    ensures KeyIndices(rows + [r], key) == KeyIndices(rows, key) + (if r.Key() == key then {|rows|} else {})
    ensures |rows| !in KeyIndices(rows, key)
  {
    var s := rows + [r];
    forall i: nat | i < |rows| ensures s[i] == rows[i] { }
  }

  /** `count_ak_posts`: the number of rows whose `post_name` and `post_type` both match. */
  function CountAkPosts(rows: seq<Row>, key: PostKey): (n: nat)
    ensures n == |KeyIndices(rows, key)|
    ensures n == 0 <==> forall i :: 0 <= i < |rows| ==> rows[i].Key() != key
    decreases |rows|
  {
    if |rows| == 0 then 0
    else
      var init := rows[..|rows| - 1];
      var last := rows[|rows| - 1];
      assert rows == init + [last];
      KeyIndicesSnoc(init, last, key);
      var n := CountAkPosts(init, key) + (if last.Key() == key then 1 else 0);
      assert n == 0 ==> forall i :: 0 <= i < |rows| ==> rows[i].Key() != key by {
        if n == 0 {
          forall i | 0 <= i < |rows| ensures rows[i].Key() != key {
            if i < |rows| - 1 { assert rows[i] == init[i]; }
          }
        }
      }
      n
  }

  /** `insert_ak_post` followed by `get_last_insert_id`: the row is appended under the next auto-increment id. */
  function InsertAkPost(st: Store, r: Row): (out: (Store, int))
    requires Valid(st)
    ensures Valid(out.0)
    ensures out.1 == st.nextId && out.0.rows == st.rows + [r.(id := st.nextId)]
    ensures forall key :: CountAkPosts(out.0.rows, key) == CountAkPosts(st.rows, key) + (if r.Key() == key then 1 else 0)
  {
    var rows := st.rows + [r.(id := st.nextId)];
    forall key ensures CountAkPosts(rows, key) == CountAkPosts(st.rows, key) + (if r.Key() == key then 1 else 0) {
      KeyIndicesSnoc(st.rows, r.(id := st.nextId), key);
    }
    (Store(rows, st.nextId + 1), st.nextId)
  }

  /** Applies `p` to the rows selected by `sel`, leaving the others as they are. */
  function PatchWhere(rows: seq<Row>, p: Patch, sel: Row -> bool): (out: seq<Row>)
    ensures |out| == |rows|
    ensures forall i :: 0 <= i < |rows| ==> out[i] == (if sel(rows[i]) then Apply(p, rows[i]) else rows[i])
    decreases |rows|
  {
    if |rows| == 0 then []
    else
      var rest := PatchWhere(rows[1..], p, sel);
      assert forall i :: 1 <= i < |rows| ==> rows[i] == rows[1..][i - 1];
      [if sel(rows[0]) then Apply(p, rows[0]) else rows[0]] + rest
  }

  /**
   * `update_ak_post(row, post_name, post_type)`: every row matching both
   * columns takes the supplied columns; every other row, and every column
   * not supplied, stays as it was.
   */
  function UpdateAkPost(st: Store, p: Patch, key: PostKey): (out: Store)
    ensures out.nextId == st.nextId && |out.rows| == |st.rows|
    ensures forall i :: 0 <= i < |st.rows| && st.rows[i].Key() != key ==> out.rows[i] == st.rows[i]
    ensures forall i :: 0 <= i < |st.rows| && st.rows[i].Key() == key ==> out.rows[i] == Apply(p, st.rows[i])
    ensures forall i :: 0 <= i < |st.rows| ==> out.rows[i].id == st.rows[i].id
  {
    Store(PatchWhere(st.rows, p, (r: Row) => r.Key() == key), st.nextId)
  }

  /** `update_ak_post_using_id`: only the row with the given id changes. */
  function UpdateAkPostUsingId(st: Store, p: Patch, id: int): (out: Store)
    ensures out.nextId == st.nextId && |out.rows| == |st.rows|
    ensures forall i :: 0 <= i < |st.rows| && st.rows[i].id != id ==> out.rows[i] == st.rows[i]
    ensures forall i :: 0 <= i < |st.rows| && st.rows[i].id == id ==> out.rows[i] == Apply(p, st.rows[i])
  {
    Store(PatchWhere(st.rows, p, (r: Row) => r.id == id), st.nextId)
  }

  /** An update keeps the store's ids, so it keeps the store valid. */
  lemma {:induction false} UpdateKeepsValid(st: Store, p: Patch, key: PostKey)
    requires Valid(st)
    ensures Valid(UpdateAkPost(st, p, key))
  {
    var out := UpdateAkPost(st, p, key);
    assert forall i :: 0 <= i < |st.rows| ==> out.rows[i].id == st.rows[i].id;
  }

  /**
   * A patch that leaves `post_name` and `post_type` alone (or rewrites them
   * to the key they already hold) does not change how many rows any key has.
   */
  lemma {:induction false} UpdateKeepsCounts(st: Store, p: Patch, key: PostKey, other: PostKey)
    requires p.name.None? || p.name == Some(key.name)
    requires p.postType.None? || p.postType == Some(key.postType)
    ensures CountAkPosts(UpdateAkPost(st, p, key).rows, other) == CountAkPosts(st.rows, other)
  {
    var out := UpdateAkPost(st, p, key);
    assert forall i :: 0 <= i < |st.rows| ==> out.rows[i].Key() == st.rows[i].Key();
    assert KeyIndices(out.rows, other) == KeyIndices(st.rows, other);
  }

  /** `delete_post`: drops the row(s) with the given id and keeps the rest in order. */
  function DeletePost(st: Store, id: int): (out: Store)
    ensures out.nextId == st.nextId
    ensures forall r :: r in out.rows <==> r in st.rows && r.id != id
    ensures |out.rows| <= |st.rows|
    ensures Valid(st) ==> Valid(out)
  {
    Store(Without(st.rows, id), st.nextId)
  }

  function Without(rows: seq<Row>, id: int): (out: seq<Row>)
    ensures forall r :: r in out <==> r in rows && r.id != id
    ensures |out| <= |rows|
    ensures (forall i, j :: 0 <= i < j < |rows| ==> rows[i].id != rows[j].id) ==>
              (forall i, j :: 0 <= i < j < |out| ==> out[i].id != out[j].id)
    decreases |rows|
  {
    if |rows| == 0 then []
    else
      var rest := Without(rows[1..], id);
      if rows[0].id == id then rest
      else
        assert forall r :: r in rest ==> r in rows[1..];
        [rows[0]] + rest
  }

  /** `get_ak_post(id)`: the first row with the given id, if any. */
  function GetAkPost(rows: seq<Row>, id: int): (r: Option<Row>)
    ensures r.Some? ==> r.value in rows && r.value.id == id
    ensures r.None? <==> forall i :: 0 <= i < |rows| ==> rows[i].id != id
    decreases |rows|
  {
    if |rows| == 0 then None
    else if rows[0].id == id then Some(rows[0])
    else
      var r := GetAkPost(rows[1..], id);
      assert forall i :: 1 <= i < |rows| ==> rows[i] == rows[1..][i - 1];
      r
  }

  /**
   * The status part of the list and count queries: "pending" keeps statuses
   * 1 and 2, "completed" keeps 0, and any other request value keeps all rows.
   */
  predicate InStatusFilter(filter: string, status: int) {
    if filter == "pending" then status == New || status == Update
    else if filter == "completed" then status == UpToDate
    else true
  }

  /** The rows a status-filtered list query returns, in table order. */
  function ListWithFilter(rows: seq<Row>, filter: string): (out: seq<Row>)
    ensures forall r :: r in out <==> r in rows && InStatusFilter(filter, r.status)
    ensures |out| <= |rows|
    decreases |rows|
  {
    if |rows| == 0 then []
    else
      var rest := ListWithFilter(rows[1..], filter);
      if InStatusFilter(filter, rows[0].status) then [rows[0]] + rest else rest
  }

  /** `record_count_with_filter`, `pending_record_count`, `completed_record_count`. */
  function CountWithFilter(rows: seq<Row>, filter: string): nat
    decreases |rows|
  {
    if |rows| == 0 then 0
    else CountWithFilter(rows[1..], filter) + (if InStatusFilter(filter, rows[0].status) then 1 else 0)
  }

  /** The count queries and the list query use the same status predicate. */
  lemma {:induction false} CountMatchesList(rows: seq<Row>, filter: string)
    ensures CountWithFilter(rows, filter) == |ListWithFilter(rows, filter)|
    decreases |rows|
  {
    if |rows| > 0 {
      CountMatchesList(rows[1..], filter);
    }
  }

  /**
   * `LIMIT per_page OFFSET (page_number - 1) * per_page`: None where the
   * database rejects a negative limit or offset.
   */
  function Page(rows: seq<Row>, perPage: int, pageNumber: int): (r: Option<seq<Row>>)
    ensures r.Some? <==> perPage >= 0 && (pageNumber - 1) * perPage >= 0
    ensures r.Some? ==> |r.value| == (var offset := (pageNumber - 1) * perPage;
                                      if offset >= |rows| then 0
                                      else if |rows| - offset < perPage then |rows| - offset
                                      else perPage)
    ensures r.Some? ==> forall k :: 0 <= k < |r.value| ==> r.value[k] == rows[(pageNumber - 1) * perPage + k]
  {
    var offset := (pageNumber - 1) * perPage;
    if perPage < 0 || offset < 0 then None
    else if offset >= |rows| then Some([])
    else if offset + perPage >= |rows| then Some(rows[offset..])
    else Some(rows[offset..offset + perPage])
  }

  /** With a positive page size, row `i` is entry `i % perPage` of page `i / perPage + 1`. */
  lemma PagesCoverRows(rows: seq<Row>, perPage: int, i: int)
    requires perPage > 0 && 0 <= i < |rows|
    ensures var p := Page(rows, perPage, i / perPage + 1);
            p.Some? && i % perPage < |p.value| && p.value[i % perPage] == rows[i]
  {
    var q, r := i / perPage, i % perPage;
    assert q * perPage + r == i && 0 <= r < perPage;
    assert q >= 0;
    var offset := q * perPage;
    assert (q + 1 - 1) * perPage == offset;
    assert offset >= 0 && offset + r == i;
    assert r < |rows| - offset;
  }
}

=== FILE: terms.dfy ===
/**
 * The importer's taxonomy handling: `import_terms` resolves each transported
 * term against the local taxonomy (reusing a term with the same slug and
 * taxonomy, otherwise creating it under the local copy of its parent), and
 * `assign_post_terms` attaches only the terms flagged `belongs_to_post`,
 * grouped per taxonomy.
 */
module TermImport {
  import opened Wrappers
  import opened Document
  import TermFlatten

  /** A term of the destination site. */
  datatype LocalTerm = LocalTerm(id: int, name: string, slug: string, taxonomy: string, description: string, parent: int)

  /** The destination site's terms, in creation order, and the next term id. */
  datatype TermStore = TermStore(terms: seq<LocalTerm>, nextId: int)

  /** `term_exists(slug, taxonomy)`: the id of the first local term with that slug and taxonomy. */
  function TermExists(store: TermStore, slug: string, taxonomy: string): (r: Option<int>)
    ensures r.None? <==> forall i :: 0 <= i < |store.terms| ==> store.terms[i].slug != slug || store.terms[i].taxonomy != taxonomy
    ensures r.Some? ==> exists i :: 0 <= i < |store.terms| && store.terms[i].id == r.value
                                    && store.terms[i].slug == slug && store.terms[i].taxonomy == taxonomy
  {
    FirstMatchFinds(store.terms, slug, taxonomy);
    FirstMatch(store.terms, slug, taxonomy)
  }

  function FirstMatch(terms: seq<LocalTerm>, slug: string, taxonomy: string): Option<int>
    decreases |terms|
  {
    if |terms| == 0 then None
    else if terms[0].slug == slug && terms[0].taxonomy == taxonomy then Some(terms[0].id)
    else FirstMatch(terms[1..], slug, taxonomy)
  }

  /** `FirstMatch` answers exactly when a term matches, with a matching term's id. */
  lemma {:induction false} FirstMatchFinds(terms: seq<LocalTerm>, slug: string, taxonomy: string)
    ensures var r := FirstMatch(terms, slug, taxonomy);
            (r.None? <==> forall i :: 0 <= i < |terms| ==> terms[i].slug != slug || terms[i].taxonomy != taxonomy)
            && (r.Some? ==> exists i :: 0 <= i < |terms| && terms[i].id == r.value
                                        && terms[i].slug == slug && terms[i].taxonomy == taxonomy)
    decreases |terms|
  {
    if |terms| > 0 && (terms[0].slug != slug || terms[0].taxonomy != taxonomy) {
      FirstMatchFinds(terms[1..], slug, taxonomy);
      assert forall i :: 1 <= i < |terms| ==> terms[i] == terms[1..][i - 1];
    }
  }

  /** Appending a term changes no earlier lookup result. */
  lemma FirstMatchAppend(terms: seq<LocalTerm>, t: LocalTerm, slug: string, taxonomy: string)
    ensures FirstMatch(terms + [t], slug, taxonomy)
            == (if FirstMatch(terms, slug, taxonomy).Some? then FirstMatch(terms, slug, taxonomy)
                else if t.slug == slug && t.taxonomy == taxonomy then Some(t.id) else None)
    decreases |terms|
  {
    if |terms| > 0 {
      assert (terms + [t])[1..] == terms[1..] + [t];
      FirstMatchAppend(terms[1..], t, slug, taxonomy);
    }
  }

  /**
   * `find_term_using_id(id, list)`: the first entry of the whole transported
   * list whose `term_id` is `id` (a strict comparison of integers).
   */
  function FindTermUsingId(id: int, list: seq<ExportedTerm>): (r: Option<ExportedTerm>)
    ensures r.None? <==> forall i :: 0 <= i < |list| ==> list[i].termId != id
    ensures r.Some? ==> exists i :: 0 <= i < |list| && list[i] == r.value && r.value.termId == id
                                    && forall j :: 0 <= j < i ==> list[j].termId != id
    decreases |list|
  {
    if |list| == 0 then None
    else if list[0].termId == id then Some(list[0])
    else
      var r := FindTermUsingId(id, list[1..]);
      assert forall i :: 1 <= i < |list| ==> list[i] == list[1..][i - 1];
      if r.Some? then
        ghost var i :| 0 <= i < |list| - 1 && list[1..][i] == r.value && r.value.termId == id
                       && forall j :: 0 <= j < i ==> list[1..][j].termId != id;
        assert list[i + 1] == r.value;
        r
      else r
  }

  /** One entry of `import_terms`'s response. */
  datatype Imported = Imported(id: int, taxonomy: string, belongsToPost: bool)

  /**
   * The local parent id for a term being created: the local id of the
   * first list entry whose `term_id` is the term's parent, when that entry
   * exists locally; otherwise 0.
   */
  function LocalParent(store: TermStore, t: ExportedTerm, list: seq<ExportedTerm>): int
  {
    match FindTermUsingId(t.parent, list)
    case None => 0
    case Some(pt) => TermExists(store, pt.slug, pt.taxonomy).GetOr(0)
  }

  /**
   * One iteration of `import_terms`. An existing `(slug, taxonomy)` term is
   * reused; otherwise the term is created under its local parent when
   * `insertOk` (standing for `wp_insert_term` succeeding) allows, and left
   * out of the response when it does not.
   */
  function ImportOne(store: TermStore, t: ExportedTerm, list: seq<ExportedTerm>, insertOk: ExportedTerm -> bool)
    : (r: (TermStore, seq<Imported>))
    ensures |r.1| <= 1 && (insertOk(t) ==> |r.1| == 1)
    ensures TermExists(store, t.slug, t.taxonomy).Some? ==>
              r == (store, [Imported(TermExists(store, t.slug, t.taxonomy).value, t.taxonomy, t.belongsToPost.GetOr(false))])
    ensures TermExists(store, t.slug, t.taxonomy).None? && !insertOk(t) ==> r == (store, [])
    ensures TermExists(store, t.slug, t.taxonomy).None? && insertOk(t) ==>
              r.0.terms == store.terms + [LocalTerm(store.nextId, t.name, t.slug, t.taxonomy, t.description, LocalParent(store, t, list))]
              && r.0.nextId == store.nextId + 1
              && r.1 == [Imported(store.nextId, t.taxonomy, t.belongsToPost.GetOr(false))]
  {
    match TermExists(store, t.slug, t.taxonomy)
    case Some(id) => (store, [Imported(id, t.taxonomy, t.belongsToPost.GetOr(false))])
    case None =>
      if insertOk(t) then
        var created := LocalTerm(store.nextId, t.name, t.slug, t.taxonomy, t.description, LocalParent(store, t, list));
        (TermStore(store.terms + [created], store.nextId + 1), [Imported(store.nextId, t.taxonomy, t.belongsToPost.GetOr(false))])
      else (store, [])
  }

  /**
   * The `foreach` of `import_terms` after its first `n` iterations: the store
   * and the response so far. Parents are looked up in the whole list.
   */
  function ImportUpTo(store: TermStore, list: seq<ExportedTerm>, n: nat, insertOk: ExportedTerm -> bool)
    : (r: (TermStore, seq<Imported>))
    requires n <= |list|
    ensures |r.1| <= n
    ensures |r.0.terms| >= |store.terms| && r.0.terms[..|store.terms|] == store.terms
    decreases n
  {
    if n == 0 then (store, [])
    else
      var p := ImportUpTo(store, list, n - 1, insertOk);
      var q := ImportOne(p.0, list[n - 1], list, insertOk);
      assert q.0.terms[..|store.terms|] == q.0.terms[..|p.0.terms|][..|store.terms|];
      (q.0, p.1 + q.1)
  }

  /** One more iteration: the step from `n - 1` to `n`. */
  lemma Step(store: TermStore, list: seq<ExportedTerm>, n: nat, insertOk: ExportedTerm -> bool)
    requires 0 < n <= |list|
    ensures var p := ImportUpTo(store, list, n - 1, insertOk);
            var q := ImportOne(p.0, list[n - 1], list, insertOk);
            ImportUpTo(store, list, n, insertOk) == (q.0, p.1 + q.1)
            && (q.0 == p.0 || q.0.terms == p.0.terms + [q.0.terms[|p.0.terms|]])
  {
  }

  /** Every `wp_insert_term` for the list succeeds. */
  predicate AllInserted(list: seq<ExportedTerm>, insertOk: ExportedTerm -> bool) {
    forall i {:trigger insertOk(list[i])} :: 0 <= i < |list| ==> insertOk(list[i])
  }

  /**
   * Response entry `e` answers list entry `t` in `store`: same taxonomy, the
   * `belongs_to_post` flag (false when unset), and the id `term_exists`
   * finds for `t`'s slug and taxonomy.
   */
  predicate Answers(store: TermStore, t: ExportedTerm, e: Imported) {
    e.taxonomy == t.taxonomy && e.belongsToPost == t.belongsToPost.GetOr(false)
    && TermExists(store, t.slug, t.taxonomy) == Some(e.id)
  }

  /**
   * `import_terms(list)`: the resulting store and the response. Existing
   * local terms are kept; when every insert succeeds, the `k`-th response
   * entry carries the `k`-th list entry's taxonomy and flag (and, by
   * `ImportTermsAnswers`, the id of its local term).
   */
  function ImportTerms(store: TermStore, list: seq<ExportedTerm>, insertOk: ExportedTerm -> bool)
    : (r: (TermStore, seq<Imported>))
    ensures |r.1| <= |list|
    ensures |r.0.terms| >= |store.terms| && r.0.terms[..|store.terms|] == store.terms
    ensures AllInserted(list, insertOk) ==>
              |r.1| == |list| && forall k {:trigger r.1[k]} :: 0 <= k < |list| ==>
                r.1[k].taxonomy == list[k].taxonomy && r.1[k].belongsToPost == list[k].belongsToPost.GetOr(false)
  {
    if AllInserted(list, insertOk) then
      ResponseAnswers(store, list, |list|, insertOk);
      ImportUpTo(store, list, |list|, insertOk)
    else
      ImportUpTo(store, list, |list|, insertOk)
  }

  /**
   * When every insert succeeds, each response entry answers its list entry
   * in the final store: `term_exists` on the entry's slug and taxonomy gives
   * the response's id.
   */
  lemma {:induction false} ImportTermsAnswers(store: TermStore, list: seq<ExportedTerm>, insertOk: ExportedTerm -> bool)
    requires AllInserted(list, insertOk)
    ensures var r := ImportTerms(store, list, insertOk);
            |r.1| == |list| && forall k {:trigger r.1[k]} :: 0 <= k < |list| ==> Answers(r.0, list[k], r.1[k])
  {
    ResponseAnswers(store, list, |list|, insertOk);
  }

  /** One iteration keeps every lookup that already succeeds. */
  lemma ImportOneKeepsLookup(store: TermStore, t: ExportedTerm, list: seq<ExportedTerm>, insertOk: ExportedTerm -> bool,
                             slug: string, taxonomy: string)
    requires TermExists(store, slug, taxonomy).Some?
    ensures TermExists(ImportOne(store, t, list, insertOk).0, slug, taxonomy) == TermExists(store, slug, taxonomy)
  {
    var s := ImportOne(store, t, list, insertOk).0;
    if s != store {
      FirstMatchAppend(store.terms, s.terms[|store.terms|], slug, taxonomy);
    }
  }

  /** A successful iteration's response entry answers its term in the new store. */
  lemma ImportOneAnswers(store: TermStore, t: ExportedTerm, list: seq<ExportedTerm>, insertOk: ExportedTerm -> bool)
    requires insertOk(t)
    ensures Answers(ImportOne(store, t, list, insertOk).0, t, ImportOne(store, t, list, insertOk).1[0])
  {
    var s := ImportOne(store, t, list, insertOk).0;
    if TermExists(store, t.slug, t.taxonomy).None? {
      FirstMatchAppend(store.terms, s.terms[|store.terms|], t.slug, t.taxonomy);
    }
  }

  /** After `n` successful iterations, each response entry answers its list entry. */
  lemma {:induction false} ResponseAnswers(store: TermStore, list: seq<ExportedTerm>, n: nat, insertOk: ExportedTerm -> bool)
    requires n <= |list| && forall k :: 0 <= k < n ==> insertOk(list[k])
    ensures var r := ImportUpTo(store, list, n, insertOk);
            |r.1| == n && forall k {:trigger r.1[k]} :: 0 <= k < n ==> Answers(r.0, list[k], r.1[k])
    decreases n
  {
    if n > 0 {
      ResponseAnswers(store, list, n - 1, insertOk);
      Step(store, list, n, insertOk);
      var p := ImportUpTo(store, list, n - 1, insertOk);
      AnswersExtend(p.0, p.1, list, n, insertOk);
    }
  }

  /** The answer to one entry among the first `n`, when all their inserts succeed. */
  lemma AnswerAt(store: TermStore, list: seq<ExportedTerm>, n: nat, j: nat, insertOk: ExportedTerm -> bool)
    requires j < n <= |list| && AllInserted(list, insertOk)
    ensures var r := ImportUpTo(store, list, n, insertOk);
            |r.1| == n && Answers(r.0, list[j], r.1[j])
  {
    ResponseAnswers(store, list, n, insertOk);
  }

  /** One successful iteration keeps the earlier answers and adds its own. */
  lemma AnswersExtend(s: TermStore, out: seq<Imported>, list: seq<ExportedTerm>, n: nat, insertOk: ExportedTerm -> bool)
    requires 0 < n <= |list| && |out| == n - 1 && insertOk(list[n - 1])
    requires forall k {:trigger out[k]} :: 0 <= k < n - 1 ==> Answers(s, list[k], out[k])
    ensures var q := ImportOne(s, list[n - 1], list, insertOk);
            |out + q.1| == n && forall k {:trigger (out + q.1)[k]} :: 0 <= k < n ==> Answers(q.0, list[k], (out + q.1)[k])
  {
    var q := ImportOne(s, list[n - 1], list, insertOk);
    forall k | 0 <= k < n
      ensures Answers(q.0, list[k], (out + q.1)[k])
    {
      if k < n - 1 {
        assert (out + q.1)[k] == out[k];
        ImportOneKeepsLookup(s, list[n - 1], list, insertOk, list[k].slug, list[k].taxonomy);
      } else {
        assert (out + q.1)[k] == q.1[0];
        ImportOneAnswers(s, list[n - 1], list, insertOk);
      }
    }
  }

  /** A later stage of the loop extends an earlier one: store and response only grow. */
  lemma {:induction false} StagePrefix(store: TermStore, list: seq<ExportedTerm>, m: nat, n: nat, insertOk: ExportedTerm -> bool)
    requires m <= n <= |list|
    ensures var a := ImportUpTo(store, list, m, insertOk);
            var b := ImportUpTo(store, list, n, insertOk);
            |a.0.terms| <= |b.0.terms| && b.0.terms[..|a.0.terms|] == a.0.terms
            && |a.1| <= |b.1| && b.1[..|a.1|] == a.1
    decreases n
  {
    if m < n {
      StagePrefix(store, list, m, n - 1, insertOk);
      StepGrows(store, list, n, insertOk);
      var a := ImportUpTo(store, list, m, insertOk);
      var b0 := ImportUpTo(store, list, n - 1, insertOk);
      var b := ImportUpTo(store, list, n, insertOk);
      PrefixTrans(a.0.terms, b0.0.terms, b.0.terms);
      PrefixTrans(a.1, b0.1, b.1);
    }
  }

  /** One iteration extends the store and the response. */
  lemma StepGrows(store: TermStore, list: seq<ExportedTerm>, n: nat, insertOk: ExportedTerm -> bool)
    requires 0 < n <= |list|
    ensures var b0 := ImportUpTo(store, list, n - 1, insertOk);
            var b := ImportUpTo(store, list, n, insertOk);
            |b0.0.terms| <= |b.0.terms| && b.0.terms[..|b0.0.terms|] == b0.0.terms
            && |b0.1| <= |b.1| && b.1[..|b0.1|] == b0.1
  {
    Step(store, list, n, insertOk);
    var b0 := ImportUpTo(store, list, n - 1, insertOk);
    var b := ImportUpTo(store, list, n, insertOk);
    assert b.1[..|b0.1|] == b0.1;
  }

  lemma PrefixTrans<T>(a: seq<T>, b: seq<T>, c: seq<T>)
    requires |a| <= |b| <= |c| && b[..|a|] == a && c[..|b|] == b
    ensures c[..|a|] == a
  {
    assert c[..|a|] == c[..|b|][..|a|];
  }

  /**
   * A parent listed before its child becomes the child's local parent: when
   * every insert succeeds and the `k`-th entry is new (no local term and no
   * earlier entry has its slug and taxonomy), the final store holds it under
   * the local id the response gives the `j`-th entry, the one
   * `find_term_using_id` returns for its parent.
   */
  lemma {:induction false} ParentResolvedWhenFirst(store: TermStore, list: seq<ExportedTerm>, j: nat, k: nat,
                                                   insertOk: ExportedTerm -> bool)
    requires j < k < |list| && AllInserted(list, insertOk)
    requires FindTermUsingId(list[k].parent, list) == Some(list[j])
    requires NewAt(store, list, k)
    ensures var r := ImportTerms(store, list, insertOk);
            LocalTerm(r.1[k].id, list[k].name, list[k].slug, list[k].taxonomy, list[k].description, r.1[j].id) in r.0.terms
  {
    CreatedAt(store, list, j, k, insertOk);
    KeptUnderParent(store, list, k + 1, j, k, insertOk);
  }

  /** The `k`-th entry is new: neither the local store nor an earlier entry has its slug and taxonomy. */
  predicate NewAt(store: TermStore, list: seq<ExportedTerm>, k: nat)
    requires k < |list|
  {
    TermExists(store, list[k].slug, list[k].taxonomy).None?
    && forall i :: 0 <= i < k ==> list[i].slug != list[k].slug || list[i].taxonomy != list[k].taxonomy
  }

  /** A slug and taxonomy that neither the store nor the first `m` entries have is still absent after `m` iterations. */
  lemma {:induction false} AbsentAtStage(store: TermStore, list: seq<ExportedTerm>, m: nat, slug: string, taxonomy: string,
                                         insertOk: ExportedTerm -> bool)
    requires m <= |list| && TermExists(store, slug, taxonomy).None?
    requires forall i :: 0 <= i < m ==> list[i].slug != slug || list[i].taxonomy != taxonomy
    ensures TermExists(ImportUpTo(store, list, m, insertOk).0, slug, taxonomy).None?
    decreases m
  {
    if m > 0 {
      AbsentAtStage(store, list, m - 1, slug, taxonomy, insertOk);
      Step(store, list, m, insertOk);
      var p := ImportUpTo(store, list, m - 1, insertOk);
      ImportOneKeepsAbsent(p.0, list[m - 1], list, insertOk, slug, taxonomy);
    }
  }

  /** A new entry is still absent locally when its turn comes. */
  lemma AbsentWhenNew(store: TermStore, list: seq<ExportedTerm>, k: nat, insertOk: ExportedTerm -> bool)
    requires k < |list| && NewAt(store, list, k)
    ensures TermExists(ImportUpTo(store, list, k, insertOk).0, list[k].slug, list[k].taxonomy).None?
  {
    AbsentAtStage(store, list, k, list[k].slug, list[k].taxonomy, insertOk);
  }

  /** An iteration for another slug or taxonomy leaves a missing lookup missing. */
  lemma ImportOneKeepsAbsent(store: TermStore, t: ExportedTerm, list: seq<ExportedTerm>, insertOk: ExportedTerm -> bool,
                             slug: string, taxonomy: string)
    requires TermExists(store, slug, taxonomy).None? && (t.slug != slug || t.taxonomy != taxonomy)
    ensures TermExists(ImportOne(store, t, list, insertOk).0, slug, taxonomy).None?
  {
    var s := ImportOne(store, t, list, insertOk).0;
    if s != store {
      FirstMatchAppend(store.terms, s.terms[|store.terms|], slug, taxonomy);
    }
  }

  /** The iteration for the `k`-th entry, under the hypotheses of `ParentResolvedWhenFirst`. */
  lemma NextStage(store: TermStore, list: seq<ExportedTerm>, j: nat, k: nat, insertOk: ExportedTerm -> bool)
    requires j < k < |list| && AllInserted(list, insertOk)
    requires FindTermUsingId(list[k].parent, list) == Some(list[j])
    requires TermExists(ImportUpTo(store, list, k, insertOk).0, list[k].slug, list[k].taxonomy).None?
    ensures var pk := ImportUpTo(store, list, k, insertOk);
            var next := ImportUpTo(store, list, k + 1, insertOk);
            var t := list[k];
            |pk.1| == k
            && next.0.terms == pk.0.terms + [LocalTerm(pk.0.nextId, t.name, t.slug, t.taxonomy, t.description, pk.1[j].id)]
            && next.1 == pk.1 + [Imported(pk.0.nextId, t.taxonomy, t.belongsToPost.GetOr(false))]
  {
    var pk := ImportUpTo(store, list, k, insertOk);
    AnswerAt(store, list, k, j, insertOk);
    CreatedUnderParent(pk.0, pk.1[j], list, j, k, insertOk);
    Step(store, list, k + 1, insertOk);
  }

  /** After the iteration for a new entry, it is in the store under its parent's answer. */
  lemma CreatedAt(store: TermStore, list: seq<ExportedTerm>, j: nat, k: nat, insertOk: ExportedTerm -> bool)
    requires j < k < |list| && AllInserted(list, insertOk)
    requires FindTermUsingId(list[k].parent, list) == Some(list[j])
    requires NewAt(store, list, k)
    ensures var next := ImportUpTo(store, list, k + 1, insertOk);
            k < |next.1|
            && LocalTerm(next.1[k].id, list[k].name, list[k].slug, list[k].taxonomy, list[k].description, next.1[j].id) in next.0.terms
  {
    AbsentWhenNew(store, list, k, insertOk);
    NextStage(store, list, j, k, insertOk);
    var pk := ImportUpTo(store, list, k, insertOk);
    var next := ImportUpTo(store, list, k + 1, insertOk);
    assert next.0.terms[|pk.0.terms|] == LocalTerm(next.1[k].id, list[k].name, list[k].slug, list[k].taxonomy, list[k].description, next.1[j].id);
  }

  /** A term created under its parent's answer by the first `m` iterations is still there, under the final answers. */
  lemma KeptUnderParent(store: TermStore, list: seq<ExportedTerm>, m: nat, j: nat, k: nat, insertOk: ExportedTerm -> bool)
    requires j < k < m <= |list| && AllInserted(list, insertOk)
    requires var a := ImportUpTo(store, list, m, insertOk);
             k < |a.1|
             && LocalTerm(a.1[k].id, list[k].name, list[k].slug, list[k].taxonomy, list[k].description, a.1[j].id) in a.0.terms
    ensures var r := ImportTerms(store, list, insertOk);
            LocalTerm(r.1[k].id, list[k].name, list[k].slug, list[k].taxonomy, list[k].description, r.1[j].id) in r.0.terms
  {
    var a := ImportUpTo(store, list, m, insertOk);
    var i :| 0 <= i < |a.0.terms|
             && a.0.terms[i] == LocalTerm(a.1[k].id, list[k].name, list[k].slug, list[k].taxonomy, list[k].description, a.1[j].id);
    KeptInFinal(store, list, m, i, k, j, insertOk);
    var r := ImportTerms(store, list, insertOk);
    assert r.0.terms[i] == LocalTerm(r.1[k].id, list[k].name, list[k].slug, list[k].taxonomy, list[k].description, r.1[j].id);
  }

  /**
   * What the first `m` iterations built stays in the final store and
   * response at the same positions: store position `i`, response positions
   * `e1` and `e2`.
   */
  lemma KeptInFinal(store: TermStore, list: seq<ExportedTerm>, m: nat, i: nat, e1: nat, e2: nat, insertOk: ExportedTerm -> bool)
    requires m <= |list|
    ensures var a := ImportUpTo(store, list, m, insertOk);
            var r := ImportTerms(store, list, insertOk);
            (i < |a.0.terms| ==> i < |r.0.terms| && r.0.terms[i] == a.0.terms[i])
            && (e1 < |a.1| ==> e1 < |r.1| && r.1[e1] == a.1[e1])
            && (e2 < |a.1| ==> e2 < |r.1| && r.1[e2] == a.1[e2])
  {
    StagePrefix(store, list, m, |list|, insertOk);
    var a := ImportUpTo(store, list, m, insertOk);
    var r := ImportTerms(store, list, insertOk);
    if i < |a.0.terms| {
      assert r.0.terms[i] == r.0.terms[..|a.0.terms|][i];
    }
    if e1 < |a.1| {
      assert r.1[e1] == r.1[..|a.1|][e1];
    }
    if e2 < |a.1| {
      assert r.1[e2] == r.1[..|a.1|][e2];
    }
  }

  /** The iteration for a term not yet local creates it under the id its parent's entry was answered with. */
  lemma CreatedUnderParent(s: TermStore, pe: Imported, list: seq<ExportedTerm>, j: nat, k: nat, insertOk: ExportedTerm -> bool)
    requires j < k < |list| && insertOk(list[k])
    requires FindTermUsingId(list[k].parent, list) == Some(list[j]) && Answers(s, list[j], pe)
    requires TermExists(s, list[k].slug, list[k].taxonomy).None?
    ensures var t := list[k];
            ImportOne(s, t, list, insertOk)
            == (TermStore(s.terms + [LocalTerm(s.nextId, t.name, t.slug, t.taxonomy, t.description, pe.id)], s.nextId + 1),
                [Imported(s.nextId, t.taxonomy, t.belongsToPost.GetOr(false))])
  {
    assert LocalParent(s, list[k], list) == pe.id;
  }

  /**
   * Over the list the exporter produces (each entry with a parent right
   * after that parent), every new entry with a parent is created under the
   * local id of an earlier entry carrying that parent's `term_id`.
   */
  lemma {:induction false} AncestorFirstResolves(store: TermStore, list: seq<ExportedTerm>, h: TermFlatten.Hierarchy, k: nat,
                                                 insertOk: ExportedTerm -> bool)
    requires TermFlatten.Consistent(h) && TermFlatten.ParentPrecedes(list, h)
    requires k < |list| && list[k].parent != 0 && AllInserted(list, insertOk) && NewAt(store, list, k)
    ensures var r := ImportTerms(store, list, insertOk);
            exists j :: 0 <= j < k && list[j].termId == list[k].parent
                        && LocalTerm(r.1[k].id, list[k].name, list[k].slug, list[k].taxonomy, list[k].description, r.1[j].id) in r.0.terms
  {
    assert list[k - 1].termId == list[k].parent;
    var pt := FindTermUsingId(list[k].parent, list);
    var j :| 0 <= j < |list| && list[j] == pt.value && pt.value.termId == list[k].parent
             && forall i :: 0 <= i < j ==> list[i].termId != list[k].parent;
    ParentResolvedWhenFirst(store, list, j, k, insertOk);
  }

  /**
   * A parent listed after its child is lost: when the entry
   * `find_term_using_id` returns for the `k`-th entry's parent comes later
   * and is new as well, the `k`-th entry is created at the root (parent 0).
   */
  lemma {:induction false} ParentLostWhenAfter(store: TermStore, list: seq<ExportedTerm>, j: nat, k: nat,
                                               insertOk: ExportedTerm -> bool)
    requires k < j < |list| && AllInserted(list, insertOk)
    requires FindTermUsingId(list[k].parent, list) == Some(list[j])
    requires NewAt(store, list, k) && NewAt(store, list, j)
    ensures var r := ImportTerms(store, list, insertOk);
            LocalTerm(r.1[k].id, list[k].name, list[k].slug, list[k].taxonomy, list[k].description, 0) in r.0.terms
  {
    CreatedAtRoot(store, list, j, k, insertOk);
    KeptAtRoot(store, list, k + 1, k, insertOk);
  }

  /** After the iteration for a new entry whose parent's entry is not yet local, it is in the store at the root. */
  lemma CreatedAtRoot(store: TermStore, list: seq<ExportedTerm>, j: nat, k: nat, insertOk: ExportedTerm -> bool)
    requires k < j < |list| && AllInserted(list, insertOk)
    requires FindTermUsingId(list[k].parent, list) == Some(list[j])
    requires NewAt(store, list, k) && NewAt(store, list, j)
    ensures var next := ImportUpTo(store, list, k + 1, insertOk);
            k < |next.1|
            && LocalTerm(next.1[k].id, list[k].name, list[k].slug, list[k].taxonomy, list[k].description, 0) in next.0.terms
  {
    AbsentWhenNew(store, list, k, insertOk);
    AbsentAtStage(store, list, k, list[j].slug, list[j].taxonomy, insertOk);
    ResponseAnswers(store, list, k, insertOk);
    var pk := ImportUpTo(store, list, k, insertOk);
    assert LocalParent(pk.0, list[k], list) == 0;
    Step(store, list, k + 1, insertOk);
    var next := ImportUpTo(store, list, k + 1, insertOk);
    assert next.0.terms[|pk.0.terms|] == LocalTerm(next.1[k].id, list[k].name, list[k].slug, list[k].taxonomy, list[k].description, 0);
  }

  /** A term created at the root by the first `m` iterations is still there, under its final answer. */
  lemma KeptAtRoot(store: TermStore, list: seq<ExportedTerm>, m: nat, k: nat, insertOk: ExportedTerm -> bool)
    requires k < m <= |list| && AllInserted(list, insertOk)
    requires var a := ImportUpTo(store, list, m, insertOk);
             k < |a.1| && LocalTerm(a.1[k].id, list[k].name, list[k].slug, list[k].taxonomy, list[k].description, 0) in a.0.terms
    ensures var r := ImportTerms(store, list, insertOk);
            LocalTerm(r.1[k].id, list[k].name, list[k].slug, list[k].taxonomy, list[k].description, 0) in r.0.terms
  {
    var a := ImportUpTo(store, list, m, insertOk);
    var i :| 0 <= i < |a.0.terms|
             && a.0.terms[i] == LocalTerm(a.1[k].id, list[k].name, list[k].slug, list[k].taxonomy, list[k].description, 0);
    KeptInFinal(store, list, m, i, k, k, insertOk);
  }

  /**
   * The pair `[child, root]`, neither local yet: the parent is not local when
   * the child is created, so the child is created at the root (parent 0).
   */
  lemma {:induction false} ParentLostWhenLater(store: TermStore, root: ExportedTerm, child: ExportedTerm, insertOk: ExportedTerm -> bool)
    requires root.parent == 0 && child.parent == root.termId && root.termId != 0 && child.termId != root.termId
    requires TermExists(store, root.slug, root.taxonomy).None? && TermExists(store, child.slug, child.taxonomy).None?
    requires insertOk(child)
    ensures var r := ImportTerms(store, [child, root], insertOk);
            |r.0.terms| > |store.terms| && r.0.terms[|store.terms|].parent == 0
  {
    var list := [child, root];
    assert FindTermUsingId(child.parent, list) == Some(root);
    var s1 := ImportUpTo(store, list, 1, insertOk).0;
    assert s1.terms[|store.terms|].parent == 0;
    StagePrefix(store, list, 1, 2, insertOk);
    var r := ImportUpTo(store, list, 2, insertOk);
    assert r.0.terms[|store.terms|] == r.0.terms[..|s1.terms|][|store.terms|];
  }

  // ---------------------------------------------------------------------
  // `assign_post_terms`
  // ---------------------------------------------------------------------

  /** The ids of the flagged entries of one taxonomy, in response order. */
  function FlaggedIds(resp: seq<Imported>, taxonomy: string): (ids: seq<int>)
    ensures forall x :: x in ids <==> exists i :: 0 <= i < |resp| && resp[i].belongsToPost
                                       && resp[i].taxonomy == taxonomy && resp[i].id == x
    decreases |resp|
  {
    if |resp| == 0 then []
    else
      var rest := FlaggedIds(resp[1..], taxonomy);
      assert forall i :: 1 <= i < |resp| ==> resp[i] == resp[1..][i - 1];
      if resp[0].belongsToPost && resp[0].taxonomy == taxonomy then [resp[0].id] + rest else rest
  }

  /** The position of `taxonomy`'s group, if it has one. */
  function GroupIndex(groups: seq<(string, seq<int>)>, taxonomy: string): (r: Option<nat>)
    ensures r.Some? ==> r.value < |groups| && groups[r.value].0 == taxonomy
    ensures r.None? ==> forall i :: 0 <= i < |groups| ==> groups[i].0 != taxonomy
    decreases |groups|
  {
    if |groups| == 0 then None
    else if groups[|groups| - 1].0 == taxonomy then Some(|groups| - 1)
    else GroupIndex(groups[..|groups| - 1], taxonomy)
  }

  /** Adds one id to its taxonomy's group, creating the group at the end when new (`$grouped[$tax][] = $id`). */
  function AddToGroup(groups: seq<(string, seq<int>)>, taxonomy: string, id: int): (r: seq<(string, seq<int>)>)
    requires Distinct(groups)
    ensures Distinct(r)
    ensures (exists i :: 0 <= i < |groups| && groups[i].0 == taxonomy) ==> |r| == |groups|
    ensures (forall i :: 0 <= i < |groups| ==> groups[i].0 != taxonomy) ==> r == groups + [(taxonomy, [id])]
    ensures forall i :: 0 <= i < |groups| ==> r[i].0 == groups[i].0
    ensures forall i :: 0 <= i < |groups| ==> r[i].1 == groups[i].1 + (if groups[i].0 == taxonomy then [id] else [])
  {
    match GroupIndex(groups, taxonomy)
    case Some(i) => groups[i := (taxonomy, groups[i].1 + [id])]
    case None => groups + [(taxonomy, [id])]
  }

  /** No taxonomy has two groups. */
  predicate Distinct(groups: seq<(string, seq<int>)>) {
    forall i, j :: 0 <= i < j < |groups| ==> groups[i].0 != groups[j].0
  }

  /** The grouping loop of `assign_post_terms` over the response prefix `resp[..n]`. */
  function Grouped(resp: seq<Imported>, n: nat): (g: seq<(string, seq<int>)>)
    requires n <= |resp|
    ensures Distinct(g)
    decreases n
  {
    if n == 0 then []
    else
      var g := Grouped(resp, n - 1);
      if resp[n - 1].belongsToPost then AddToGroup(g, resp[n - 1].taxonomy, resp[n - 1].id) else g
  }

  /**
   * `assign_post_terms`: the `(taxonomy, ids)` pairs passed to
   * `wp_set_post_terms`, one per taxonomy with a flagged entry, in order of
   * first appearance; each holds exactly that taxonomy's flagged ids, in
   * response order.
   */
  function AssignPostTerms(resp: seq<Imported>): (groups: seq<(string, seq<int>)>)
    ensures forall i :: 0 <= i < |groups| ==> groups[i].1 == FlaggedIds(resp, groups[i].0)
    ensures forall i, j :: 0 <= i < j < |groups| ==> groups[i].0 != groups[j].0
    ensures forall k :: 0 <= k < |resp| && resp[k].belongsToPost ==>
              exists i :: 0 <= i < |groups| && groups[i].0 == resp[k].taxonomy
    ensures forall i :: 0 <= i < |groups| ==> |groups[i].1| > 0
  {
    GroupedMatchesReference(resp, |resp|);
    GroupedCovers(resp, |resp|);
    assert resp[..|resp|] == resp;
    Grouped(resp, |resp|)
  }

  /** The loop's groups after `n` entries agree with the per-taxonomy filter of `resp[..n]`. */
  lemma {:induction false} GroupedMatchesReference(resp: seq<Imported>, n: nat)
    requires n <= |resp|
    ensures var g := Grouped(resp, n);
            forall i :: 0 <= i < |g| ==> g[i].1 == FlaggedIds(resp[..n], g[i].0) && |g[i].1| > 0
    decreases n
  {
    if n > 0 {
      GroupedMatchesReference(resp, n - 1);
      GroupedCovers(resp, n - 1);
      var g0 := Grouped(resp, n - 1);
      var e := resp[n - 1];
      FlaggedIdsSnoc(resp[..n - 1], e);
      assert resp[..n] == resp[..n - 1] + [e];
      if e.belongsToPost && forall i :: 0 <= i < |g0| ==> g0[i].0 != e.taxonomy {
        NotGroupedMeansNoneFlagged(resp, n - 1, e.taxonomy);
      }
    }
  }

  /** After `n` entries, every flagged entry among them has its taxonomy's group. */
  lemma {:induction false} GroupedCovers(resp: seq<Imported>, n: nat)
    requires n <= |resp|
    ensures var g := Grouped(resp, n);
            forall k :: 0 <= k < n && resp[k].belongsToPost ==> exists i :: 0 <= i < |g| && g[i].0 == resp[k].taxonomy
    decreases n
  {
    if n > 0 {
      GroupedCovers(resp, n - 1);
      var g0 := Grouped(resp, n - 1);
      var e := resp[n - 1];
      var g := Grouped(resp, n);
      forall k | 0 <= k < n && resp[k].belongsToPost
        ensures exists i :: 0 <= i < |g| && g[i].0 == resp[k].taxonomy
      {
        if k < n - 1 {
          var i :| 0 <= i < |g0| && g0[i].0 == resp[k].taxonomy;
          assert g[i].0 == g0[i].0;
        } else if forall i :: 0 <= i < |g0| ==> g0[i].0 != e.taxonomy {
          assert g[|g0|].0 == e.taxonomy;
        } else {
          var i :| 0 <= i < |g0| && g0[i].0 == e.taxonomy;
          assert g[i].0 == e.taxonomy;
        }
      }
      assert g == Grouped(resp, n);
    }
  }

  lemma FlaggedIdsSnoc(resp: seq<Imported>, e: Imported)
    ensures forall tax :: FlaggedIds(resp + [e], tax)
                          == FlaggedIds(resp, tax) + (if e.belongsToPost && e.taxonomy == tax then [e.id] else [])
    decreases |resp|
  {
    if |resp| > 0 {
      assert (resp + [e])[1..] == resp[1..] + [e];
      FlaggedIdsSnoc(resp[1..], e);
    }
  }

  /** A taxonomy without a group after `n` entries has no flagged entry among them. */
  lemma NotGroupedMeansNoneFlagged(resp: seq<Imported>, n: nat, tax: string)
    requires n <= |resp|
    requires forall k :: 0 <= k < n && resp[k].belongsToPost ==>
               exists i :: 0 <= i < |Grouped(resp, n)| && Grouped(resp, n)[i].0 == resp[k].taxonomy
    requires forall i :: 0 <= i < |Grouped(resp, n)| ==> Grouped(resp, n)[i].0 != tax
    ensures FlaggedIds(resp[..n], tax) == []
  {
    forall i | 0 <= i < n
      ensures !(resp[..n][i].belongsToPost && resp[..n][i].taxonomy == tax)
    {
      assert resp[..n][i] == resp[i];
    }
    NoFlaggedIds(resp[..n], tax);
  }

  lemma NoFlaggedIds(resp: seq<Imported>, tax: string)
    requires forall i :: 0 <= i < |resp| ==> !(resp[i].belongsToPost && resp[i].taxonomy == tax)
    ensures FlaggedIds(resp, tax) == []
    decreases |resp|
  {
    if |resp| > 0 {
      NoFlaggedIds(resp[1..], tax);
    }
  }

  /** Only flagged entries are attached: an id that is attached came from a flagged entry of that taxonomy. */
  lemma {:induction false} OnlyFlaggedAttached(resp: seq<Imported>, i: nat, x: int)
    requires i < |AssignPostTerms(resp)| && x in AssignPostTerms(resp)[i].1
    ensures exists k :: 0 <= k < |resp| && resp[k].belongsToPost && resp[k].id == x
                        && resp[k].taxonomy == AssignPostTerms(resp)[i].0
  {
    var g := AssignPostTerms(resp);
    assert g[i].1 == FlaggedIds(resp, g[i].0);
  }
}

=== FILE: text.dfy ===
/**
 * String helpers with PHP's meaning: boolean conversion of strings, decimal
 * rendering of integers, and `explode`/`implode` on a one-character separator.
 */
module Text {

  /** PHP's conversion of a string to bool: only "" and "0" are false. */
  predicate Truthy(s: string) {
    s != "" && s != "0"
  }

  /** `p` occurs in `s` starting at index `i`. */
  predicate StartsAt(s: string, i: nat, p: string) {
    i + |p| <= |s| && s[i..i + |p|] == p
  }

  /** No line feed in `s` (what PCRE's `.` refuses to match without the `s` flag). */
  predicate NoNewline(s: string) {
    forall k :: 0 <= k < |s| ==> s[k] != '\n'
  }

  /** PCRE's `\s`: space, tab, line feed, vertical tab, form feed, carriage return. */
  predicate IsSpace(c: char) {
    c == ' ' || ('\t' <= c <= '\r')
  }

  predicate IsDigit(c: char) {
    '0' <= c <= '9'
  }

  function DigitChar(d: nat): (c: char)
    requires d < 10
    ensures IsDigit(c)
    ensures (c == '0') == (d == 0)
  {
    "0123456789"[d]
  }

  /** Decimal rendering of a natural number, without leading zeros. */
  function NatToString(n: nat): (r: string)
    ensures |r| >= 1
    ensures forall k :: 0 <= k < |r| ==> IsDigit(r[k])
    ensures (r == "0") == (n == 0)
    decreases n
  {
    if n < 10 then [DigitChar(n)] else NatToString(n / 10) + [DigitChar(n % 10)]
  }

  /** What PHP prints for an integer (`(string)$n`). */
  function IntToString(n: int): (r: string)
    ensures Truthy(r) == (n != 0)
  {
    if n < 0 then "-" + NatToString(-n) else NatToString(n)
  }

  /** PHP's `explode(sep, s)`: always at least one part; parts never hold the separator. */
  function Split(s: string, sep: char): (parts: seq<string>)
    ensures |parts| >= 1
    ensures forall i :: 0 <= i < |parts| ==> sep !in parts[i]
    decreases |s|
  {
    if |s| == 0 then [""]
    else if s[0] == sep then [""] + Split(s[1..], sep)
    else
      var rest := Split(s[1..], sep);
      [[s[0]] + rest[0]] + rest[1..]
  }

  /** PHP's `implode(sep, parts)`. */
  function Join(parts: seq<string>, sep: char): string
    decreases |parts|
  {
    if |parts| == 0 then ""
    else if |parts| == 1 then parts[0]
    else parts[0] + [sep] + Join(parts[1..], sep)
  }

  /** `implode` undoes `explode`. */
  lemma {:induction false} JoinSplit(s: string, sep: char)
    ensures Join(Split(s, sep), sep) == s
    decreases |s|
  {
    if |s| == 0 {
    } else if s[0] == sep {
      JoinSplit(s[1..], sep);
      assert s == [sep] + s[1..];
    } else {
      var rest := Split(s[1..], sep);
      JoinSplit(s[1..], sep);
      var parts := [[s[0]] + rest[0]] + rest[1..];
      assert Split(s, sep) == parts;
      assert parts[0] == [s[0]] + rest[0] && parts[1..] == rest[1..];
      assert s == [s[0]] + s[1..];
      if |rest| > 1 {
        assert Join(parts, sep) == parts[0] + [sep] + Join(rest[1..], sep);
        assert Join(rest, sep) == rest[0] + [sep] + Join(rest[1..], sep);
      }
    }
  }

  /** `explode` undoes `implode` when no part holds the separator. */
  lemma {:induction false} SplitJoin(parts: seq<string>, sep: char)
    requires |parts| >= 1
    requires forall i :: 0 <= i < |parts| ==> sep !in parts[i]
    ensures Split(Join(parts, sep), sep) == parts
    decreases |parts|, |parts[0]|
  {
    if |parts[0]| == 0 {
      if |parts| == 1 {
      } else {
        SplitJoin(parts[1..], sep);
        assert Join(parts, sep) == [sep] + Join(parts[1..], sep);
        assert [""] + parts[1..] == parts;
      }
    } else {
      var c := parts[0][0];
      var shorter := [parts[0][1..]] + parts[1..];
      assert shorter[1..] == parts[1..];
      SplitJoin(shorter, sep);
      assert Join(parts, sep) == [c] + Join(shorter, sep) by {
        if |parts| == 1 {
          assert parts[0] == [c] + parts[0][1..];
        } else {
          assert parts[0] == [c] + parts[0][1..];
        }
      }
      assert c != sep by { assert c == parts[0][0]; }
      var j := Join(shorter, sep);
      assert ([c] + j)[1..] == j;
    }
  }
}

=== FILE: wrappers.dfy ===
/** Optional values, standing in for PHP's `false`/`null` returns. */
module Wrappers {

  datatype Option<+T> = None | Some(value: T) {

    /** The wrapped value, or `default` when there is none. */
    function GetOr(default: T): T {
      match this
      case Some(v) => v
      case None => default
    }
  }
}
